=== FILE: README.md ===
# Project dashboard state logic in Dafny

This project models the pure state logic of a client-side
project-management dashboard written as React components. The logic
covers:

- the Kanban board (drag-and-drop status changes, add, update and delete,
  progress, the deadline reminder and the filter menu);
- the task list tabs and sort;
- the two calendars;
- the add-task, add-project and schedule-meeting forms;
- the meetings page and the sidebar's meetings panel;
- the task detail dialog;
- the FAQ search and the team directory;
- the project detail page.

Every handler is a pure function over immutable records: `Task`, `Meeting`,
the form states, the reminder slot and the month cursor. The clock
(`new Date()`) is a `Moment` parameter: a local date plus milliseconds
since its midnight. `Date.now()` is a `stamp: nat` parameter.

Modules follow the components:

| module | component |
|---|---|
| `Seqs` | JavaScript array operations |
| `Text` | string operations |
| `Calendar` | `Date` and date-fns |
| `Deadlines` | deadline comparisons |
| `Domain` | shared records |
| `Board` | project-management-board |
| `TaskCard` | task-card |
| `TaskList` | tasks-view |
| `CalendarView` | calendar-view |
| `CalendarPage` | calendar-page |
| `TaskForm` | add-task-dialog |
| `ProjectForm` | add-project-dialog |
| `Meetings` | meetings-page |
| `MeetingsPanel` | meetings-panel |
| `TaskDetail` | task-detail-dialog |
| `Help` | help-page |
| `Team` | team-view |
| `Project` | project-detail |

The three `handleAddTask` handlers, in the board, the task list and the
calendar page, are the same code. `Board.AddTask` models all three.

## Model

| member | source | states |
|---|---|---|
| Text.TrimStart | components/help-page.tsx:108 | The result is a suffix of the input; everything dropped is whitespace and the first character kept is not |
| Text.TrimEnd | components/help-page.tsx:108 | The result is a prefix of the input; everything dropped is whitespace and the last character kept is not |
| Text.BlankIffAllSpace | components/add-task-dialog.tsx:56-62 | `!s.trim()` holds exactly when every character is whitespace |
| Text.ToLower | components/help-page.tsx:115 | Same length; each character is lower-cased on its own, and letters other than A-Z are kept |
| Text.ToLowerIdempotent | components/team-view.tsx:150 | Lower-casing an already lower-cased string changes nothing |
| Text.ContainsEmpty | components/team-view.tsx:144-147 | Every string includes the empty string, so an empty search passes everything |
| Text.IncludesIgnoreCaseOfLower | components/help-page.tsx:115 | Lower-casing the query first does not change a case-insensitive match |
| Text.DecimalString | components/calendar-view.tsx:47 | `String(n)` is all digits and non-empty; one digit exactly for n < 10 |
| Text.DecimalRoundTrip | components/calendar-view.tsx:47 | Reading back the printed digits gives the number |
| Text.DecimalStringInjective | components/project-management-board.tsx:127 | Different numbers print differently |
| Text.PadZero | components/calendar-view.tsx:47 | `padStart(w, "0")` has length max(w, \|s\|), ends with s, and is '0' before it |
| Text.LeadingDigits | components/meetings-page.tsx:140 | The longest all-digit prefix: the next character, if any, is not a digit |
| Text.ParseInt | components/meetings-page.tsx:140 | `Number.parseInt` gives a number exactly when the text starts with a digit; the number is the value of the leading digits |
| Text.ParseIntRoundTrip | components/add-project-dialog.tsx:149 | parseInt of a printed number is that number |
| Calendar.DaysInMonth | components/calendar-view.tsx:16-18 | A month has 28 to 31 days; 29 exactly for February of a leap year, 28 exactly for February of a common year |
| Calendar.FirstWeekdayOfNextMonth | components/calendar-view.tsx:20-23 | The next month starts on this month's first weekday advanced by this month's length, mod 7 |
| Calendar.WeekdayAdvances | components/calendar-page.tsx:56-58 | k days later the weekday is k steps on, mod 7 |
| Calendar.WeekdayAnchors | components/calendar-page.tsx:56-58 | `getDay()` counts from Sunday: 1 January 1970 is a Thursday (4) and 1 January 2000 a Saturday (6) |
| Calendar.CeilDaysUntilIsDayDifference | components/task-card.tsx:21-22 | Rounding up the milliseconds to a midnight deadline gives the difference in calendar days, whatever the time of day |
| Calendar.ParseClock | components/meetings-page.tsx:167 | Only a five-character `HH:mm` reads as a time, with hour below 24 and minute below 60 |
| Calendar.ParseKey | components/task-card.tsx:20 | Only a ten-character `yyyy-MM-dd` naming an existing day reads as a date |
| Calendar.ParseIsoKey | components/add-task-dialog.tsx:91 | A date formatted `yyyy-MM-dd` parses back to the same date, for years 1 to 9999 |
| Calendar.KeyReadsBack | components/add-project-dialog.tsx:144-145 | A stored key written from a day reads back as that day |
| Calendar.IsoKeyOfParse | components/task-detail-dialog.tsx:51 | A date read from a key formats back to the same key |
| Calendar.IsoKeyInjective | components/calendar-page.tsx:61-63 | Two dates in years 1 to 9999 share a key only if they are equal |
| Calendar.YearZeroSharesKey | components/add-task-dialog.tsx:91 | `yyyy` prints the era year, so year 0 (1 BC) and year 1 get the same key |
| Deadlines.ApproachingIffWithinTwoDays | components/task-card.tsx:18-24 | The deadline is approaching exactly when the due day is today, tomorrow or the day after |
| Deadlines.PastDueIffEarlierDay | components/tasks-view.tsx:118-122 | `new Date(due) < now` holds exactly when the due day is past, or is today after midnight |
| Deadlines.DueWithinWeekDays | components/project-management-board.tsx:339-358 | Due within a week means 1 to 7 days ahead, or today only at exactly midnight |
| Text.StampedId | components/project-management-board.tsx:127 | An id `${prefix}${Date.now()}` starts with the prefix and continues with the timestamp's digits; tasks use `task-`, meetings `meeting-`, projects `project-` |
| Text.StampedIdInjective | components/project-management-board.tsx:127 | Under one prefix, different timestamps give different ids |
| Domain.FromDraft | components/project-management-board.tsx:130-139 | The built task has the new id and every submitted field |
| Domain.Column | components/project-management-board.tsx:373-396 | A column holds exactly the tasks with its status, in list order |
| Domain.ColumnsPartition | components/project-management-board.tsx:373-396 | The four columns hold every task exactly once |
| Domain.ColumnSizes | components/project-management-board.tsx:373-396 | The column counts add up to the number of tasks |
| Board.OnDragEnd | components/project-management-board.tsx:76-102 | A drop with no destination, or back to the same place, changes nothing. Otherwise exactly the dragged task gets the destination status and all else stays. The completed toast fires exactly when a task lands in done from another column |
| Board.SameColumnDropKeepsTasks | components/project-management-board.tsx:80-92 | Reordering within a column leaves the task list as it was |
| Board.DragBackRestores | components/project-management-board.tsx:85-92 | Dragging a card away and back restores the list |
| Board.AddTask | components/project-management-board.tsx:125-150 | Appends exactly one task, built from the draft under the stamp's id, and leaves earlier tasks unchanged. The task list and calendar pages run the same handler |
| Board.UpdateTask | components/project-management-board.tsx:157-165 | Tasks with the updated id are replaced; every other task is kept in place |
| Board.DeleteTask | components/project-management-board.tsx:167-176 | Removes exactly the tasks with the id and keeps the rest as a subsequence, in their order |
| Board.DeleteUnknownId | components/project-management-board.tsx:167-176 | Deleting an unknown id changes nothing |
| Board.UpdateUnknownId | components/project-management-board.tsx:157-165 | Updating an unknown id changes nothing |
| Board.UpdateIdempotent | components/project-management-board.tsx:157-165 | Applying the same update twice is applying it once |
| Board.AddThenDeleteRestores | components/project-management-board.tsx:125-176 | Deleting a just-added task restores the list |
| Board.DeleteAfterUpdate | components/project-management-board.tsx:157-176 | Deleting after updating a task is the same as deleting it |
| Board.Progress | components/project-management-board.tsx:49-52 | Progress lies in 0..100 and is 0 for an empty board |
| Board.ProgressFullIffAllDone | components/project-management-board.tsx:49-52 | Progress is 100 exactly when every task is done |
| Board.ProgressZeroIffNoneDone | components/project-management-board.tsx:49-52 | Progress is 0 exactly when no task is done |
| Board.ReminderText | components/project-management-board.tsx:65 | The message embeds the task title between the fixed opening and closing text |
| Board.CheckReminder | components/project-management-board.tsx:54-73 | The slot changes exactly when some open task is due within two days and the slot is hidden and empty; it then shows the first such task |
| Board.ApproachingTasksByDays | components/project-management-board.tsx:56-62 | A task triggers a reminder exactly when it is not done and due 0 to 2 days from today |
| Board.CheckReminderSettles | components/project-management-board.tsx:64-73 | Re-running the effect after it fires changes nothing more |
| Board.Dismiss | components/project-management-board.tsx:104-107 | Dismissing hides the reminder and clears its message |
| Board.Hide | components/project-management-board.tsx:109-112 | Acknowledging or auto-hiding hides the reminder and keeps the message |
| Board.DismissRearms | components/project-management-board.tsx:104-107 | After a dismiss, the next check shows a reminder exactly when a task needs one |
| Board.HideBlocks | components/project-management-board.tsx:69-71 | After a hide, no later task list or clock shows another reminder |
| Board.ApplyBoardFilter | components/project-management-board.tsx:304-358 | Each menu entry lists, in order, the initial tasks it selects: all, John Doe's, high priority, or due this week. "My Tasks" throws on an unassigned task and leaves the list |
| Board.FilterDiscardsEdits | components/project-management-board.tsx:304-358 | The filtered list does not depend on the edits made before choosing |
| TaskCard.HighlightedByDays | components/task-card.tsx:72 | A card is highlighted exactly when it is not done and due 0 to 2 days from today |
| TaskCard.PriorityVariant | components/task-card.tsx:33-44 | high, medium and low map to destructive, warning and secondary, each exactly, and every other label maps to outline |
| TaskCard.VariantOfPriority | components/task-card.tsx:33-44 | No priority gets the outline fallback, and different priorities get different variants |
| TaskList.TabTasks | components/tasks-view.tsx:29-39 | A tab lists, in order, exactly the tasks its test accepts |
| TaskList.CompletedPendingPartition | components/tasks-view.tsx:31-32 | Completed and pending split the list |
| TaskList.OverdueNarrowsPending | components/tasks-view.tsx:33-37 | Overdue is pending narrowed to tasks due before now |
| TaskList.PriorityRank | components/tasks-view.tsx:52 | The priority ordinal is 1 to 3 |
| TaskList.SortTasks | components/tasks-view.tsx:42-59 | The result is always a permutation. It is ordered by priority rank, or by due day when every date reads, ascending or descending as chosen |
| TaskList.SortTasksStable | components/tasks-view.tsx:42-59 | Tasks with equal keys keep their relative order |
| TaskList.UnknownFieldKeepsOrder | components/tasks-view.tsx:58 | An unknown sort field leaves the list as it is |
| TaskList.VisibleTasks | components/tasks-view.tsx:29-59 | The shown list is always a permutation of the tab's tasks. It is in priority order as chosen, and in due-day order when every due date reads |
| TaskList.Toggled | components/tasks-view.tsx:92 | The checkbox sends done to todo and any other status to done |
| TaskList.ToggleTask | components/tasks-view.tsx:88-109 | Only the tasks with the id change, and only in status |
| TaskList.ToggleTwice | components/tasks-view.tsx:88-109 | Toggling twice turns in-progress or review into todo and keeps todo and done |
| TaskList.ToggleTwiceRestores | components/tasks-view.tsx:88-109 | Toggling twice restores a list whose target is todo or done |
| CalendarView.OrdinalInjective | components/calendar-view.tsx:26-43 | The cursor is determined by its month count |
| CalendarView.PrevMonth | components/calendar-view.tsx:26-33 | One month back, wrapping January to December of the previous year |
| CalendarView.NextMonth | components/calendar-view.tsx:36-43 | One month on, wrapping December to January of the next year |
| CalendarView.NextUndoesPrev | components/calendar-view.tsx:26-43 | Next undoes previous and previous undoes next |
| CalendarView.ViewDaysInMonth | components/calendar-view.tsx:16-18 | 28 to 31 days; 29 exactly in February of a leap year, with two-digit years read as 19xx |
| CalendarView.ViewFirstWeekday | components/calendar-view.tsx:21-23 | The first weekday is 0 to 6 |
| CalendarView.NextMonthStartsAfter | components/calendar-view.tsx:20-23 | Next month's blanks are this month's blanks plus its length, mod 7 |
| CalendarView.CalendarCells | components/calendar-view.tsx:63-79 | The grid has firstDay + daysInMonth cells |
| CalendarView.GenerateCalendarDays | components/calendar-view.tsx:63-79 | The loops give firstDay empty cells, then the days 1 to daysInMonth in order |
| CalendarView.TodayMarkedOnce | components/calendar-view.tsx:101-104 | Today's cell holds today's day number, and no other cell is marked today |
| CalendarView.FormatDate | components/calendar-view.tsx:46-48 | The unpadded year, a dash, the two-digit month+1, a dash, the two-digit day |
| CalendarView.FormatDateIsIsoKey | components/calendar-view.tsx:46-48 | For four-digit years the text is the ISO key and parses back to the date |
| CalendarView.TasksForDate | components/calendar-view.tsx:51-54 | Exactly the tasks whose due text equals the day's text, in order |
| CalendarView.MeetingsForDate | components/calendar-view.tsx:57-60 | Exactly the meetings whose date text equals the day's text, in order |
| CalendarView.FormatDateDayInjective | components/calendar-view.tsx:46-48 | Different days of a month get different texts |
| CalendarView.DayBucketsDisjoint | components/calendar-view.tsx:51-54 | No task sits in two day buckets of the same month |
| CalendarPage.AddOneMonth | components/calendar-page.tsx:38-41 | One month on, with the day clamped to the new month's length |
| CalendarPage.SubOneMonth | components/calendar-page.tsx:34-37 | One month back, with the day clamped to the new month's length |
| CalendarPage.SubUndoesAdd | components/calendar-page.tsx:34-41 | Back after on returns to the same month, and to the same date when no clamping happened |
| CalendarPage.AddThenSubClamps | components/calendar-page.tsx:34-41 | Jan 31 goes on to Feb 28 and back to Jan 28 |
| CalendarPage.MonthDays | components/calendar-page.tsx:49-53 | The month's days, 1 to its length, in order, all in the cursor's month |
| CalendarPage.EmptyCells | components/calendar-page.tsx:117-119 | 0 to 6 blank cells |
| CalendarPage.DaysUnderTheirWeekday | components/calendar-page.tsx:56-58 | Every day sits in the column of its weekday |
| CalendarPage.TasksOn | components/calendar-page.tsx:66-70 | Exactly the tasks whose due text is the day's key, in order |
| CalendarPage.MeetingsOn | components/calendar-page.tsx:71-75 | Exactly the meetings whose date text is the day's key, in order |
| CalendarPage.TasksOnIffDueThatDay | components/calendar-page.tsx:66-70 | A task is under a day exactly when its due text reads as that day |
| CalendarPage.FirstTwo | components/calendar-page.tsx:199 | At most two items shown, the first ones |
| CalendarPage.OverflowAsWritten | components/calendar-page.tsx:220-223 | The counter appears exactly when something is hidden |
| CalendarPage.OverflowAsWrittenUndercounts | components/calendar-page.tsx:220-223 | With one list under two, the written counter is below the hidden count; 3 tasks and no meetings read "+-1 more" |
| CalendarPage.Overflow | components/calendar-page.tsx:220-223 | The counter appears exactly when a list overflows and reads the number hidden, always positive |
| CalendarPage.OverflowAccountsForDay | components/calendar-page.tsx:199-223 | Shown items plus the counter account for every item of the day |
| TaskForm.FindMember | components/add-task-dialog.tsx:88 | The member found has the id; none is found exactly when no member has it |
| TaskForm.TeamIdsDistinct | components/add-task-dialog.tsx:19-25 | The offered members have distinct ids |
| TaskForm.FindMemberOfRoster | components/add-task-dialog.tsx:88 | Each member's id finds that member |
| TaskForm.ValidationErrors | components/add-task-dialog.tsx:53-78 | Each key is present exactly when its field fails: title or description blank, date missing, meeting time empty or link blank with a meeting. Each message is exact |
| TaskForm.ValidIffComplete | components/add-task-dialog.tsx:77 | The form is valid exactly when every required field is filled |
| TaskForm.MeetingFieldsIgnoredWithoutMeeting | components/add-task-dialog.tsx:68-74 | Without a meeting, its time and link do not affect validation |
| TaskForm.DefaultFormMissesTitleAndDescription | components/add-task-dialog.tsx:40-51 | A fresh form fails on title and description only |
| TaskForm.MeetingFor | components/add-task-dialog.tsx:100-106 | A meeting exactly when one is asked for, titled "Meeting for" the task title, with the entered time and link |
| TaskForm.Submit | components/add-task-dialog.tsx:80-116 | A draft is emitted exactly when the form is complete, with the fields, the formatted date and the looked-up assignee. Otherwise the errors are shown and the dialog stays. A success resets and closes |
| TaskForm.SubmittedDraftIsComplete | components/add-task-dialog.tsx:80-116 | A submitted draft has a non-blank title and description, a due text that reads back as the chosen day, and a complete meeting |
| TaskForm.SubmittedAssignee | components/add-task-dialog.tsx:88 | Choosing an offered member assigns that member |
| TaskForm.OnOpenChange | components/add-task-dialog.tsx:121-124 | Closing through the dialog's handler gives the reset form: empty texts, to-do, medium, due today, user-1, no meeting, 09:00, no errors. Opening keeps the form |
| TaskForm.CloseForgetsInput | components/add-task-dialog.tsx:40-51 | After closing through the dialog's handler, all forms are alike and submitting emits nothing. The Cancel button bypasses this handler; see TaskForm.CancelAsWrittenKeepsErrors |
| Domain.Open | components/project-management-board.tsx:362 | Opening the dialog from the page sets the flag and keeps whatever form the dialog held |
| Domain.CancelAsWritten | components/add-task-dialog.tsx:286 | Cancel as written closes the dialog and leaves its form as it was |
| TaskForm.Cancel | components/add-task-dialog.tsx:121-124 | Cancel as intended closes through the dialog's handler and leaves the reset form |
| TaskForm.CancelAsWrittenKeepsErrors | components/add-task-dialog.tsx:284-288 | After a failed submit, Cancel as written and reopening still shows "Title is required". The intended Cancel reopens with no errors |
| ProjectForm.ProjectErrors | components/add-project-dialog.tsx:103-130 | The error object has an entry exactly for each field whose check fails, holding that check's message |
| ProjectForm.ProjectErrorKeys | components/add-project-dialog.tsx:106-126 | Name and description blank, dates missing, end before start, no team: each field's entry is present exactly when its check fails. Equal dates pass |
| ProjectForm.ProjectErrorMessages | components/add-project-dialog.tsx:106-126 | Each entry's exact message; the end date's entry tells a missing date from one before the start |
| ProjectForm.ProjectValidIffComplete | components/add-project-dialog.tsx:129 | Valid exactly when every check passes |
| ProjectForm.DefaultProjectFormMissesNameAndDescription | components/add-project-dialog.tsx:91-101 | A fresh form fails on name and description only |
| ProjectForm.ToggleMember | components/add-project-dialog.tsx:160-168 | A ticked id is removed and all others kept in their order; an unticked id is appended |
| ProjectForm.ToggleKeepsNoDuplicates | components/add-project-dialog.tsx:160-168 | Toggling keeps the selection free of repeats |
| ProjectForm.TickThenUntick | components/add-project-dialog.tsx:160-168 | Ticking and unticking an absent id restores the selection |
| ProjectForm.UntickThenTick | components/add-project-dialog.tsx:160-168 | Unticking and ticking a present id keeps the members, the others in their order, and moves the id to the end |
| ProjectForm.FindProjectMember | components/add-project-dialog.tsx:147 | The member found has the id; none exactly when no member has it |
| ProjectForm.TeamOf | components/add-project-dialog.tsx:147 | One looked-up entry per selected id, in order |
| ProjectForm.TickedMemberFound | components/add-project-dialog.tsx:147 | A ticked member of the dialog's list is looked up as that member, at its ticking position |
| ProjectForm.SubmitProject | components/add-project-dialog.tsx:132-158 | A project exactly when the form is complete. It has the fields, the formatted dates, the team looked up id by id and the parsed sprint length. Otherwise errors are shown. A success resets and closes |
| ProjectForm.SprintChoicesParse | components/add-project-dialog.tsx:149 | Each offered sprint length parses to its number |
| ProjectForm.SubmittedProjectOrdered | components/add-project-dialog.tsx:118-150 | A submitted project has a team and dates that read back, the start no later than the end |
| ProjectForm.OrderedReadings | components/add-project-dialog.tsx:120 | Clock readings in order are on days in order |
| ProjectForm.LaterDayLaterReading | components/add-project-dialog.tsx:120 | A reading on a later day is a later instant, whatever the times of day |
| ProjectForm.OnProjectOpenChange | components/add-project-dialog.tsx:173-176 | Closing through the dialog's handler gives the reset form: empty texts, both dates now, planning, user-1 ticked, scrum, 2-week sprints, no errors. Opening keeps the form |
| ProjectForm.CancelProject | components/add-project-dialog.tsx:173-176 | Cancel as intended closes through the dialog's handler and leaves the reset form |
| ProjectForm.CancelProjectAsWrittenKeepsInput | components/add-project-dialog.tsx:355-359 | After a failed submit, Cancel as written and reopening still shows the typed description and the name error. The intended Cancel reopens on the fresh form |
| Meetings.FilterMeetings | components/meetings-page.tsx:52-75 | The listed meetings are, in order, those passing the title search and the tab's date test. The today tab throws on a date that does not read |
| Meetings.MidnightOrder | components/meetings-page.tsx:63-67 | Midnights are in the order of their days |
| Meetings.TabsByDays | components/meetings-page.tsx:62-68 | Upcoming is due today or later and past is earlier, in calendar days |
| Meetings.TodayIffSameDay | components/meetings-page.tsx:70-72 | Equal keys exactly when the meeting is today |
| Meetings.UpcomingPastSplit | components/meetings-page.tsx:58-68 | Upcoming and past split the meetings that pass the search |
| Meetings.PastIsNotUpcoming | components/meetings-page.tsx:62-68 | A readable meeting is past exactly when it is not upcoming |
| Meetings.TodayIsUpcoming | components/meetings-page.tsx:62-72 | Every meeting on the today tab is on the upcoming tab |
| Meetings.SortMeetings | components/meetings-page.tsx:78-82 | Always a permutation. It is ordered by start instant when every date and time reads |
| Meetings.ClockWithinDay | components/meetings-page.tsx:79-80 | A valid time falls within its day |
| Meetings.StartOrderByDayThenTime | components/meetings-page.tsx:78-82 | Start order is day order, then time of day |
| Meetings.VisibleMeetings | components/meetings-page.tsx:52-82 | `sortedMeetings` is a permutation of the filtered list, in start order when every start reads, or throws exactly when the filter does |
| Meetings.UndatedMeetingOnTabs | components/meetings-page.tsx:52-82 | For a meeting dated "soon", the today tab's filter throws, and the upcoming and past tabs compute lists without it |
| Meetings.MeetingErrors | components/meetings-page.tsx:95-116 | Title blank, date missing, time empty (not trimmed), link blank: each key exactly when its check fails, with the exact message |
| Meetings.MeetingValidIffComplete | components/meetings-page.tsx:115 | Valid exactly when every check passes |
| Meetings.AddMeeting | components/meetings-page.tsx:118-156 | An incomplete form only shows errors. A complete one appends one meeting (participant count, formatted date, parsed duration), then resets and closes |
| Meetings.OnMeetingOpenChange | components/meetings-page.tsx:326-331 | Closing through the dialog's handler gives the reset form: empty texts, today, 09:00, 30 minutes, user-1, no errors. Opening keeps the form |
| Meetings.CancelMeeting | components/meetings-page.tsx:326-331 | Cancel as intended closes through the dialog's handler and leaves the reset form |
| Meetings.CancelMeetingAsWrittenKeepsInput | components/meetings-page.tsx:462 | After a failed submit, Cancel as written and reopening still shows the typed title and the link error. The intended Cancel reopens on the fresh form |
| Meetings.ScheduledFromDefaults | components/meetings-page.tsx:126-144 | With the default participant and a numeric duration, the meeting records one participant and that duration |
| Meetings.MinutesOf | components/meetings-page.tsx:173 | `duration \|\| 30`: a missing or zero duration counts as 30 minutes |
| Meetings.HappeningTodayByClock | components/meetings-page.tsx:165-176 | On the meeting's day, happening now means from its start to start + duration, inclusive |
| Meetings.LaterDayNotHappening | components/meetings-page.tsx:165-176 | A meeting on a later day is not happening now |
| MeetingsPanel.TodayMeetings | components/meetings-panel.tsx:16-24 | Exactly the meetings whose date reads as today's date, in order |
| MeetingsPanel.PanelAgreesWithTodayTab | components/meetings-panel.tsx:16-24 | The panel lists what the page's today tab lists with no search |
| MeetingsPanel.SortByTime | components/meetings-panel.tsx:27-35 | Always a permutation. It is ordered by time of day when every time reads |
| MeetingsPanel.PanelKeyIsHourThenMinute | components/meetings-panel.tsx:27-35 | The sort key orders by hour, then minute |
| MeetingsPanel.SortedByHourThenMinute | components/meetings-panel.tsx:27-35 | Any two listed meetings are in hour-then-minute order |
| MeetingsPanel.ClockMinute | components/meetings-panel.tsx:40-42 | The clock's minute of the day lies in 0 to 1439 |
| MeetingsPanel.ClockMinuteSplits | components/meetings-panel.tsx:38-43 | Minute of the day is hour·60 + minute |
| MeetingsPanel.HappeningNowAsWrittenMissesHourChange | components/meetings-panel.tsx:38-43 | A 09:55 meeting is not "now" at 10:05 as written, but is under the intended window |
| MeetingsPanel.AsWrittenWithinIntended | components/meetings-panel.tsx:38-43 | The written test implies the intended one, and they agree within the same hour |
| TaskDetail.OrElse | components/task-detail-dialog.tsx:52-55 | `s \|\| fallback` on text |
| TaskDetail.Load | components/task-detail-dialog.tsx:45-59 | Fields come from the task, with fallbacks; edit mode and delete confirmation are off |
| TaskDetail.Save | components/task-detail-dialog.tsx:61-91 | No task: nothing. Otherwise the task keeps its id and gets the edited fields, formatted date, looked-up assignee and meeting, and edit mode ends. An unreadable date throws |
| TaskDetail.LoadThenSaveKeepsTask | components/task-detail-dialog.tsx:45-91 | Opening a task and saving without edits hands back the same task |
| TaskDetail.AssigneeKept | components/task-detail-dialog.tsx:65 | A roster member's id looks up that member |
| TaskDetail.SaveAssignsUnassigned | components/task-detail-dialog.tsx:52 | Saving an unassigned task assigns the first member |
| TaskDetail.DeleteClick | components/task-detail-dialog.tsx:93-99 | A click while armed deletes; otherwise it arms |
| TaskDetail.DeleteNeedsTwoClicks | components/task-detail-dialog.tsx:93-99 | A freshly opened task is deleted by the second click, not the first |
| TaskDetail.StatusChange | components/task-detail-dialog.tsx:101-111 | Outside edit mode the task is updated with only its status changed; in edit mode only the field changes |
| TaskDetail.OnDetailOpenChange | components/task-detail-dialog.tsx:138-143 | Closing leaves edit mode and disarms delete; opening keeps the state |
| TaskDetail.CloseDisarmsDelete | components/task-detail-dialog.tsx:138-143 | After closing through the dialog's handler and reopening, one click never deletes |
| TaskDetail.CloseDetail | components/task-detail-dialog.tsx:138-143 | The intended footer Close leaves edit mode, disarms delete and keeps the loaded fields |
| TaskDetail.CloseAsWrittenKeepsArmed | components/task-detail-dialog.tsx:473 | After Delete once, the footer Close as written and reopening the same task, the next click deletes; the intended Close asks again |
| TaskDetail.StatusChangeIsDrag | components/task-detail-dialog.tsx:101-107 | A status button changes the board exactly as dragging the card to that column does |
| Help.Narrow | components/help-page.tsx:111-117 | A category keeps, in order, exactly its items whose question or answer contains the query, ignoring case |
| Help.NarrowAll | components/help-page.tsx:111-118 | Every category narrowed, in order |
| Help.FilterFaqs | components/help-page.tsx:107-119 | A blank query shows all categories unchanged. Otherwise only non-empty narrowed categories are shown, in order |
| Help.MatchingItemShown | components/help-page.tsx:111-119 | A matching item's category is shown and holds it |
| Help.ShownItemsMatch | components/help-page.tsx:111-119 | Every shown item matches and comes from its category |
| Help.PaddedQueryIsMatchedAsTyped | components/help-page.tsx:108-116 | " x" is not blank, yet it hides an item that "x" finds, since matching uses the untrimmed query |
| Help.ContactSubmit | components/help-page.tsx:36-39 | All four fields are cleared |
| Team.FilteredMembers | components/team-view.tsx:143-153 | In order, exactly the members matching the search and the department |
| Team.NoFilterListsEveryone | components/team-view.tsx:144-150 | An empty search with "all" lists everyone |
| Team.SearchWithinDepartment | components/team-view.tsx:143-153 | Filtering by department then searching equals filtering by both |
| Team.LowerDepartments | components/team-view.tsx:156 | Each member's department, lower-cased, in order |
| Team.Departments | components/team-view.tsx:156 | "all", then each lower-cased department once, exactly those present |
| Team.DepartmentsInFirstOccurrenceOrder | components/team-view.tsx:156 | The departments follow the directory: one met earlier comes before one first met later, as `new Set` keeps insertion order |
| Team.DepartmentChoiceSelects | components/team-view.tsx:149-156 | Every offered department lists someone with an empty search, and only its members |
| Team.DepartmentIgnoresCase | components/team-view.tsx:150 | The department choice is matched ignoring its case |
| Team.ProjectTeam | components/team-view.tsx:134 | Exactly the members working on the project, in order |
| Team.StatusBadge | components/team-view.tsx:256-257 | "Active" exactly for an active member, otherwise "On Vacation" |
| Project.LookupAsWritten | components/project-detail.tsx:493-506 | An own key finds its project. An inherited `Object.prototype` name crashes the page. Any other id shows "not found" |
| Project.FindProject | components/project-detail.tsx:493-506 | Never crashes; "not found" exactly for an id that is not a project |
| Project.LookupAsWrittenCrashesOnConstructor | components/project-detail.tsx:493-509 | `/projects/constructor` crashes as written and is "not found" as intended |
| Project.LookupsAgreeOffPrototype | components/project-detail.tsx:493 | The two lookups agree on every id but the inherited names |
| Project.CurrentSprint | components/project-detail.tsx:509 | A running sprint when there is one, otherwise the first sprint; none exactly when there are no sprints |
| Project.CurrentSprintIsFirstRunning | components/project-detail.tsx:509 | The running sprint chosen is the first |
| Project.InitActiveSprint | components/project-detail.tsx:512-514 | A chosen sprint stays; with none chosen (missing or empty id), the current sprint's id is chosen |
| Project.InitActiveSprintSettles | components/project-detail.tsx:512-514 | When the current sprint's id is not empty, re-running the update changes nothing and a sprint is then chosen |
| Project.EmptySprintIdNeverSettles | components/project-detail.tsx:512-514 | With an empty current sprint id the chosen id still reads as unset, so the update fires on every render |
| Project.Lane | components/project-detail.tsx:517-522 | Exactly the tasks with the lane's status, in order |
| Project.SprintTasks | components/project-detail.tsx:517-522 | One lane per status |
| Project.LanesPartition | components/project-detail.tsx:517-522 | The four lanes hold every task exactly once |
| Project.SprintTasksPartition | components/project-detail.tsx:517-522 | The sprint board shows every task exactly once |
| Project.AssignedCount | components/project-detail.tsx:955 | The number of tasks with the member's name: zero exactly when none has it |
| Project.DoneCount | components/project-detail.tsx:963-965 | Done tasks never exceed assigned ones |
| Project.Rate | components/project-detail.tsx:962-971 | Within half a point of the exact percentage, rounding half up; 0 to 100, 0 with nothing assigned or done, 100 when all are done |
| Project.CompletionRate | components/project-detail.tsx:962-971 | 0 to 100, 0 for a member without tasks, 100 when all of a member's tasks are done |
| Project.NoTasksNoRate | components/project-detail.tsx:966-969 | A member with no tasks shows 0%, not a division by zero |
| Project.AllDoneFullRate | components/project-detail.tsx:962-971 | A member whose every task is done shows 100% |
| Project.AssignedAcrossLanes | components/project-detail.tsx:517-522 | A member's assigned count is the sum over the four lanes |

## Left out

- Time zone: `new Date()` is taken to be in UTC. `new Date("yyyy-MM-dd")` (UTC midnight) and the local clock then share one day scale, and the offset a real time zone puts between them is not modelled.
- Date text: `new Date(text)` is modelled as a strict `yyyy-MM-dd` reader, and time text as a strict `HH:mm` reader. Engines accept more forms; anything else is an Invalid Date here.
- The `Date` range: years outside 0 to 9999 and the ±8.64e15 ms limit are not modelled.
- Calendar.IsoKeyInjective: stated for years 1 to 9999, because date-fns prints the era year and year 0 shares year 1's key (`Calendar.YearZeroSharesKey`).
- Text.ToLower: folds ASCII letters only, and Text.Trim drops ASCII whitespace only; Unicode case mapping and whitespace are left out.
- Text.ParseInt: leading whitespace, a sign and radix prefixes are not modelled; text that does not start with a digit gives no number (`NaN`).
- Board.Progress: computed on exact reals, not floating point; the rendering with `toFixed` is left out.
- Project.Rate: rounds the exact rational, not the floating-point product `Math.round` sees.
- Toasts, `console.log`, routing and the 5-second `setTimeout` are events outside the state. Only their state effects are modelled, as `Board.Hide` for the auto-hide.
- The project board's `onDragEnd` only logs its argument and changes no state. There is no transition to model.
- The FAQ fixture texts, the team directory, the project records and the sample tasks and meetings are data. The model takes them as parameters.
- ProjectForm.SubmitProject: the start and end defaults both come from `new Date()`; the model reads them as one clock value.
- TaskList.SortTasks: with the date sort and a due date that does not read, the comparator answers NaN and `sort` leaves the order to the engine, so only the permutation is promised.
- TaskList.SortTasksStable: stated only when every due date reads under the date sort, for the same reason.
- Meetings.SortMeetings: with a date or time that does not read, only the permutation is promised, as for the task sort.
- MeetingsPanel.SortByTime: with a time that does not read, only the permutation is promised, as for the task sort.
- Meetings.AddMeeting: the participant picker never changes the default selection in the page, so the count is that of whatever selection the form holds.
- Rendering a listed meeting or task whose date does not read throws in date-fns `format`: at components/meetings-page.tsx:245, components/tasks-view.tsx:242 and components/task-detail-dialog.tsx:322. The model computes the lists and does not model rendering, so this throw is not represented.
- Project.InitActiveSprintSettles: holds only when the current sprint's id is not empty. With an empty id the update fires on every render, as Project.EmptySprintIdNeverSettles states, and React gives up with "Too many re-renders". React's render loop is not modelled. The project data holds no sprint with an empty id.
- Meetings.FilterMeetings: the `OtherMeetingTab` case models the filter's fall-through; no control on the page selects it.
- Presentation: the status badge of a project, the readable date formats, styling and animation.
- Analytics, settings, sidebar and chart plumbing are not part of this model.
- Only the four column statuses are modelled. A task whose status is some other text is not representable.

## Findings

| source | as written | input that shows it | evidently intended | confidence | as-written member | corrected member |
|---|---|---|---|---|---|---|
| components/calendar-page.tsx:220-223 | the "+N more" counter reads tasks + meetings − 4 whenever either list has more than two | a day with 3 tasks and no meetings shows "+-1 more" | the number of items not shown | not executed | CalendarPage.OverflowAsWritten, CalendarPage.OverflowAsWrittenUndercounts | CalendarPage.Overflow |
| components/meetings-panel.tsx:38-43 | "Now" needs the same hour and a minute difference under 15 | a 09:55 meeting at 10:05 is not marked | within 15 minutes of the start, across the hour | not executed | MeetingsPanel.HappeningNowAsWritten, MeetingsPanel.HappeningNowAsWrittenMissesHourChange | MeetingsPanel.HappeningNow |
| components/project-detail.tsx:493 | `projectData[projectId] \|\| null` also finds names inherited from `Object.prototype` | `/projects/constructor` passes the not-found test and crashes on `project.sprints.find` | "Project Not Found" for every id that is not a project | not executed | Project.LookupAsWritten, Project.LookupAsWrittenCrashesOnConstructor | Project.FindProject |
| components/add-task-dialog.tsx:286 | Cancel calls the page's setter directly and skips the reset in the dialog's own close handler | submit an empty form, press Cancel, reopen: "Title is required" is still shown | Cancel resets the form like every other close | not executed | Domain.CancelAsWritten, TaskForm.CancelAsWrittenKeepsErrors | TaskForm.Cancel |
| components/add-project-dialog.tsx:357 | Cancel calls the page's setter directly and skips the reset | type a description, submit without a name, press Cancel, reopen: the description and the name error are still there | Cancel resets the form | not executed | Domain.CancelAsWritten, ProjectForm.CancelProjectAsWrittenKeepsInput | ProjectForm.CancelProject |
| components/meetings-page.tsx:462 | Cancel sets the open flag directly and skips `resetForm` | type a title, submit without a link, press Cancel, reopen: the title and the link error are still there | Cancel resets the form | not executed | Domain.CancelAsWritten, Meetings.CancelMeetingAsWrittenKeepsInput | Meetings.CancelMeeting |
| components/task-detail-dialog.tsx:473 | the footer Close calls the board's setter directly and skips the handler that disarms delete | open a task, press Delete once, press Close, open the same task again, press Delete: the task is deleted without a second confirmation | Close disarms the delete confirmation like every other close | not executed | Domain.CancelAsWritten, TaskDetail.CloseAsWrittenKeepsArmed | TaskDetail.CloseDetail |

=== FILE: board.dfy ===
/** The kanban board's state logic: drag-and-drop status changes, adding,
    updating and deleting tasks, the progress ratio, the single-slot
    deadline reminder and the filter menu. */
module Board {
  import opened Seqs
  import opened Text
  import opened Calendar
  import opened Domain
  import opened Deadlines

  // ---------------------------------------------------------------------
  // Drag and drop
  // ---------------------------------------------------------------------

  /** Where a card was picked up or dropped: a column and a position in it. */
  datatype DragLocation = DragLocation(droppableId: Status, index: int)

  /** What the drag library reports when a drag ends; `destination` is
      `None` for a drop outside every column. */
  datatype DropResult = DropResult(source: DragLocation, destination: Option<DragLocation>, draggableId: string)

  /** The new task list and whether the "Task completed" toast fires. */
  datatype DropOutcome = DropOutcome(tasks: seq<Task>, completedToast: bool)

  /** A drop that changes something: it landed in a column and not where
      the card started. */
  predicate Moved(drop: DropResult)
  {
    drop.destination.Some? && drop.destination.value != drop.source
  }

  function OnDragEnd(tasks: seq<Task>, drop: DropResult): (r: DropOutcome)
    ensures !Moved(drop) ==> r == DropOutcome(tasks, false)
    ensures |r.tasks| == |tasks|
    ensures Moved(drop) ==> forall i :: 0 <= i < |tasks| ==>
              r.tasks[i] == if tasks[i].id == drop.draggableId
                            then tasks[i].(status := drop.destination.value.droppableId)
                            else tasks[i]
    ensures r.completedToast <==> Moved(drop) && drop.destination.value.droppableId == Done && drop.source.droppableId != Done
  {
    if !Moved(drop) then DropOutcome(tasks, false)
    else
      var dest := drop.destination.value.droppableId;
      var updated := seq(|tasks|, i requires 0 <= i < |tasks| =>
                       if tasks[i].id == drop.draggableId then tasks[i].(status := dest) else tasks[i]);
      DropOutcome(updated, dest == Done && drop.source.droppableId != Done)
  }

  /** Reordering a card inside its own column changes no task: the board
      keeps no order of its own. */
  lemma {:induction false} SameColumnDropKeepsTasks(tasks: seq<Task>, drop: DropResult)
    requires drop.destination.Some? && drop.destination.value.droppableId == drop.source.droppableId
    requires forall i :: 0 <= i < |tasks| && tasks[i].id == drop.draggableId ==> tasks[i].status == drop.source.droppableId
    ensures OnDragEnd(tasks, drop).tasks == tasks
  {
    var r := OnDragEnd(tasks, drop).tasks;
    assert forall i :: 0 <= i < |tasks| ==> r[i] == tasks[i];
  }

  /** Dragging a card to another column and back again restores the list. */
  lemma {:induction false} DragBackRestores(tasks: seq<Task>, id: string, from: DragLocation, to: DragLocation)
    requires forall i :: 0 <= i < |tasks| && tasks[i].id == id ==> tasks[i].status == from.droppableId
    ensures OnDragEnd(OnDragEnd(tasks, DropResult(from, Some(to), id)).tasks, DropResult(to, Some(from), id)).tasks == tasks
  {
    var mid := OnDragEnd(tasks, DropResult(from, Some(to), id)).tasks;
    var back := OnDragEnd(mid, DropResult(to, Some(from), id)).tasks;
    assert forall i :: 0 <= i < |tasks| ==> back[i] == tasks[i];
  }

  // ---------------------------------------------------------------------
  // Add, update, delete
  // ---------------------------------------------------------------------

  /** `handleAddTask`: the draft becomes a task with id `task-<stamp>` at
      the end of the list. */
  function AddTask(tasks: seq<Task>, draft: TaskDraft, stamp: nat): (r: seq<Task>)
    ensures |r| == |tasks| + 1
    ensures r[..|tasks|] == tasks
    ensures r[|tasks|].id == TaskId(stamp) && ToDraft(r[|tasks|]) == draft
  {
    tasks + [FromDraft(draft, stamp)]
  }

  /** `handleTaskUpdate`: every task with the updated task's id is replaced
      by it; the others stay where they are. */
  function UpdateTask(tasks: seq<Task>, updated: Task): (r: seq<Task>)
    ensures |r| == |tasks|
    ensures forall i :: 0 <= i < |tasks| && tasks[i].id == updated.id ==> r[i] == updated
    ensures forall i :: 0 <= i < |tasks| && tasks[i].id != updated.id ==> r[i] == tasks[i]
  {
    seq(|tasks|, i requires 0 <= i < |tasks| => if tasks[i].id == updated.id then updated else tasks[i])
  }

  function HasId(id: string): Task -> bool
  {
    (t: Task) => t.id == id
  }

  /** `handleTaskDelete`: the tasks with another id, in their order. */
  function DeleteTask(tasks: seq<Task>, id: string): (r: seq<Task>)
    ensures forall i :: 0 <= i < |r| ==> r[i].id != id
    ensures forall t :: t in r <==> t in tasks && t.id != id
    ensures |r| == |tasks| - Count(tasks, HasId(id))
    ensures SubsequenceOf(r, tasks)
  {
    FilterIsSubsequence(tasks, (t: Task) => t.id != id);
    FilterPartition(tasks, HasId(id));
    FilterCongruent(tasks, Not(HasId(id)), (t: Task) => t.id != id);
    Filter(tasks, (t: Task) => t.id != id)
  }

  predicate IdAbsent(tasks: seq<Task>, id: string)
  {
    forall i :: 0 <= i < |tasks| ==> tasks[i].id != id
  }

  /** Deleting an id no task has changes nothing. */
  lemma {:induction false} DeleteUnknownId(tasks: seq<Task>, id: string)
    requires IdAbsent(tasks, id)
    ensures DeleteTask(tasks, id) == tasks
  {
    FilterAll(tasks, (t: Task) => t.id != id);
  }

  /** Updating with an id no task has changes nothing. */
  lemma {:induction false} UpdateUnknownId(tasks: seq<Task>, updated: Task)
    requires IdAbsent(tasks, updated.id)
    ensures UpdateTask(tasks, updated) == tasks
  {
  }

  /** Applying the same update twice is applying it once. */
  lemma {:induction false} UpdateIdempotent(tasks: seq<Task>, updated: Task)
    ensures UpdateTask(UpdateTask(tasks, updated), updated) == UpdateTask(tasks, updated)
  {
  }

  /** Deleting a task just added under a fresh id gives back the list. */
  lemma {:induction false} AddThenDeleteRestores(tasks: seq<Task>, draft: TaskDraft, stamp: nat)
    requires IdAbsent(tasks, TaskId(stamp))
    ensures DeleteTask(AddTask(tasks, draft, stamp), TaskId(stamp)) == tasks
  {
    var p := (t: Task) => t.id != TaskId(stamp);
    FilterAppend(tasks, [FromDraft(draft, stamp)], p);
    FilterAll(tasks, p);
    assert Filter([FromDraft(draft, stamp)], p) == [];
  }

  /** After an update, deleting its id removes exactly what deleting it
      before would have. */
  lemma {:induction false} DeleteAfterUpdate(tasks: seq<Task>, updated: Task)
    ensures DeleteTask(UpdateTask(tasks, updated), updated.id) == DeleteTask(tasks, updated.id)
  {
    FilterAgrees(UpdateTask(tasks, updated), tasks, (t: Task) => t.id != updated.id);
  }

  // ---------------------------------------------------------------------
  // Progress
  // ---------------------------------------------------------------------

  /** Percentage of tasks in the done column; 0 for an empty board. */
  function Progress(tasks: seq<Task>): (r: real)
    ensures 0.0 <= r <= 100.0
    ensures tasks == [] ==> r == 0.0
  {
    if |tasks| > 0 then
      RatioBounds(Count(tasks, IsDone), |tasks|);
      (Count(tasks, IsDone) as real / |tasks| as real) * 100.0
    else 0.0
  }

  lemma {:induction false} RatioBounds(c: nat, n: nat)
    requires c <= n && n > 0
    ensures 0.0 <= c as real / n as real <= 1.0
    ensures c as real / n as real == 1.0 <==> c == n
    ensures c as real / n as real == 0.0 <==> c == 0
  {
    var q := c as real / n as real;
    assert q * n as real == c as real;
  }

  /** The bar is full exactly when every task is done. */
  lemma {:induction false} ProgressFullIffAllDone(tasks: seq<Task>)
    requires tasks != []
    ensures Progress(tasks) == 100.0 <==> forall i :: 0 <= i < |tasks| ==> tasks[i].status == Done
  {
    RatioBounds(Count(tasks, IsDone), |tasks|);
    CountFullIffAll(tasks, IsDone);
  }

  /** The bar is empty exactly when no task is done. */
  lemma {:induction false} ProgressZeroIffNoneDone(tasks: seq<Task>)
    ensures Progress(tasks) == 0.0 <==> forall i :: 0 <= i < |tasks| ==> tasks[i].status != Done
  {
    if tasks != [] {
      RatioBounds(Count(tasks, IsDone), |tasks|);
      if Count(tasks, IsDone) != 0 {
        assert Filter(tasks, IsDone)[0] in tasks;
      } else {
        forall i | 0 <= i < |tasks|
          ensures tasks[i].status != Done
        {
          assert tasks[i] in tasks;
        }
      }
    }
  }

  // ---------------------------------------------------------------------
  // Deadline reminder
  // ---------------------------------------------------------------------

  /** The reminder slot: whether the toast is showing and the message it
      carries.  A non-empty message blocks further reminders. */
  datatype Reminder = Reminder(showing: bool, message: string)

  /** The opening of the message as the source file stores it: the bytes
      of a warning-sign emoji read as Windows-1252 text. */
  const ReminderPrefix: string := "\U{E2}\U{161}\U{A0}\U{EF}\U{B8} Uh-oh! Deadline's close for \""
  const ReminderSuffix: string := "\". Let's crush it!"

  function ReminderText(title: string): (m: string)
    ensures m != ""
    ensures |m| == |ReminderPrefix| + |title| + |ReminderSuffix|
    ensures m[|ReminderPrefix|..|ReminderPrefix| + |title|] == title
  {
    ReminderPrefix + title + ReminderSuffix
  }

  /** A task worth a reminder: not done, and due within two days. */
  function NeedsReminder(now: Moment): Task -> bool
  {
    (t: Task) => t.status != Done && DeadlineApproaching(t.dueDate, now)
  }

  function ApproachingTasks(tasks: seq<Task>, now: Moment): seq<Task>
  {
    Filter(tasks, NeedsReminder(now))
  }

  /** The reminder effect: when some task needs a reminder and the slot is
      empty and hidden, show a message naming the first such task. */
  function CheckReminder(tasks: seq<Task>, slot: Reminder, now: Moment): (r: Reminder)
    ensures r != slot <==> ApproachingTasks(tasks, now) != [] && !slot.showing && slot.message == ""
    ensures r != slot ==> r == Reminder(true, ReminderText(ApproachingTasks(tasks, now)[0].title))
  {
    var due := ApproachingTasks(tasks, now);
    if |due| > 0 && !slot.showing && slot.message == "" then Reminder(true, ReminderText(due[0].title))
    else slot
  }

  /** The tasks that can trigger a reminder, in whole days. */
  lemma {:induction false} ApproachingTasksByDays(tasks: seq<Task>, now: Moment, t: Task)
    ensures t in ApproachingTasks(tasks, now)
        <==> t in tasks && t.status != Done && ParseKey(t.dueDate).Some?
             && 0 <= DayNumber(ParseKey(t.dueDate).value) - DayNumber(now.date) <= 2
  {
    ApproachingIffWithinTwoDays(t.dueDate, now);
  }

  /** The effect re-runs whenever the slot changes; running it again on
      its own result changes nothing. */
  lemma {:induction false} CheckReminderSettles(tasks: seq<Task>, slot: Reminder, now: Moment)
    ensures CheckReminder(tasks, CheckReminder(tasks, slot, now), now) == CheckReminder(tasks, slot, now)
  {
  }

  /** `dismissReminder`: hide the toast and clear the message. */
  function Dismiss(slot: Reminder): (r: Reminder)
    ensures !r.showing && r.message == ""
  {
    Reminder(false, "")
  }

  /** `acknowledgeReminder`, and the five-second auto-hide timer: hide the
      toast but keep the message. */
  function Hide(slot: Reminder): (r: Reminder)
    ensures !r.showing && r.message == slot.message
  {
    slot.(showing := false)
  }

  /** After a dismiss, the next check shows a reminder exactly when some
      task needs one. */
  lemma {:induction false} DismissRearms(tasks: seq<Task>, slot: Reminder, now: Moment)
    ensures CheckReminder(tasks, Dismiss(slot), now).showing <==> ApproachingTasks(tasks, now) != []
  {
  }

  /** Once a reminder has fired, hiding it (by acknowledging or by the
      timer) blocks every later reminder, whatever the tasks and the clock. */
  lemma {:induction false} HideBlocks(tasks: seq<Task>, now: Moment, later: seq<Task>, laterNow: Moment)
    requires CheckReminder(tasks, Reminder(false, ""), now).showing
    ensures var hidden := Hide(CheckReminder(tasks, Reminder(false, ""), now));
            CheckReminder(later, hidden, laterNow) == hidden
  {
  }

  // ---------------------------------------------------------------------
  // Filter menu
  // ---------------------------------------------------------------------

  datatype BoardFilter = AllTasks | MyTasks | HighPriority | DueThisWeek

  /** The user the "My Tasks" entry is written for. */
  const CurrentUser: string := "John Doe"

  function IsMine(t: Task): bool
  {
    t.assignee.Some? && t.assignee.value.name == CurrentUser
  }

  function IsHighPriority(t: Task): bool
  {
    t.priority == High
  }

  function DueSoon(now: Moment): Task -> bool
  {
    (t: Task) => DueWithinWeek(t.dueDate, now)
  }

  /** Reading `task.assignee.name` throws for a task without an assignee,
      so "My Tasks" can fail. */
  predicate FilterThrows(choice: BoardFilter, initial: seq<Task>)
  {
    choice == MyTasks && exists i | 0 <= i < |initial| :: initial[i].assignee.None?
  }

  /** The task list after choosing a menu entry.  Every entry filters the
      initial tasks and so discards earlier adds and edits; a throwing
      handler leaves the list as it was. */
  function ApplyBoardFilter(choice: BoardFilter, initial: seq<Task>, current: seq<Task>, now: Moment): (r: seq<Task>)
    ensures FilterThrows(choice, initial) ==> r == current
    ensures !FilterThrows(choice, initial) ==> SubsequenceOf(r, initial)
    ensures !FilterThrows(choice, initial) ==> forall t :: t in r <==> (t in initial &&
              match choice
              case AllTasks => true
              case MyTasks => IsMine(t)
              case HighPriority => t.priority == High
              case DueThisWeek => DueWithinWeek(t.dueDate, now))
  {
    match choice
    case AllTasks =>
      FilterAll(initial, (t: Task) => true);
      FilterIsSubsequence(initial, (t: Task) => true);
      initial
    case MyTasks =>
      if FilterThrows(choice, initial) then current
      else
        FilterIsSubsequence(initial, IsMine);
        Filter(initial, IsMine)
    case HighPriority =>
      FilterIsSubsequence(initial, IsHighPriority);
      Filter(initial, IsHighPriority)
    case DueThisWeek =>
      FilterIsSubsequence(initial, DueSoon(now));
      Filter(initial, DueSoon(now))
  }

  /** Unless it throws, the result does not depend on the list it replaces. */
  lemma {:induction false} FilterDiscardsEdits(choice: BoardFilter, initial: seq<Task>, a: seq<Task>, b: seq<Task>, now: Moment)
    requires !FilterThrows(choice, initial)
    ensures ApplyBoardFilter(choice, initial, a, now) == ApplyBoardFilter(choice, initial, b, now)
  {
  }
}

=== FILE: calendar.dfy ===
/** Calendar arithmetic behind the JavaScript `Date` objects and the
    date-fns calls the components make.  Dates are proleptic Gregorian with
    JavaScript's 0-based month numbers; a clock reading is a local date plus
    the milliseconds since its midnight; the local time zone is taken to be
    UTC, so a `yyyy-MM-dd` string parses to local midnight. */
module Calendar {
  import opened Seqs
  import opened Text

  const MillisPerMinute: int := 60000
  const MillisPerHour: int := 3600000
  const MillisPerDay: int := 86400000

  /** JavaScript month numbering: January is 0, December is 11. */
  type MonthIndex = m: int | 0 <= m < 12

  /** Gregorian rule: every fourth year, except centuries not divisible
      by 400. */
  predicate IsLeapYear(year: int)
  {
    year % 4 == 0 && (year % 100 != 0 || year % 400 == 0)
  }

  function YearLength(year: int): int
  {
    if IsLeapYear(year) then 366 else 365
  }

  /** Length of a month; `new Date(year, month + 1, 0).getDate()`. */
  function DaysInMonth(year: int, month: MonthIndex): (n: int)
    ensures 28 <= n <= 31
    ensures n == 29 <==> month == 1 && IsLeapYear(year)
    ensures n == 28 <==> month == 1 && !IsLeapYear(year)
  {
    if month == 1 then (if IsLeapYear(year) then 29 else 28)
    else if month == 3 || month == 5 || month == 8 || month == 10 then 30
    else 31
  }

  datatype Date = Date(year: int, month: MonthIndex, day: nat)

  /** A day that exists: what every `Date` object denotes. */
  predicate ValidDate(d: Date)
  {
    1 <= d.day <= DaysInMonth(d.year, d.month)
  }

  /** Days of `year` before the first of `month` (`month` = 12 gives the
      whole year). */
  function DaysBeforeMonth(year: int, month: int): int
    requires 0 <= month <= 12
  {
    [0, 31, 59, 90, 120, 151, 181, 212, 243, 273, 304, 334, 365][month]
      + (if month >= 2 && IsLeapYear(year) then 1 else 0)
  }

  /** Each month starts `DaysInMonth` days after the previous one, and the
      twelve months fill the year exactly. */
  lemma {:induction false} MonthStep(year: int, month: MonthIndex)
    ensures DaysBeforeMonth(year, month + 1) == DaysBeforeMonth(year, month) + DaysInMonth(year, month)
    ensures DaysBeforeMonth(year, 12) == YearLength(year)
  {
  }

  /** Days from 0000-01-01 to January 1 of `year`: 365 per year plus one
      for every leap year in between. */
  function DaysBeforeYear(year: int): int
  {
    365 * year + (year + 3) / 4 - (year + 99) / 100 + (year + 399) / 400
  }

  lemma {:induction false} QuarterStep(year: int)
    ensures (year + 4) / 4 == (year + 3) / 4 + (if year % 4 == 0 then 1 else 0)
  {
  }

  lemma {:induction false} CenturyStep(year: int)
    ensures (year + 100) / 100 == (year + 99) / 100 + (if year % 100 == 0 then 1 else 0)
  {
  }

  lemma {:induction false} QuadCenturyStep(year: int)
    ensures (year + 400) / 400 == (year + 399) / 400 + (if year % 400 == 0 then 1 else 0)
  {
  }

  /** Consecutive years start `YearLength` days apart. */
  lemma {:induction false} YearStep(year: int)
    ensures DaysBeforeYear(year + 1) == DaysBeforeYear(year) + YearLength(year)
  {
    QuarterStep(year);
    CenturyStep(year);
    QuadCenturyStep(year);
    QuadCenturyIsCentury(year);
    CenturyIsQuarter(year);
    assert DaysBeforeYear(year + 1) - DaysBeforeYear(year)
        == 365 + (if year % 4 == 0 then 1 else 0) - (if year % 100 == 0 then 1 else 0) + (if year % 400 == 0 then 1 else 0);
  }

  /** A multiple of 400 is a multiple of 100. */
  lemma {:induction false} QuadCenturyIsCentury(year: int)
    ensures year % 400 == 0 ==> year % 100 == 0
  {
    var k := year / 400;
    var d := year / 100;
    assert year == 400 * k + year % 400;
    assert year == 100 * d + year % 100;
  }

  /** A multiple of 100 is a multiple of 4. */
  lemma {:induction false} CenturyIsQuarter(year: int)
    ensures year % 100 == 0 ==> year % 4 == 0
  {
    var k := year / 100;
    var d := year / 4;
    assert year == 100 * k + year % 100;
    assert year == 4 * d + year % 4;
  }

  /** Days since 0000-01-01. */
  function DayNumber(d: Date): int
  {
    DaysBeforeYear(d.year) + DaysBeforeMonth(d.year, d.month) + d.day - 1
  }

  /** `getDay()`: 0 = Sunday ... 6 = Saturday (0000-01-01 was a Saturday). */
  function Weekday(d: Date): (w: int)
    ensures 0 <= w < 7
  {
    (DayNumber(d) + 6) % 7
  }

  /** The weekday anchor: 1 January 1970 was a Thursday and 1 January 2000
      a Saturday. */
  lemma {:induction false} WeekdayAnchors()
    ensures Weekday(Date(1970, 0, 1)) == 4
    ensures Weekday(Date(2000, 0, 1)) == 6
  {
  }

  /** The calendar day after `d`. */
  function NextDay(d: Date): (r: Date)
    requires ValidDate(d)
    ensures ValidDate(r)
  {
    if d.day < DaysInMonth(d.year, d.month) then d.(day := d.day + 1)
    else if d.month < 11 then Date(d.year, d.month + 1, 1)
    else Date(d.year + 1, 0, 1)
  }

  /** Day numbers count calendar days: the next day is one further on. */
  lemma {:induction false} NextDayCounts(d: Date)
    requires ValidDate(d)
    ensures DayNumber(NextDay(d)) == DayNumber(d) + 1
  {
    MonthStep(d.year, d.month);
    if d.day == DaysInMonth(d.year, d.month) && d.month == 11 {
      YearStep(d.year);
    }
  }

  /** Weekdays advance with day numbers, modulo seven. */
  lemma {:induction false} WeekdayAdvances(a: Date, b: Date, k: int)
    requires DayNumber(b) == DayNumber(a) + k
    ensures Weekday(b) == (Weekday(a) + k) % 7
  {
    SevenShift(DayNumber(a) + 6, k);
  }

  lemma {:induction false} SevenShift(n: int, k: int)
    ensures (n + k) % 7 == (n % 7 + k) % 7
  {
  }

  /** The first of the following month falls `DaysInMonth` weekdays later. */
  lemma {:induction false} FirstWeekdayOfNextMonth(year: int, month: MonthIndex)
    ensures var next := if month < 11 then Date(year, month + 1, 1) else Date(year + 1, 0, 1);
            Weekday(next) == (Weekday(Date(year, month, 1)) + DaysInMonth(year, month)) % 7
  {
    var first := Date(year, month, 1);
    var next := if month < 11 then Date(year, month + 1, 1) else Date(year + 1, 0, 1);
    MonthStep(year, month);
    if month == 11 {
      YearStep(year);
    }
    assert DayNumber(next) == DayNumber(first) + DaysInMonth(year, month);
    WeekdayAdvances(first, next, DaysInMonth(year, month));
  }

  // ---------------------------------------------------------------------
  // Clock readings
  // ---------------------------------------------------------------------

  type DayMillis = m: int | 0 <= m < 86400000

  /** A reading of the local clock (`new Date()`): the date and the
      milliseconds since its midnight. */
  datatype Moment = Moment(date: Date, millis: DayMillis)

  /** Milliseconds since 0000-01-01T00:00 of the midnight starting `d`;
      what `new Date("yyyy-MM-dd")` denotes. */
  function Midnight(d: Date): int
  {
    DayNumber(d) * MillisPerDay
  }

  /** `getTime()` of a clock reading, on the same scale as `Midnight`. */
  function Instant(t: Moment): int
  {
    Midnight(t.date) + t.millis
  }

  /** `getHours()`. */
  function HourOf(t: Moment): (h: int)
    ensures 0 <= h < 24
  {
    t.millis / MillisPerHour
  }

  /** `getMinutes()`. */
  function MinuteOf(t: Moment): (m: int)
    ensures 0 <= m < 60
  {
    t.millis / MillisPerMinute % 60
  }

  /** `Math.ceil((new Date(due) - now) / 86400000)`: whole days until a
      deadline at midnight of `due`, rounded up. */
  function CeilDaysUntil(due: Date, now: Moment): int
  {
    -((Instant(now) - Midnight(due)) / MillisPerDay)
  }

  /** Rounding up a deadline at midnight against any time of day gives
      exactly the difference of the calendar days. */
  lemma {:induction false} CeilDaysUntilIsDayDifference(due: Date, now: Moment)
    ensures CeilDaysUntil(due, now) == DayNumber(due) - DayNumber(now.date)
  {
    var k := DayNumber(now.date) - DayNumber(due);
    assert Instant(now) - Midnight(due) == k * MillisPerDay + now.millis;
  }

  /** Time of day written `HH:mm`. */
  datatype ClockTime = ClockTime(hour: int, minute: int)

  predicate ValidClockTime(c: ClockTime)
  {
    0 <= c.hour < 24 && 0 <= c.minute < 60
  }

  /** Reads `HH:mm` with a two-digit hour below 24 and a two-digit minute
      below 60. */
  function ParseClock(s: string): (r: Option<ClockTime>)
    ensures r.Some? ==> ValidClockTime(r.value)
    ensures r.Some? ==> |s| == 5 && s[2] == ':'
  {
    if |s| == 5 && s[2] == ':' && IsDigit(s[0]) && IsDigit(s[1]) && IsDigit(s[3]) && IsDigit(s[4]) then
      var h := DigitValue(s[0]) * 10 + DigitValue(s[1]);
      var m := DigitValue(s[3]) * 10 + DigitValue(s[4]);
      if h < 24 && m < 60 then Some(ClockTime(h, m)) else None
    else None
  }

  /** Milliseconds from midnight to a time of day (`setHours(h, m, 0, 0)`). */
  function ClockMillis(c: ClockTime): int
  {
    c.hour * MillisPerHour + c.minute * MillisPerMinute
  }

  // ---------------------------------------------------------------------
  // The yyyy-MM-dd key
  // ---------------------------------------------------------------------

  /** date-fns `yyyy` prints the year of the era: year 0 is 1 BC. */
  function EraYear(year: int): nat
  {
    if year > 0 then year else 1 - year
  }

  /** `format(date, "yyyy-MM-dd")`: the calendar date in the extended
      format of ISO 8601:2004 section 4.1.2.2, zero-padded. */
  function IsoKey(d: Date): string
  {
    PadZero(DecimalString(EraYear(d.year)), 4) + "-"
      + PadZero(DecimalString(d.month + 1), 2) + "-"
      + PadZero(DecimalString(d.day), 2)
  }

  predicate KeyShape(s: string)
  {
    && |s| == 10 && s[4] == '-' && s[7] == '-'
    && IsDigit(s[0]) && IsDigit(s[1]) && IsDigit(s[2]) && IsDigit(s[3])
    && IsDigit(s[5]) && IsDigit(s[6]) && IsDigit(s[8]) && IsDigit(s[9])
  }

  /** `new Date(s)` for a date-only string: `yyyy-MM-dd` naming a day
      that exists, or nothing (an Invalid Date). */
  function ParseKey(s: string): (r: Option<Date>)
    ensures r.Some? ==> ValidDate(r.value) && 0 <= r.value.year <= 9999
    ensures r.Some? ==> KeyShape(s)
  {
    if KeyShape(s) then
      var y := DigitValue(s[0]) * 1000 + DigitValue(s[1]) * 100 + DigitValue(s[2]) * 10 + DigitValue(s[3]);
      var m := DigitValue(s[5]) * 10 + DigitValue(s[6]);
      var dd := DigitValue(s[8]) * 10 + DigitValue(s[9]);
      if 1 <= m <= 12 && 1 <= dd <= DaysInMonth(y, m - 1) then Some(Date(y, m - 1, dd)) else None
    else None
  }

  lemma {:induction false} FourDigitValue(n: nat)
    requires n < 10000
    ensures (n / 1000) * 1000 + (n / 100 % 10) * 100 + (n / 10 % 10) * 10 + n % 10 == n
  {
    assert n / 10 / 10 == n / 100;
    assert n / 100 / 10 == n / 1000;
  }

  lemma {:induction false} DigitsOfValue(a: int, b: int, c: int, e: int)
    requires 0 <= a < 10 && 0 <= b < 10 && 0 <= c < 10 && 0 <= e < 10
    ensures var n := a * 1000 + b * 100 + c * 10 + e;
            n / 1000 == a && n / 100 % 10 == b && n / 10 % 10 == c && n % 10 == e
  {
    var n := a * 1000 + b * 100 + c * 10 + e;
    assert n / 10 == a * 100 + b * 10 + c;
    assert n / 100 == a * 10 + b;
    assert n / 1000 == a;
  }

  /** The separators and the two two-character fields after the year. */
  lemma {:induction false} KeyJoin(y: string, m: string, dd: string)
    requires |m| == 2 && |dd| == 2
    ensures y + "-" + m + "-" + dd == y + ['-', m[0], m[1], '-', dd[0], dd[1]]
  {
  }

  /** The four digits of a year below 10000. */
  function YearDigits(year: int): (s: string)
    requires 0 <= year <= 9999
    ensures |s| == 4
  {
    [Digit(year / 1000), Digit(year / 100 % 10), Digit(year / 10 % 10), Digit(year % 10)]
  }

  /** What follows the year in a key: `-MM-dd` with month + 1. */
  function KeyTail(month: MonthIndex, day: nat): (s: string)
    requires day < 100
    ensures |s| == 6
  {
    ['-', Digit((month + 1) / 10), Digit((month + 1) % 10), '-', Digit(day / 10), Digit(day % 10)]
  }

  /** The ten characters of a date's key, digit by digit. */
  function Spelled(d: Date): (s: string)
    requires ValidDate(d) && 0 <= d.year <= 9999
    ensures |s| == 10
  {
    YearDigits(d.year) + KeyTail(d.month, d.day)
  }

  /** The key of a date in years 1 to 9999, character by character. */
  lemma {:induction false} IsoKeySpelled(d: Date)
    requires ValidDate(d) && 1 <= d.year <= 9999
    ensures IsoKey(d) == Spelled(d)
  {
    var y := PadZero(DecimalString(EraYear(d.year)), 4);
    var m := PadZero(DecimalString(d.month + 1), 2);
    var dd := PadZero(DecimalString(d.day), 2);
    assert EraYear(d.year) == d.year;
    PadFourDigits(d.year);
    PadTwoDigits(d.month + 1);
    PadTwoDigits(d.day);
    assert IsoKey(d) == y + "-" + m + "-" + dd;
    KeyJoin(y, m, dd);
  }

  /** The spelled-out key of a date parses back to that date. */
  lemma {:induction false} ParseSpelled(d: Date)
    requires ValidDate(d) && 1 <= d.year <= 9999
    ensures ParseKey(Spelled(d)) == Some(d)
  {
    var s := Spelled(d);
    var y, t := YearDigits(d.year), KeyTail(d.month, d.day);
    assert s[0] == y[0] && s[1] == y[1] && s[2] == y[2] && s[3] == y[3];
    assert s[4] == t[0] && s[5] == t[1] && s[6] == t[2] && s[7] == t[3] && s[8] == t[4] && s[9] == t[5];
    FourDigitValue(d.year);
  }

  /** The key of a date in years 1 to 9999 parses back to that date. */
  lemma {:induction false} ParseIsoKey(d: Date)
    requires ValidDate(d) && 1 <= d.year <= 9999
    ensures ParseKey(IsoKey(d)) == Some(d)
  {
    IsoKeySpelled(d);
    ParseSpelled(d);
  }

  /** A key written for a day reads back as that day; a form of
      `ParseIsoKey` for a key already in hand. */
  lemma {:induction false} KeyReadsBack(key: string, day: Date)
    requires key == IsoKey(day) && ValidDate(day) && 1 <= day.year <= 9999
    ensures ParseKey(key) == Some(day)
  {
    ParseIsoKey(day);
  }

  /** Spelling out a parsed date gives back the string read. */
  lemma {:induction false} ParsedDigits(s: string)
    requires ParseKey(s).Some?
    ensures Spelled(ParseKey(s).value) == s
  {
    ParsedYear(s);
    ParsedTail(s);
    assert s == s[..4] + s[4..];
  }

  lemma {:induction false} ParsedYear(s: string)
    requires ParseKey(s).Some?
    ensures YearDigits(ParseKey(s).value.year) == s[..4]
  {
    DigitsOfValue(DigitValue(s[0]), DigitValue(s[1]), DigitValue(s[2]), DigitValue(s[3]));
    var y := YearDigits(ParseKey(s).value.year);
    assert y[0] == s[0] && y[1] == s[1] && y[2] == s[2] && y[3] == s[3];
  }

  lemma {:induction false} ParsedTail(s: string)
    requires ParseKey(s).Some?
    ensures KeyTail(ParseKey(s).value.month, ParseKey(s).value.day) == s[4..]
  {
    DigitsOfValue(0, 0, DigitValue(s[5]), DigitValue(s[6]));
    DigitsOfValue(0, 0, DigitValue(s[8]), DigitValue(s[9]));
    var t := KeyTail(ParseKey(s).value.month, ParseKey(s).value.day);
    assert t[0] == s[4] && t[1] == s[5] && t[2] == s[6] && t[3] == s[7] && t[4] == s[8] && t[5] == s[9];
  }

  /** Conversely, a string that parses to a date of year 1 or later is
      exactly that date's key: keys are canonical. */
  lemma {:induction false} IsoKeyOfParse(s: string)
    requires ParseKey(s).Some? && ParseKey(s).value.year >= 1
    ensures IsoKey(ParseKey(s).value) == s
  {
    ParsedDigits(s);
    IsoKeySpelled(ParseKey(s).value);
  }

  /** Distinct dates in years 1 to 9999 have distinct keys, so exact
      string matching on keys is matching on dates. */
  lemma {:induction false} IsoKeyInjective(a: Date, b: Date)
    requires ValidDate(a) && 1 <= a.year <= 9999
    requires ValidDate(b) && 1 <= b.year <= 9999
    ensures IsoKey(a) == IsoKey(b) <==> a == b
  {
    ParseIsoKey(a);
    ParseIsoKey(b);
  }

  /** Year 0 (1 BC) and year 1 share a key under the year-of-era rule. */
  lemma {:induction false} YearZeroSharesKey()
    ensures IsoKey(Date(0, 0, 1)) == IsoKey(Date(1, 0, 1))
  {
  }
}

=== FILE: calendarpage.dfy ===
/** The full-page calendar: a date cursor moved with date-fns `addMonths`
    and `subMonths`, the month's days after their leading blanks, the
    per-day buckets under the `yyyy-MM-dd` key, and the per-day display
    of at most two tasks and two meetings with an overflow counter. */
module CalendarPage {
  import opened Seqs
  import opened Calendar
  import opened Domain

  function Min(a: int, b: int): int
  {
    if a <= b then a else b
  }

  /** date-fns `addMonths(date, 1)`: the same day one month on, clamped
      to the length of that month. */
  function AddOneMonth(d: Date): (r: Date)
    requires ValidDate(d)
    ensures ValidDate(r)
    ensures r.year * 12 + r.month == d.year * 12 + d.month + 1
    ensures r.day == Min(d.day, DaysInMonth(r.year, r.month))
  {
    var year := if d.month == 11 then d.year + 1 else d.year;
    var month: MonthIndex := if d.month == 11 then 0 else d.month + 1;
    Date(year, month, Min(d.day, DaysInMonth(year, month)))
  }

  /** date-fns `subMonths(date, 1)`: the same day one month back, clamped
      to the length of that month. */
  function SubOneMonth(d: Date): (r: Date)
    requires ValidDate(d)
    ensures ValidDate(r)
    ensures r.year * 12 + r.month == d.year * 12 + d.month - 1
    ensures r.day == Min(d.day, DaysInMonth(r.year, r.month))
  {
    var year := if d.month == 0 then d.year - 1 else d.year;
    var month: MonthIndex := if d.month == 0 then 11 else d.month - 1;
    Date(year, month, Min(d.day, DaysInMonth(year, month)))
  }

  /** Forward then back shows the same month again, and restores the day
      itself unless it was clamped on the way. */
  lemma {:induction false} SubUndoesAdd(d: Date)
    requires ValidDate(d)
    ensures var r := SubOneMonth(AddOneMonth(d));
            r.year == d.year && r.month == d.month
            && (d.day <= DaysInMonth(AddOneMonth(d).year, AddOneMonth(d).month) ==> r == d)
  {
  }

  /** Clamping is real: January 31 goes forward to the last of February
      and comes back as January 28. */
  lemma {:induction false} AddThenSubClamps()
    ensures AddOneMonth(Date(2025, 0, 31)) == Date(2025, 1, 28)
    ensures SubOneMonth(AddOneMonth(Date(2025, 0, 31))) == Date(2025, 0, 28)
  {
  }

  /** `eachDayOfInterval(startOfMonth, endOfMonth)`: the days of the
      cursor's month, in order. */
  function MonthDays(cursor: Date): (days: seq<Date>)
    ensures |days| == DaysInMonth(cursor.year, cursor.month)
    ensures forall i :: 0 <= i < |days| ==> ValidDate(days[i]) && days[i].day == i + 1
    ensures forall i :: 0 <= i < |days| ==> days[i].year == cursor.year && days[i].month == cursor.month
  {
    seq(DaysInMonth(cursor.year, cursor.month), i requires 0 <= i => Date(cursor.year, cursor.month, i + 1))
  }

  /** `startOfMonth(currentDate).getDay()`: blanks before the 1st. */
  function EmptyCells(cursor: Date): (n: int)
    ensures 0 <= n < 7
  {
    Weekday(Date(cursor.year, cursor.month, 1))
  }

  /** After the blanks every day sits in the column of its weekday, so the
      Sun..Sat header is right for each cell. */
  lemma {:induction false} DaysUnderTheirWeekday(cursor: Date, i: int)
    requires 0 <= i < |MonthDays(cursor)|
    ensures Weekday(MonthDays(cursor)[i]) == (EmptyCells(cursor) + i) % 7
  {
    WeekdayAdvances(Date(cursor.year, cursor.month, 1), MonthDays(cursor)[i], i);
  }

  /** Tasks due on `day`: their due date is the day's `yyyy-MM-dd` key. */
  function TasksOn(tasks: seq<Task>, day: Date): (r: seq<Task>)
    ensures forall t :: t in r <==> t in tasks && t.dueDate == IsoKey(day)
    ensures SubsequenceOf(r, tasks)
  {
    FilterIsSubsequence(tasks, (t: Task) => t.dueDate == IsoKey(day));
    Filter(tasks, (t: Task) => t.dueDate == IsoKey(day))
  }

  /** Meetings on `day`, matched the same way on their date. */
  function MeetingsOn(meetings: seq<Meeting>, day: Date): (r: seq<Meeting>)
    ensures forall m :: m in r <==> m in meetings && m.date == IsoKey(day)
    ensures SubsequenceOf(r, meetings)
  {
    FilterIsSubsequence(meetings, (m: Meeting) => m.date == IsoKey(day));
    Filter(meetings, (m: Meeting) => m.date == IsoKey(day))
  }

  /** String matching on keys is matching on dates: a task is in the
      bucket of a day exactly when its due date reads as that day. */
  lemma {:induction false} TasksOnIffDueThatDay(tasks: seq<Task>, day: Date, t: Task)
    requires ValidDate(day) && 1 <= day.year <= 9999
    ensures t in TasksOn(tasks, day) <==> t in tasks && ParseKey(t.dueDate) == Some(day)
  {
    ParseIsoKey(day);
    if ParseKey(t.dueDate) == Some(day) {
      IsoKeyOfParse(t.dueDate);
    }
  }

  /** `slice(0, 2)`: what a day cell lists. */
  function FirstTwo<T>(s: seq<T>): (r: seq<T>)
    ensures |r| == Min(2, |s|)
    ensures r == s[..|r|]
  {
    s[..Min(2, |s|)]
  }

  /** The number of bucket entries a cell leaves out. */
  function Hidden(tasks: nat, meetings: nat): nat
  {
    (tasks - Min(2, tasks)) + (meetings - Min(2, meetings))
  }

  /** The overflow line as written: it appears when either bucket has more
      than two entries and reads `tasks + meetings - 4`. */
  function OverflowAsWritten(tasks: nat, meetings: nat): (r: Option<int>)
    ensures r.Some? <==> Hidden(tasks, meetings) > 0
  {
    if tasks > 2 || meetings > 2 then Some(tasks + meetings - 4) else None
  }

  /** With one bucket short of two, the count is too small, down to
      "+-1 more" for three tasks and no meeting. */
  lemma {:induction false} OverflowAsWrittenUndercounts(tasks: nat, meetings: nat)
    ensures OverflowAsWritten(3, 0) == Some(-1)
    ensures OverflowAsWritten(tasks, meetings).Some? && (tasks < 2 || meetings < 2)
            ==> OverflowAsWritten(tasks, meetings).value < Hidden(tasks, meetings)
  {
  }

  /** The overflow line as intended: shown under the same condition, it
      counts exactly the entries the cell leaves out. */
  function Overflow(tasks: nat, meetings: nat): (r: Option<int>)
    ensures r.Some? <==> tasks > 2 || meetings > 2
    ensures r.Some? ==> r.value == Hidden(tasks, meetings) && r.value > 0
  {
    if tasks > 2 || meetings > 2 then Some(Hidden(tasks, meetings)) else None
  }

  /** Shown entries plus the counter account for the whole day. */
  lemma {:induction false} OverflowAccountsForDay(tasks: seq<Task>, meetings: seq<Meeting>)
    ensures var more := Overflow(|tasks|, |meetings|);
            |FirstTwo(tasks)| + |FirstTwo(meetings)| + (if more.Some? then more.value else 0)
              == |tasks| + |meetings|
  {
  }
}

=== FILE: calendarview.dfy ===
/** The dashboard's month calendar: a (year, month) cursor, the grid of
    leading blanks and day numbers, and the per-day buckets of tasks and
    meetings keyed by `year-MM-DD` text. */
module CalendarView {
  import opened Seqs
  import opened Text
  import opened Calendar
  import opened Domain

  /** The month on show; `month` is 0-based. */
  datatype MonthCursor = MonthCursor(year: int, month: MonthIndex)

  /** Months since January of year 0. */
  function MonthOrdinal(c: MonthCursor): int
  {
    c.year * 12 + c.month
  }

  lemma {:induction false} OrdinalInjective(a: MonthCursor, b: MonthCursor)
    requires MonthOrdinal(a) == MonthOrdinal(b)
    ensures a == b
  {
  }

  /** `prevMonth`: one month back, wrapping January to December of the
      year before. */
  function PrevMonth(c: MonthCursor): (r: MonthCursor)
    ensures MonthOrdinal(r) == MonthOrdinal(c) - 1
  {
    if c.month == 0 then MonthCursor(c.year - 1, 11) else MonthCursor(c.year, c.month - 1)
  }

  /** `nextMonth`: one month on, wrapping December to January of the next
      year. */
  function NextMonth(c: MonthCursor): (r: MonthCursor)
    ensures MonthOrdinal(r) == MonthOrdinal(c) + 1
  {
    if c.month == 11 then MonthCursor(c.year + 1, 0) else MonthCursor(c.year, c.month + 1)
  }

  /** The two buttons undo each other. */
  lemma {:induction false} NextUndoesPrev(c: MonthCursor)
    ensures NextMonth(PrevMonth(c)) == c
    ensures PrevMonth(NextMonth(c)) == c
  {
    OrdinalInjective(NextMonth(PrevMonth(c)), c);
    OrdinalInjective(PrevMonth(NextMonth(c)), c);
  }

  /** `new Date(year, ...)` reads a year from 0 to 99 as 1900 plus it. */
  function JsFullYear(year: int): int
  {
    if 0 <= year <= 99 then 1900 + year else year
  }

  /** `getDaysInMonth`: `new Date(year, month + 1, 0).getDate()`. */
  function ViewDaysInMonth(c: MonthCursor): (n: int)
    ensures 28 <= n <= 31
    ensures n == 29 <==> c.month == 1 && IsLeapYear(JsFullYear(c.year))
  {
    DaysInMonth(JsFullYear(c.year), c.month)
  }

  /** `getFirstDayOfMonth`: the weekday of the 1st, 0 = Sunday. */
  function ViewFirstWeekday(c: MonthCursor): (w: int)
    ensures 0 <= w < 7
  {
    Weekday(Date(JsFullYear(c.year), c.month, 1))
  }

  /** Paging forward, each month's grid starts where the previous month's
      days run out, modulo the week. */
  lemma {:induction false} NextMonthStartsAfter(c: MonthCursor)
    requires c.year >= 100
    ensures ViewFirstWeekday(NextMonth(c)) == (ViewFirstWeekday(c) + ViewDaysInMonth(c)) % 7
  {
    FirstWeekdayOfNextMonth(c.year, c.month);
  }

  /** The grid: `first` blanks, then the days 1 to n. */
  function CalendarCells(c: MonthCursor): (cells: seq<Option<int>>)
    ensures |cells| == ViewFirstWeekday(c) + ViewDaysInMonth(c)
  {
    var first := ViewFirstWeekday(c);
    seq(first + ViewDaysInMonth(c), i requires 0 <= i => if i < first then None else Some(i - first + 1))
  }

  /** `generateCalendarDays`: one loop pushes the blanks, a second the day
      numbers. */
  method GenerateCalendarDays(c: MonthCursor) returns (days: seq<Option<int>>)
    ensures |days| == ViewFirstWeekday(c) + ViewDaysInMonth(c)
    ensures forall i :: 0 <= i < ViewFirstWeekday(c) ==> days[i] == None
    ensures forall i :: ViewFirstWeekday(c) <= i < |days| ==> days[i] == Some(i - ViewFirstWeekday(c) + 1)
    ensures days == CalendarCells(c)
  {
    var daysInMonth := ViewDaysInMonth(c);
    var firstDay := ViewFirstWeekday(c);
    days := [];
    var i := 0;
    while i < firstDay
      invariant 0 <= i <= firstDay
      invariant |days| == i
      invariant forall k :: 0 <= k < i ==> days[k] == None
    {
      days := days + [None];
      i := i + 1;
    }
    var day := 1;
    while day <= daysInMonth
      invariant 1 <= day <= daysInMonth + 1
      invariant |days| == firstDay + day - 1
      invariant forall k :: 0 <= k < firstDay ==> days[k] == None
      invariant forall k :: firstDay <= k < |days| ==> days[k] == Some(k - firstDay + 1)
    {
      days := days + [Some(day)];
      day := day + 1;
    }
  }

  /** `isToday`: the cell's day, month and year are the clock's. */
  predicate IsTodayCell(c: MonthCursor, day: int, now: Moment)
  {
    day == now.date.day && c.month == now.date.month && c.year == now.date.year
  }

  /** In the month of today, exactly one cell is marked, and it holds
      today's day number. */
  lemma {:induction false} TodayMarkedOnce(now: Moment)
    requires ValidDate(now.date) && now.date.year >= 100
    ensures var c := MonthCursor(now.date.year, now.date.month);
            var cells := CalendarCells(c);
            && cells[ViewFirstWeekday(c) + now.date.day - 1] == Some(now.date.day)
            && forall i :: 0 <= i < |cells| && cells[i].Some? && IsTodayCell(c, cells[i].value, now)
                 ==> i == ViewFirstWeekday(c) + now.date.day - 1
  {
  }

  /** `formatDate`: the year as `String(year)` (no padding), then month + 1
      and the day padded to two digits. */
  function FormatDate(year: int, month: MonthIndex, day: nat): (r: string)
    requires day < 100
    ensures r == IntToString(year) + KeyTail(month, day)
  {
    var m := PadZero(DecimalString(month + 1), 2);
    var d := PadZero(DecimalString(day), 2);
    PadTwoDigits(month + 1);
    PadTwoDigits(day);
    KeyJoin(IntToString(year), m, d);
    IntToString(year) + "-" + m + "-" + d
  }

  /** For four-digit years this is the ISO 8601 key of the date, which
      reads back as that date. */
  lemma {:induction false} FormatDateIsIsoKey(d: Date)
    requires ValidDate(d) && 1000 <= d.year <= 9999
    ensures FormatDate(d.year, d.month, d.day) == IsoKey(d)
    ensures ParseKey(FormatDate(d.year, d.month, d.day)) == Some(d)
  {
    FourDigitYearSpelled(d);
    IsoKeySpelled(d);
    ParseIsoKey(d);
  }

  lemma {:induction false} FourDigitYearSpelled(d: Date)
    requires ValidDate(d) && 1000 <= d.year <= 9999
    ensures FormatDate(d.year, d.month, d.day) == Spelled(d)
  {
    DecimalFourDigits(d.year);
    assert IntToString(d.year) == YearDigits(d.year);
  }

  /** `getTasksForDate`: the tasks whose due date is the day's text, in
      list order. */
  function TasksForDate(tasks: seq<Task>, year: int, month: MonthIndex, day: nat): (r: seq<Task>)
    requires day < 100
    ensures forall t :: t in r <==> t in tasks && t.dueDate == FormatDate(year, month, day)
    ensures SubsequenceOf(r, tasks)
  {
    var key := FormatDate(year, month, day);
    FilterIsSubsequence(tasks, (t: Task) => t.dueDate == key);
    Filter(tasks, (t: Task) => t.dueDate == key)
  }

  /** `getMeetingsForDate`: the same for meetings and their date. */
  function MeetingsForDate(meetings: seq<Meeting>, year: int, month: MonthIndex, day: nat): (r: seq<Meeting>)
    requires day < 100
    ensures forall m :: m in r <==> m in meetings && m.date == FormatDate(year, month, day)
    ensures SubsequenceOf(r, meetings)
  {
    var key := FormatDate(year, month, day);
    FilterIsSubsequence(meetings, (m: Meeting) => m.date == key);
    Filter(meetings, (m: Meeting) => m.date == key)
  }

  /** Different days of one month get different keys. */
  lemma {:induction false} FormatDateDayInjective(year: int, month: MonthIndex, d1: nat, d2: nat)
    requires d1 < 100 && d2 < 100
    requires FormatDate(year, month, d1) == FormatDate(year, month, d2)
    ensures d1 == d2
  {
    var y := IntToString(year);
    var t1, t2 := KeyTail(month, d1), KeyTail(month, d2);
    assert (y + t1)[|y|..] == t1 && (y + t2)[|y|..] == t2;
    assert t1[4] == t2[4] && t1[5] == t2[5];
    DigitInjective(d1 / 10, d2 / 10);
    DigitInjective(d1 % 10, d2 % 10);
  }

  /** Two different days of a month share no task. */
  lemma {:induction false} DayBucketsDisjoint(tasks: seq<Task>, c: MonthCursor, d1: nat, d2: nat, t: Task)
    requires d1 < 100 && d2 < 100 && d1 != d2
    ensures !(t in TasksForDate(tasks, c.year, c.month, d1) && t in TasksForDate(tasks, c.year, c.month, d2))
  {
    if FormatDate(c.year, c.month, d1) == FormatDate(c.year, c.month, d2) {
      FormatDateDayInjective(c.year, c.month, d1, d2);
    }
  }
}

=== FILE: deadlines.dfy ===
/** How the components compare a stored `yyyy-MM-dd` date with the clock.
    `new Date(text)` is midnight of that day, or an Invalid Date whose
    comparisons are all false; each predicate below is stated on instants
    as the code computes it and then characterised in whole days. */
module Deadlines {
  import opened Seqs
  import opened Calendar

  /** The deadline is 0, 1 or 2 days away, counting
      `Math.ceil((deadline - now) / 86400000)`. */
  predicate DeadlineApproaching(dueDate: string, now: Moment)
  {
    ParseKey(dueDate).Some? && 0 <= CeilDaysUntil(ParseKey(dueDate).value, now) <= 2
  }

  /** In whole days: the due day is today, tomorrow or the day after. */
  lemma {:induction false} ApproachingIffWithinTwoDays(dueDate: string, now: Moment)
    ensures DeadlineApproaching(dueDate, now)
        <==> ParseKey(dueDate).Some? && 0 <= DayNumber(ParseKey(dueDate).value) - DayNumber(now.date) <= 2
  {
    if ParseKey(dueDate).Some? {
      CeilDaysUntilIsDayDifference(ParseKey(dueDate).value, now);
    }
  }

  /** `new Date(dueDate) < now`. */
  predicate IsPastDue(dueDate: string, now: Moment)
  {
    ParseKey(dueDate).Some? && Midnight(ParseKey(dueDate).value) < Instant(now)
  }

  /** In whole days: the due day is before today, or it is today and the
      clock is past midnight. */
  lemma {:induction false} PastDueIffEarlierDay(dueDate: string, now: Moment)
    ensures IsPastDue(dueDate, now)
        <==> ParseKey(dueDate).Some?
             && (DayNumber(ParseKey(dueDate).value) < DayNumber(now.date)
                 || (DayNumber(ParseKey(dueDate).value) == DayNumber(now.date) && now.millis > 0))
  {
    if ParseKey(dueDate).Some? {
      var k := DayNumber(ParseKey(dueDate).value) - DayNumber(now.date);
      assert Midnight(ParseKey(dueDate).value) - Instant(now) == k * MillisPerDay - now.millis;
    }
  }

  /** `dueDate >= today && dueDate <= nextWeek`, where `nextWeek` is the
      same clock reading seven days on. */
  predicate DueWithinWeek(dueDate: string, now: Moment)
  {
    && ParseKey(dueDate).Some?
    && Instant(now) <= Midnight(ParseKey(dueDate).value) <= Instant(now) + 7 * MillisPerDay
  }

  /** In whole days: one to seven days ahead, and today as well when the
      clock reads exactly midnight. */
  lemma {:induction false} DueWithinWeekDays(dueDate: string, now: Moment)
    ensures DueWithinWeek(dueDate, now)
        <==> ParseKey(dueDate).Some?
             && var k := DayNumber(ParseKey(dueDate).value) - DayNumber(now.date);
                1 <= k <= 7 || (k == 0 && now.millis == 0)
  {
    if ParseKey(dueDate).Some? {
      var k := DayNumber(ParseKey(dueDate).value) - DayNumber(now.date);
      assert Midnight(ParseKey(dueDate).value) - Instant(now) == k * MillisPerDay - now.millis;
    }
  }
}

=== FILE: domain.dfy ===
/** The records every component shares: tasks with their status and
    priority, team members, meetings, and the task a form submits. */
module Domain {
  import opened Seqs
  import opened Text

  /** The four board columns; the column ids are `todo`, `in-progress`,
      `review` and `done`. */
  datatype Status = Todo | InProgress | Review | Done

  datatype Priority = Low | Medium | High

  /** The text the priority is stored and shown as. */
  function PriorityLabel(p: Priority): string
  {
    match p
    case Low => "low"
    case Medium => "medium"
    case High => "high"
  }

  datatype Member = Member(id: string, name: string, avatar: string, initials: string)

  /** The meeting a task can carry. */
  datatype MeetingLink = MeetingLink(title: string, time: string, link: string)

  /** `dueDate` is the `yyyy-MM-dd` text the task was stored with; a task
      whose assignee was not found has none. */
  datatype Task = Task(
    id: string,
    title: string,
    description: string,
    status: Status,
    priority: Priority,
    dueDate: string,
    assignee: Option<Member>,
    meeting: Option<MeetingLink>)

  /** What the add-task form hands to its owner: a task without an id. */
  datatype TaskDraft = TaskDraft(
    title: string,
    description: string,
    status: Status,
    priority: Priority,
    dueDate: string,
    assignee: Option<Member>,
    meeting: Option<MeetingLink>)

  /** `duration` is `None` when the record has none (or it did not parse). */
  datatype Meeting = Meeting(
    id: string,
    title: string,
    date: string,
    time: string,
    participants: nat,
    link: string,
    description: string,
    duration: Option<nat>)

  /** `task-${Date.now()}`. */
  function TaskId(stamp: nat): string
  {
    StampedId("task-", stamp)
  }

  /** The task an owner builds from a submitted draft. */
  function FromDraft(draft: TaskDraft, stamp: nat): (t: Task)
    ensures t.id == TaskId(stamp)
    ensures ToDraft(t) == draft
  {
    Task(TaskId(stamp), draft.title, draft.description, draft.status, draft.priority,
         draft.dueDate, draft.assignee, draft.meeting)
  }

  /** A task with its id forgotten. */
  function ToDraft(t: Task): TaskDraft
  {
    TaskDraft(t.title, t.description, t.status, t.priority, t.dueDate, t.assignee, t.meeting)
  }

  function IsDone(t: Task): bool
  {
    t.status == Done
  }

  function HasStatus(s: Status): Task -> bool
  {
    (t: Task) => t.status == s
  }

  /** The tasks shown in the column for `s`, in list order. */
  function Column(tasks: seq<Task>, s: Status): (r: seq<Task>)
    ensures forall i :: 0 <= i < |r| ==> r[i].status == s
    ensures forall t :: t in r <==> t in tasks && t.status == s
    ensures SubsequenceOf(r, tasks)
  {
    FilterIsSubsequence(tasks, HasStatus(s));
    Filter(tasks, HasStatus(s))
  }

  lemma {:induction false} ColumnCons(a: Task, t: seq<Task>, s: Status)
    ensures a.status == s ==> Column([a] + t, s) == [a] + Column(t, s)
    ensures a.status != s ==> Column([a] + t, s) == Column(t, s)
  {
    FilterCons(a, t, HasStatus(s));
  }

  /** The four columns split the task list: every task is in exactly one
      of them and none is lost or duplicated. */
  lemma {:induction false} ColumnsPartition(tasks: seq<Task>)
    ensures multiset(Column(tasks, Todo)) + multiset(Column(tasks, InProgress))
          + multiset(Column(tasks, Review)) + multiset(Column(tasks, Done)) == multiset(tasks)
    decreases |tasks|
  {
    if tasks != [] {
      var a, t := tasks[0], tasks[1..];
      assert tasks == [a] + t;
      ColumnsPartition(t);
      ColumnCons(a, t, Todo);
      ColumnCons(a, t, InProgress);
      ColumnCons(a, t, Review);
      ColumnCons(a, t, Done);
      assert multiset(tasks) == multiset{a} + multiset(t);
      match a.status
      case Todo => assert multiset(Column(tasks, Todo)) == multiset{a} + multiset(Column(t, Todo));
      case InProgress => assert multiset(Column(tasks, InProgress)) == multiset{a} + multiset(Column(t, InProgress));
      case Review => assert multiset(Column(tasks, Review)) == multiset{a} + multiset(Column(t, Review));
      case Done => assert multiset(Column(tasks, Done)) == multiset{a} + multiset(Column(t, Done));
    }
  }

  /** The column sizes add up to the number of tasks. */
  lemma {:induction false} ColumnSizes(tasks: seq<Task>)
    ensures |Column(tasks, Todo)| + |Column(tasks, InProgress)|
          + |Column(tasks, Review)| + |Column(tasks, Done)| == |tasks|
  {
    ColumnsPartition(tasks);
    assert |multiset(tasks)| == |tasks|;
  }

  // ---------------------------------------------------------------------
  // Add dialogs
  // ---------------------------------------------------------------------

  /** An add dialog as its page holds it: the dialog's own form state and
      the page's `open` flag. */
  datatype Dialog<F> = Dialog(form: F, open: bool)

  /** A page button that opens the dialog (`setIsAddTaskOpen(true)` and the
      like): only the flag changes, the form is whatever the dialog kept. */
  function Open<F>(d: Dialog<F>): (r: Dialog<F>)
    ensures r.open && r.form == d.form
  {
    d.(open := true)
  }

  /** The Cancel button as written: it calls the page's setter with `false`
      directly, past the dialog's own close handler, so the dialog closes
      with its form as it was. */
  function CancelAsWritten<F>(d: Dialog<F>): (r: Dialog<F>)
    ensures !r.open && r.form == d.form
  {
    d.(open := false)
  }
}

=== FILE: help.dfy ===
/** The help page: the FAQ search over categories of questions and
    answers, and the contact form that clears itself on submit. */
module Help {
  import opened Seqs
  import opened Text

  datatype FaqItem = FaqItem(question: string, answer: string)

  datatype FaqCategory = FaqCategory(name: string, items: seq<FaqItem>)

  /** The lowercased question or answer contains the lowercased query. */
  function ItemMatches(query: string): FaqItem -> bool
  {
    (item: FaqItem) => IncludesIgnoreCase(item.question, query) || IncludesIgnoreCase(item.answer, query)
  }

  /** A category with only its matching items, in their order. */
  function Narrow(c: FaqCategory, query: string): (r: FaqCategory)
    ensures r.name == c.name
    ensures forall item :: item in r.items <==> item in c.items && ItemMatches(query)(item)
    ensures SubsequenceOf(r.items, c.items)
  {
    FilterIsSubsequence(c.items, ItemMatches(query));
    c.(items := Filter(c.items, ItemMatches(query)))
  }

  function NarrowAll(categories: seq<FaqCategory>, query: string): (r: seq<FaqCategory>)
    ensures |r| == |categories|
    ensures forall i :: 0 <= i < |r| ==> r[i] == Narrow(categories[i], query)
  {
    seq(|categories|, i requires 0 <= i < |categories| => Narrow(categories[i], query))
  }

  function HasItems(c: FaqCategory): bool
  {
    c.items != []
  }

  /** `filteredFAQs`: a query that trims to nothing shows every category
      as it is; otherwise each category is narrowed to its matching items
      (with the query as typed, untrimmed) and the emptied ones dropped. */
  function FilterFaqs(categories: seq<FaqCategory>, query: string): (r: seq<FaqCategory>)
    ensures IsBlank(query) ==> r == categories
    ensures !IsBlank(query) ==> forall c :: c in r ==> c.items != [] && exists i :: 0 <= i < |categories| && c == Narrow(categories[i], query)
    ensures !IsBlank(query) ==> SubsequenceOf(r, NarrowAll(categories, query))
  {
    if IsBlank(query) then categories
    else
      var narrowed := NarrowAll(categories, query);
      FilterIsSubsequence(narrowed, HasItems);
      var r := Filter(narrowed, HasItems);
      assert forall c :: c in r ==> exists i :: 0 <= i < |categories| && c == Narrow(categories[i], query) by {
        forall c | c in r
          ensures exists i :: 0 <= i < |categories| && c == Narrow(categories[i], query)
        {
          var i :| 0 <= i < |narrowed| && narrowed[i] == c;
        }
      }
      r
  }

  /** Every matching item is found: its category is shown, under its name,
      holding the item. */
  lemma {:induction false} MatchingItemShown(categories: seq<FaqCategory>, query: string, i: int, item: FaqItem)
    requires !IsBlank(query) && 0 <= i < |categories|
    requires item in categories[i].items && ItemMatches(query)(item)
    ensures Narrow(categories[i], query) in FilterFaqs(categories, query)
    ensures item in Narrow(categories[i], query).items
  {
    var narrowed := NarrowAll(categories, query);
    assert narrowed[i] in narrowed;
  }

  /** Shown items all match: nothing that fails the query is listed. */
  lemma {:induction false} ShownItemsMatch(categories: seq<FaqCategory>, query: string, c: FaqCategory, item: FaqItem)
    requires !IsBlank(query) && c in FilterFaqs(categories, query) && item in c.items
    ensures ItemMatches(query)(item)
    ensures exists i :: 0 <= i < |categories| && c.name == categories[i].name && item in categories[i].items
  {
  }

  /** The blank test trims the query but the match does not: a leading
      space filters the list and then hides an item that the bare word
      finds. */
  lemma {:induction false} PaddedQueryIsMatchedAsTyped()
    ensures var faqs := [FaqCategory("Basics", [FaqItem("x", "x")])];
            && FilterFaqs(faqs, " x") == []
            && FilterFaqs(faqs, "x") == faqs
  {
    var item := FaqItem("x", "x");
    var faqs := [FaqCategory("Basics", [item])];
    assert !IsSpace(" x"[1]);
    assert !IsSpace("x"[0]);
    PaddedQueryMisses();
    BareWordMatches();
    FilterCons(item, [], ItemMatches(" x"));
    FilterCons(item, [], ItemMatches("x"));
    assert [item] == [item] + [];
    var padded := NarrowAll(faqs, " x");
    assert padded == [faqs[0].(items := [])];
    FilterCons(padded[0], [], HasItems);
    assert padded == [padded[0]] + [];
    var bare := NarrowAll(faqs, "x");
    assert bare == faqs;
    FilterCons(faqs[0], [], HasItems);
    assert faqs == [faqs[0]] + [];
  }

  lemma {:induction false} PaddedQueryMisses()
    ensures !ItemMatches(" x")(FaqItem("x", "x"))
  {
    var q := ToLower(" x");
    assert |q| == 2;
    var s := ToLower("x");
    assert |s| == 1;
  }

  lemma {:induction false} BareWordMatches()
    ensures ItemMatches("x")(FaqItem("x", "x"))
  {
    var s := ToLower("x");
    assert |s| == 1 && s[0] == LowerChar('x');
    assert OccursAt(s, s, 0);
  }

  datatype ContactForm = ContactForm(name: string, email: string, subject: string, message: string)

  /** `handleContactSubmit`: whatever was typed, every field is cleared
      (sending the message is left to a server the page does not have). */
  function ContactSubmit(f: ContactForm): (r: ContactForm)
    ensures r.name == "" && r.email == "" && r.subject == "" && r.message == ""
  {
    ContactForm("", "", "", "")
  }
}

=== FILE: meetings.dfy ===
/** The meetings page: the search box and the upcoming / today / past
    tabs, the list ordered by start, the schedule-meeting form, and the
    "happening now" badge. */
module Meetings {
  import opened Seqs
  import opened Text
  import opened Calendar
  import opened Domain

  /** The tab values.  The page starts on "upcoming" and only the three
      triggers set the tab, so `OtherMeetingTab` is unreachable there; it
      completes the filter's fall-through case. */
  datatype MeetingTab = UpcomingTab | TodayTab | PastTab | OtherMeetingTab

  /** An empty query lets everything through; otherwise the title must
      contain it, ignoring case. */
  function MatchesSearch(query: string): Meeting -> bool
  {
    (m: Meeting) => query == "" || IncludesIgnoreCase(m.title, query)
  }

  /** `new Date(meeting.date) >= today`, with `today` at midnight. */
  predicate IsUpcoming(m: Meeting, now: Moment)
  {
    ParseKey(m.date).Some? && Midnight(ParseKey(m.date).value) >= Midnight(now.date)
  }

  /** `new Date(meeting.date) < today`. */
  predicate IsPast(m: Meeting, now: Moment)
  {
    ParseKey(m.date).Some? && Midnight(ParseKey(m.date).value) < Midnight(now.date)
  }

  /** Both dates formatted `yyyy-MM-dd` and compared as text. */
  predicate IsToday(m: Meeting, now: Moment)
    requires ParseKey(m.date).Some?
  {
    IsoKey(ParseKey(m.date).value) == IsoKey(now.date)
  }

  function InMeetingTab(tab: MeetingTab, now: Moment): Meeting -> bool
  {
    (m: Meeting) =>
      match tab
      case UpcomingTab => IsUpcoming(m, now)
      case PastTab => IsPast(m, now)
      case TodayTab => ParseKey(m.date).Some? && IsToday(m, now)
      case OtherMeetingTab => true
  }

  /** What the list keeps: the search first, then the tab. */
  function Listed(query: string, tab: MeetingTab, now: Moment): Meeting -> bool
  {
    (m: Meeting) => MatchesSearch(query)(m) && InMeetingTab(tab, now)(m)
  }

  /** Formatting an Invalid Date throws, so the today tab cannot render
      when a meeting that passes the search has an unreadable date. */
  predicate TodayTabThrows(meetings: seq<Meeting>, query: string, tab: MeetingTab)
  {
    tab == TodayTab
    && exists i :: 0 <= i < |meetings| && MatchesSearch(query)(meetings[i]) && ParseKey(meetings[i].date).None?
  }

  /** `filteredMeetings`, or `None` when rendering it throws. */
  function FilterMeetings(meetings: seq<Meeting>, query: string, tab: MeetingTab, now: Moment): (r: Option<seq<Meeting>>)
    ensures r.None? <==> TodayTabThrows(meetings, query, tab)
    ensures r.Some? ==> forall m :: m in r.value <==> m in meetings && Listed(query, tab, now)(m)
    ensures r.Some? ==> SubsequenceOf(r.value, meetings)
  {
    if TodayTabThrows(meetings, query, tab) then None
    else
      FilterIsSubsequence(meetings, Listed(query, tab, now));
      Some(Filter(meetings, Listed(query, tab, now)))
  }

  /** Comparing midnights is comparing days. */
  lemma {:induction false} MidnightOrder(a: Date, b: Date)
    ensures Midnight(a) < Midnight(b) <==> DayNumber(a) < DayNumber(b)
  {
    if DayNumber(a) < DayNumber(b) {
      assert Midnight(a) + MillisPerDay <= Midnight(b);
    } else {
      assert Midnight(b) <= Midnight(a);
    }
  }

  /** In days: upcoming is today or later, past is before today. */
  lemma {:induction false} TabsByDays(m: Meeting, now: Moment)
    ensures IsUpcoming(m, now) <==> ParseKey(m.date).Some? && DayNumber(ParseKey(m.date).value) >= DayNumber(now.date)
    ensures IsPast(m, now) <==> ParseKey(m.date).Some? && DayNumber(ParseKey(m.date).value) < DayNumber(now.date)
  {
    if ParseKey(m.date).Some? {
      MidnightOrder(ParseKey(m.date).value, now.date);
    }
  }

  /** Dates are readable and not in year 0 (whose key is year 1's). */
  predicate DatesReadable(meetings: seq<Meeting>)
  {
    forall i :: 0 <= i < |meetings| ==> ParseKey(meetings[i].date).Some? && ParseKey(meetings[i].date).value.year >= 1
  }

  /** Matching formatted keys is matching days. */
  lemma {:induction false} TodayIffSameDay(m: Meeting, now: Moment)
    requires ParseKey(m.date).Some? && ParseKey(m.date).value.year >= 1
    requires ValidDate(now.date) && 1 <= now.date.year <= 9999
    ensures IsToday(m, now) <==> ParseKey(m.date) == Some(now.date)
  {
    IsoKeyInjective(ParseKey(m.date).value, now.date);
  }

  /** On readable dates the upcoming and past tabs split what the search
      keeps between them. */
  lemma {:induction false} UpcomingPastSplit(meetings: seq<Meeting>, query: string, now: Moment)
    requires DatesReadable(meetings)
    ensures var searched := Filter(meetings, MatchesSearch(query));
            multiset(FilterMeetings(meetings, query, UpcomingTab, now).value)
              + multiset(FilterMeetings(meetings, query, PastTab, now).value) == multiset(searched)
  {
    var search := MatchesSearch(query);
    var up := InMeetingTab(UpcomingTab, now);
    var searched := Filter(meetings, search);
    assert FilterMeetings(meetings, query, UpcomingTab, now).value == Filter(meetings, Listed(query, UpcomingTab, now));
    assert FilterMeetings(meetings, query, PastTab, now).value == Filter(meetings, Listed(query, PastTab, now));
    FilterTwice(meetings, search, up, Listed(query, UpcomingTab, now));
    forall i | 0 <= i < |meetings|
      ensures Listed(query, PastTab, now)(meetings[i]) == (search(meetings[i]) && Not(up)(meetings[i]))
    {
      PastIsNotUpcoming(meetings[i], now);
    }
    FilterTwice(meetings, search, Not(up), Listed(query, PastTab, now));
    FilterPartition(searched, up);
  }

  lemma {:induction false} PastIsNotUpcoming(m: Meeting, now: Moment)
    requires ParseKey(m.date).Some?
    ensures InMeetingTab(PastTab, now)(m) == !InMeetingTab(UpcomingTab, now)(m)
  {
  }

  /** Today's meetings are among the upcoming ones. */
  lemma {:induction false} TodayIsUpcoming(m: Meeting, now: Moment)
    requires ParseKey(m.date).Some? && ParseKey(m.date).value.year >= 1
    requires ValidDate(now.date) && 1 <= now.date.year <= 9999
    requires InMeetingTab(TodayTab, now)(m)
    ensures InMeetingTab(UpcomingTab, now)(m)
  {
    TodayIffSameDay(m, now);
    TabsByDays(m, now);
  }

  // ---------------------------------------------------------------------
  // Ordering by start
  // ---------------------------------------------------------------------

  /** The meeting's date and `HH:mm` time both read. */
  predicate Scheduled(m: Meeting)
  {
    ParseKey(m.date).Some? && ParseClock(m.time).Some?
  }

  /** `new Date(`${date}T${time}`)`, on the scale of `Instant`. */
  function StartInstant(m: Meeting): int
  {
    if Scheduled(m) then Midnight(ParseKey(m.date).value) + ClockMillis(ParseClock(m.time).value) else 0
  }

  /** Every meeting's date and time read. */
  predicate AllScheduled(meetings: seq<Meeting>)
  {
    forall i :: 0 <= i < |meetings| ==> Scheduled(meetings[i])
  }

  /** The list in start order (ties keep list order).  It is always a
      permutation; a start that does not read is an Invalid Date, the
      comparator answers NaN and the order is left to the engine, so start
      order is promised only when every start reads. */
  function SortMeetings(meetings: seq<Meeting>): (r: seq<Meeting>)
    ensures multiset(r) == multiset(meetings)
    ensures AllScheduled(meetings) ==> forall i, j :: 0 <= i < j < |r| ==> StartInstant(r[i]) <= StartInstant(r[j])
  {
    SortBy(meetings, (m: Meeting) => StartInstant(m))
  }

  lemma {:induction false} ClockWithinDay(c: ClockTime)
    requires ValidClockTime(c)
    ensures 0 <= ClockMillis(c) < MillisPerDay
  {
  }

  /** Start order puts the days in order, and within a day the times. */
  lemma {:induction false} StartOrderByDayThenTime(a: Meeting, b: Meeting)
    requires Scheduled(a) && Scheduled(b)
    ensures StartInstant(a) <= StartInstant(b) <==>
              var da, db := DayNumber(ParseKey(a.date).value), DayNumber(ParseKey(b.date).value);
              da < db || (da == db && ClockMillis(ParseClock(a.time).value) <= ClockMillis(ParseClock(b.time).value))
  {
    var da, db := ParseKey(a.date).value, ParseKey(b.date).value;
    ClockWithinDay(ParseClock(a.time).value);
    ClockWithinDay(ParseClock(b.time).value);
    MidnightOrder(da, db);
    MidnightOrder(db, da);
  }

  /** What the page lists: the filtered meetings in start order. */
  function VisibleMeetings(meetings: seq<Meeting>, query: string, tab: MeetingTab, now: Moment): (r: Option<seq<Meeting>>)
    ensures r.None? <==> TodayTabThrows(meetings, query, tab)
    ensures r.Some? ==> multiset(r.value) == multiset(FilterMeetings(meetings, query, tab, now).value)
    ensures r.Some? && AllScheduled(meetings) ==>
              forall i, j :: 0 <= i < j < |r.value| ==> StartInstant(r.value[i]) <= StartInstant(r.value[j])
  {
    match FilterMeetings(meetings, query, tab, now)
    case None => None
    case Some(listed) =>
      assert AllScheduled(meetings) ==> AllScheduled(listed) by {
        forall i | 0 <= i < |listed|
          ensures listed[i] in meetings
        {
          assert listed[i] in listed;
        }
      }
      Some(SortMeetings(listed))
  }

  /** A meeting whose date does not read. */
  const Undated := Meeting("m", "Standup", "soon", "09:00", 1, "", "", None)

  /** What `sortedMeetings` computes for a meeting whose date does not
      read: the today tab's filter throws while formatting it, and the
      upcoming and past tabs drop it (both date comparisons are false). */
  lemma {:induction false} UndatedMeetingOnTabs(now: Moment)
    ensures VisibleMeetings([Undated], "", TodayTab, now).None?
    ensures VisibleMeetings([Undated], "", UpcomingTab, now) == Some([])
    ensures VisibleMeetings([Undated], "", PastTab, now) == Some([])
  {
    UndatedThrowsOnTodayTab(now);
    UndatedNotUpcoming(now);
    UndatedNotPast(now);
  }

  lemma {:induction false} UndatedThrowsOnTodayTab(now: Moment)
    ensures VisibleMeetings([Undated], "", TodayTab, now).None?
  {
    var ms := [Undated];
    assert MatchesSearch("")(ms[0]) && ParseKey(ms[0].date).None?;
    assert TodayTabThrows(ms, "", TodayTab);
  }

  lemma {:induction false} UndatedNotUpcoming(now: Moment)
    ensures VisibleMeetings([Undated], "", UpcomingTab, now) == Some([])
  {
    assert ParseKey(Undated.date).None?;
    assert [Undated] == [Undated] + [];
    FilterCons(Undated, [], Listed("", UpcomingTab, now));
    assert !IsUpcoming(Undated, now);
    assert !InMeetingTab(UpcomingTab, now)(Undated);
    assert !Listed("", UpcomingTab, now)(Undated);
    assert Filter([Undated], Listed("", UpcomingTab, now)) == [];
    assert !TodayTabThrows([Undated], "", UpcomingTab);
    assert FilterMeetings([Undated], "", UpcomingTab, now) == Some([]);
    var up := SortMeetings([]);
    assert |multiset(up)| == 0;
  }

  lemma {:induction false} UndatedNotPast(now: Moment)
    ensures VisibleMeetings([Undated], "", PastTab, now) == Some([])
  {
    assert ParseKey(Undated.date).None?;
    assert [Undated] == [Undated] + [];
    FilterCons(Undated, [], Listed("", PastTab, now));
    assert !IsPast(Undated, now);
    assert !InMeetingTab(PastTab, now)(Undated);
    assert !Listed("", PastTab, now)(Undated);
    assert Filter([Undated], Listed("", PastTab, now)) == [];
    assert !TodayTabThrows([Undated], "", PastTab);
    assert FilterMeetings([Undated], "", PastTab, now) == Some([]);
    var past := SortMeetings([]);
    assert |multiset(past)| == 0;
  }

  // ---------------------------------------------------------------------
  // Scheduling a meeting
  // ---------------------------------------------------------------------

  /** The schedule-meeting form; `date` is `None` once the picker is
      cleared.  No control changes `participants`. */
  datatype MeetingForm = MeetingForm(
    title: string,
    date: Option<Date>,
    time: string,
    duration: string,
    link: string,
    description: string,
    participants: seq<string>,
    errors: map<string, string>)

  /** `resetForm` (and the initial state). */
  function DefaultMeetingForm(today: Date): MeetingForm
  {
    MeetingForm("", Some(today), "09:00", "30", "", "", ["user-1"], map[])
  }

  function MeetingErrors(f: MeetingForm): (e: map<string, string>)
    ensures "title" in e <==> IsBlank(f.title)
    ensures "date" in e <==> f.date.None?
    ensures "time" in e <==> f.time == ""
    ensures "link" in e <==> IsBlank(f.link)
    ensures e.Keys <= {"title", "date", "time", "link"}
    ensures "title" in e ==> e["title"] == "Title is required"
    ensures "date" in e ==> e["date"] == "Date is required"
    ensures "time" in e ==> e["time"] == "Time is required"
    ensures "link" in e ==> e["link"] == "Meeting link is required"
  {
    var e0: map<string, string> := map[];
    var e1 := if IsBlank(f.title) then e0["title" := "Title is required"] else e0;
    var e2 := if f.date.None? then e1["date" := "Date is required"] else e1;
    var e3 := if f.time == "" then e2["time" := "Time is required"] else e2;
    if IsBlank(f.link) then e3["link" := "Meeting link is required"] else e3
  }

  predicate MeetingComplete(f: MeetingForm)
  {
    !IsBlank(f.title) && f.date.Some? && f.time != "" && !IsBlank(f.link)
  }

  lemma {:induction false} MeetingValidIffComplete(f: MeetingForm)
    ensures MeetingErrors(f) == map[] <==> MeetingComplete(f)
  {
    var e := MeetingErrors(f);
    if !MeetingComplete(f) {
      assert "title" in e || "date" in e || "time" in e || "link" in e;
    }
  }

  /** `meeting-${Date.now()}`. */
  function MeetingId(stamp: nat): string
  {
    StampedId("meeting-", stamp)
  }

  datatype Scheduling = Scheduling(meetings: seq<Meeting>, form: MeetingForm, open: bool)

  /** `handleAddMeeting`: an incomplete form stays open with its errors; a
      complete one appends the meeting, then resets and closes. */
  function AddMeeting(meetings: seq<Meeting>, f: MeetingForm, open: bool, today: Date, stamp: nat): (r: Scheduling)
    ensures !MeetingComplete(f) ==> r == Scheduling(meetings, f.(errors := MeetingErrors(f)), open)
    ensures MeetingComplete(f) ==>
              && |r.meetings| == |meetings| + 1 && r.meetings[..|meetings|] == meetings
              && r.form == DefaultMeetingForm(today) && !r.open
    ensures MeetingComplete(f) ==>
              var m := r.meetings[|meetings|];
              && m.id == MeetingId(stamp) && m.title == f.title && m.date == IsoKey(f.date.value)
              && m.time == f.time && m.participants == |f.participants| && m.link == f.link
              && m.description == f.description && m.duration == ParseInt(f.duration)
  {
    MeetingValidIffComplete(f);
    var errors := MeetingErrors(f);
    if errors != map[] then Scheduling(meetings, f.(errors := errors), open)
    else
      var m := Meeting(MeetingId(stamp), f.title, IsoKey(f.date.value), f.time, |f.participants|,
                       f.link, f.description, ParseInt(f.duration));
      Scheduling(meetings + [m], DefaultMeetingForm(today), false)
  }

  /** The dialog's `onOpenChange` handler: closing through it resets the
      form; opening keeps it. */
  function OnMeetingOpenChange(f: MeetingForm, isOpen: bool, today: Date): (r: MeetingForm)
    ensures !isOpen ==> r == DefaultMeetingForm(today)
    ensures !isOpen ==> && r.errors == map[] && r.title == "" && r.date == Some(today)
                        && r.time == "09:00" && r.duration == "30" && r.link == "" && r.participants == ["user-1"]
    ensures isOpen ==> r == f
  {
    if isOpen then f else DefaultMeetingForm(today)
  }

  /** Cancel as intended: closing through the dialog's own handler. */
  function CancelMeeting(d: Dialog<MeetingForm>, today: Date): (r: Dialog<MeetingForm>)
    ensures !r.open && r.form == DefaultMeetingForm(today)
  {
    Dialog(OnMeetingOpenChange(d.form, false, today), false)
  }

  /** After a failed submit, Cancel as written keeps the typed title and the
      link error, and reopening shows both; the intended Cancel reopens on
      a fresh form. */
  lemma {:induction false} CancelMeetingAsWrittenKeepsInput(meetings: seq<Meeting>, today: Date, stamp: nat)
    ensures var typed := DefaultMeetingForm(today).(title := "Retro");
            var s := AddMeeting(meetings, typed, true, today, stamp);
            var again := Open(CancelAsWritten(Dialog(s.form, s.open)));
            && s.open && s.meetings == meetings && again.form == s.form
            && again.form.title == "Retro" && again.form.errors["link"] == "Meeting link is required"
            && Open(CancelMeeting(Dialog(s.form, s.open), today)).form == DefaultMeetingForm(today)
  {
    var typed := DefaultMeetingForm(today).(title := "Retro");
    assert !IsSpace(typed.title[0]);
    assert IsBlank(typed.link);
  }

  /** A meeting scheduled from a form whose participants were never changed
      counts one participant, and the offered durations are kept as the
      minutes they name. */
  lemma {:induction false} ScheduledFromDefaults(meetings: seq<Meeting>, f: MeetingForm, open: bool, today: Date, stamp: nat, minutes: nat)
    requires MeetingComplete(f) && f.participants == DefaultMeetingForm(today).participants
    requires f.duration == DecimalString(minutes)
    ensures AddMeeting(meetings, f, open, today, stamp).meetings[|meetings|].participants == 1
    ensures AddMeeting(meetings, f, open, today, stamp).meetings[|meetings|].duration == Some(minutes)
  {
    ParseIntRoundTrip(minutes);
  }

  // ---------------------------------------------------------------------
  // Happening now
  // ---------------------------------------------------------------------

  /** `duration || 30`: no duration, or zero, counts as half an hour. */
  function MinutesOf(duration: Option<nat>): (n: nat)
    ensures n > 0
    ensures duration.Some? && duration.value != 0 ==> n == duration.value
    ensures duration.None? || duration.value == 0 ==> n == 30
  {
    if duration.Some? && duration.value != 0 then duration.value else 30
  }

  /** `isHappeningNow`: from the start through the end, both included. */
  predicate HappeningNow(m: Meeting, now: Moment)
  {
    Scheduled(m)
    && StartInstant(m) <= Instant(now) <= StartInstant(m) + MinutesOf(m.duration) * MillisPerMinute
  }

  /** On the meeting's own day, the badge shows while the clock is between
      the start time and the end time. */
  lemma {:induction false} HappeningTodayByClock(m: Meeting, now: Moment)
    requires Scheduled(m) && ParseKey(m.date) == Some(now.date)
    ensures HappeningNow(m, now) <==>
              ClockMillis(ParseClock(m.time).value) <= now.millis
                <= ClockMillis(ParseClock(m.time).value) + MinutesOf(m.duration) * MillisPerMinute
  {
  }

  /** A meeting on a later day is never happening now. */
  lemma {:induction false} LaterDayNotHappening(m: Meeting, now: Moment)
    requires Scheduled(m) && DayNumber(ParseKey(m.date).value) > DayNumber(now.date)
    ensures !HappeningNow(m, now)
  {
    MidnightOrder(now.date, ParseKey(m.date).value);
    assert Instant(now) < Midnight(now.date) + MillisPerDay <= Midnight(ParseKey(m.date).value);
  }
}

=== FILE: meetingspanel.dfy ===
/** The sidebar's "Today's Meetings" panel: today's meetings with their
    count, ordered by time of day, and the "Now" badge. */
module MeetingsPanel {
  import opened Seqs
  import opened Calendar
  import opened Domain
  import Meetings

  /** Same day of the month, month and year as the clock. */
  function OnToday(now: Moment): Meeting -> bool
  {
    (m: Meeting) =>
      && ParseKey(m.date).Some?
      && ParseKey(m.date).value.day == now.date.day
      && ParseKey(m.date).value.month == now.date.month
      && ParseKey(m.date).value.year == now.date.year
  }

  /** `todayMeetings`; the badge shows its length. */
  function TodayMeetings(meetings: seq<Meeting>, now: Moment): (r: seq<Meeting>)
    ensures forall m :: m in r <==> m in meetings && ParseKey(m.date) == Some(now.date)
    ensures SubsequenceOf(r, meetings)
  {
    FilterIsSubsequence(meetings, OnToday(now));
    Filter(meetings, OnToday(now))
  }

  /** The panel lists exactly what the page's today tab lists with an
      empty search. */
  lemma {:induction false} PanelAgreesWithTodayTab(meetings: seq<Meeting>, now: Moment)
    requires Meetings.DatesReadable(meetings)
    requires ValidDate(now.date) && 1 <= now.date.year <= 9999
    ensures Meetings.FilterMeetings(meetings, "", Meetings.TodayTab, now) == Some(TodayMeetings(meetings, now))
  {
    var listed := Meetings.Listed("", Meetings.TodayTab, now);
    assert !Meetings.TodayTabThrows(meetings, "", Meetings.TodayTab);
    forall i | 0 <= i < |meetings|
      ensures OnToday(now)(meetings[i]) == listed(meetings[i])
    {
      Meetings.TodayIffSameDay(meetings[i], now);
    }
    FilterCongruent(meetings, OnToday(now), listed);
  }

  /** Minutes since midnight of an `HH:mm` time; the comparator looks at
      hours and then minutes, which orders these numbers. */
  function PanelKey(m: Meeting): int
  {
    if ParseClock(m.time).Some? then ParseClock(m.time).value.hour * 60 + ParseClock(m.time).value.minute else 0
  }

  predicate TimesReadable(meetings: seq<Meeting>)
  {
    forall i :: 0 <= i < |meetings| ==> ParseClock(meetings[i].time).Some?
  }

  /** `sortedMeetings`: today's meetings by hour, then minute.  It is
      always a permutation; a time that does not read makes the comparator
      answer NaN and leaves the order to the engine, so the time order is
      promised only when every time reads. */
  function SortByTime(meetings: seq<Meeting>): (r: seq<Meeting>)
    ensures multiset(r) == multiset(meetings)
    ensures TimesReadable(meetings) ==> forall i, j :: 0 <= i < j < |r| ==> PanelKey(r[i]) <= PanelKey(r[j])
    ensures TimesReadable(meetings) ==> TimesReadable(r)
  {
    var r := SortBy(meetings, (m: Meeting) => PanelKey(m));
    assert TimesReadable(meetings) ==> TimesReadable(r) by {
      forall i | 0 <= i < |r|
        ensures r[i] in meetings
      {
        assert r[i] in multiset(r);
      }
    }
    r
  }

  /** The key order is the comparator's: earlier hour first, and within an
      hour the earlier minute. */
  lemma {:induction false} PanelKeyIsHourThenMinute(a: Meeting, b: Meeting)
    requires ParseClock(a.time).Some? && ParseClock(b.time).Some?
    ensures var ca, cb := ParseClock(a.time).value, ParseClock(b.time).value;
            PanelKey(a) <= PanelKey(b) <==> ca.hour < cb.hour || (ca.hour == cb.hour && ca.minute <= cb.minute)
  {
  }

  lemma {:induction false} SortedByHourThenMinute(meetings: seq<Meeting>, i: int, j: int)
    requires TimesReadable(meetings)
    requires 0 <= i < j < |SortByTime(meetings)|
    ensures var r := SortByTime(meetings);
            var ci, cj := ParseClock(r[i].time).value, ParseClock(r[j].time).value;
            ci.hour < cj.hour || (ci.hour == cj.hour && ci.minute <= cj.minute)
  {
    var r := SortByTime(meetings);
    PanelKeyIsHourThenMinute(r[i], r[j]);
  }

  /** Minutes since midnight on the clock. */
  function ClockMinute(now: Moment): (n: int)
    ensures 0 <= n < 24 * 60
  {
    now.millis / MillisPerMinute
  }

  lemma {:induction false} ClockMinuteSplits(now: Moment)
    ensures ClockMinute(now) == HourOf(now) * 60 + MinuteOf(now)
  {
    var q := now.millis / MillisPerMinute;
    var h := q / 60;
    assert now.millis == h * MillisPerHour + (q % 60) * MillisPerMinute + now.millis % MillisPerMinute;
    assert 0 <= (q % 60) * MillisPerMinute + now.millis % MillisPerMinute < MillisPerHour;
  }

  /** `isHappeningNow` as written: the clock's hour is the meeting's and
      its minute within 15 of the meeting's. */
  predicate HappeningNowAsWritten(m: Meeting, now: Moment)
  {
    ParseClock(m.time).Some?
    && HourOf(now) == ParseClock(m.time).value.hour
    && -15 < MinuteOf(now) - ParseClock(m.time).value.minute < 15
  }

  /** The badge as intended: the clock within 15 minutes of the start,
      whichever hours the two fall in. */
  predicate HappeningNow(m: Meeting, now: Moment)
  {
    ParseClock(m.time).Some? && -15 < ClockMinute(now) - PanelKey(m) < 15
  }

  /** A 09:55 meeting is missed at 10:05, ten minutes after its start. */
  lemma {:induction false} HappeningNowAsWrittenMissesHourChange()
    ensures var m := Meeting("m", "Standup", "2025-03-10", "09:55", 1, "", "", None);
            var now := Moment(Date(2025, 2, 10), 10 * MillisPerHour + 5 * MillisPerMinute);
            !HappeningNowAsWritten(m, now) && HappeningNow(m, now)
  {
    var now := Moment(Date(2025, 2, 10), 10 * MillisPerHour + 5 * MillisPerMinute);
    ClockMinuteSplits(now);
  }

  /** Every meeting the written test finds is also found by the intended
      one; they differ only across an hour change. */
  lemma {:induction false} AsWrittenWithinIntended(m: Meeting, now: Moment)
    ensures HappeningNowAsWritten(m, now) ==> HappeningNow(m, now)
    ensures HappeningNow(m, now) && HourOf(now) == ParseClock(m.time).value.hour ==> HappeningNowAsWritten(m, now)
  {
    ClockMinuteSplits(now);
  }
}

=== FILE: project.dfy ===
/** The project detail page: looking the project up by the id in the
    address, its current sprint, the sprint board's four lanes, and each
    team member's assigned count and completion rate. */
module Project {
  import opened Seqs
  import opened Domain
  import Board

  datatype Sprint = Sprint(id: string, name: string, status: string)

  /** A task on the project board; every one of them has an assignee,
      known by name. */
  datatype ProjectTask = ProjectTask(id: string, title: string, status: Status, assigneeName: string)

  datatype TeamMember = TeamMember(id: string, name: string, role: string)

  datatype ProjectData = ProjectData(
    id: string,
    name: string,
    description: string,
    status: string,
    team: seq<TeamMember>,
    sprints: seq<Sprint>,
    tasks: seq<ProjectTask>)

  // ---------------------------------------------------------------------
  // Lookup
  // ---------------------------------------------------------------------

  /** What rendering the page for an id comes to: the project, the "Project
      Not Found" page, or a crash while rendering. */
  datatype PageLookup = Found(project: ProjectData) | NotFound | Crashes

  /** Names every plain object inherits from `Object.prototype`: indexing
      the project table with one of them yields a truthy value that is not
      a project. */
  const PrototypeNames: set<string> := {
    "constructor", "__proto__", "hasOwnProperty", "isPrototypeOf",
    "propertyIsEnumerable", "toString", "valueOf", "toLocaleString",
    "__defineGetter__", "__defineSetter__", "__lookupGetter__", "__lookupSetter__"
  }

  /** `projectData[projectId] || null` as written, followed by the render:
      an own key finds its project, an unknown id shows the not-found page,
      and an inherited name gets past the not-found test (the value is
      truthy) and then crashes on `project.sprints.find`. */
  function LookupAsWritten(data: map<string, ProjectData>, id: string): (r: PageLookup)
    ensures id in data ==> r == Found(data[id])
    ensures id !in data ==> (r.Crashes? <==> id in PrototypeNames)
    ensures id !in data && id !in PrototypeNames ==> r == NotFound
  {
    if id in data then Found(data[id])
    else if id in PrototypeNames then Crashes
    else NotFound
  }

  /** The lookup as intended: own keys only. */
  function FindProject(data: map<string, ProjectData>, id: string): (r: PageLookup)
    ensures !r.Crashes?
    ensures r.NotFound? <==> id !in data
    ensures r.Found? ==> id in data && r.project == data[id]
  {
    if id in data then Found(data[id]) else NotFound
  }

  /** The address `/projects/constructor` crashes the page instead of
      reporting the project missing. */
  lemma {:induction false} LookupAsWrittenCrashesOnConstructor(data: map<string, ProjectData>)
    requires "constructor" !in data
    ensures LookupAsWritten(data, "constructor") == Crashes
    ensures FindProject(data, "constructor") == NotFound
  {
  }

  /** The two lookups agree on every id that is not an inherited name. */
  lemma {:induction false} LookupsAgreeOffPrototype(data: map<string, ProjectData>, id: string)
    requires id in data || id !in PrototypeNames
    ensures LookupAsWritten(data, id) == FindProject(data, id)
  {
  }

  // ---------------------------------------------------------------------
  // Sprints
  // ---------------------------------------------------------------------

  function SprintRunning(s: Sprint): bool
  {
    s.status == "in-progress"
  }

  /** `currentSprint`: the first sprint in progress, otherwise the first
      sprint, and none when there are no sprints. */
  function CurrentSprint(p: ProjectData): (r: Option<Sprint>)
    ensures r.None? <==> p.sprints == []
    ensures r.Some? ==> r.value in p.sprints
    ensures (exists i :: 0 <= i < |p.sprints| && p.sprints[i].status == "in-progress") ==> r.Some? && r.value.status == "in-progress"
    ensures (forall i :: 0 <= i < |p.sprints| ==> p.sprints[i].status != "in-progress") && p.sprints != [] ==> r == Some(p.sprints[0])
  {
    var running := FindFirst(p.sprints, SprintRunning);
    if running.Some? then running
    else if p.sprints != [] then Some(p.sprints[0])
    else None
  }

  /** The running sprint found is the earliest one. */
  lemma {:induction false} CurrentSprintIsFirstRunning(p: ProjectData, i: int)
    requires 0 <= i < |p.sprints| && p.sprints[i].status == "in-progress"
    requires forall j :: 0 <= j < i ==> p.sprints[j].status != "in-progress"
    ensures CurrentSprint(p) == Some(p.sprints[i])
  {
    FindFirstAt(p.sprints, SprintRunning, i);
  }

  /** `!activeSprint`: no sprint is chosen while the id is missing or the
      empty string. */
  predicate ActiveUnset(active: Option<string>)
  {
    active.None? || active.value == ""
  }

  /** The render-time update of `activeSprint`: while none is chosen, the
      current sprint's id is chosen; a chosen sprint stays. */
  function InitActiveSprint(active: Option<string>, current: Option<Sprint>): (r: Option<string>)
    ensures !ActiveUnset(active) ==> r == active
    ensures ActiveUnset(active) && current.Some? ==> r == Some(current.value.id)
    ensures ActiveUnset(active) && current.None? ==> r == active
  {
    if ActiveUnset(active) && current.Some? then Some(current.value.id) else active
  }

  /** The update settles when the current sprint has a non-empty id:
      running it again changes nothing, so the render does not loop. */
  lemma {:induction false} InitActiveSprintSettles(active: Option<string>, current: Option<Sprint>)
    requires current.None? || current.value.id != ""
    ensures InitActiveSprint(InitActiveSprint(active, current), current) == InitActiveSprint(active, current)
    ensures current.Some? ==> !ActiveUnset(InitActiveSprint(active, current))
  {
  }

  /** With a current sprint whose id is empty, the chosen id still reads as
      unset, so every render calls the setter again. */
  lemma {:induction false} EmptySprintIdNeverSettles(active: Option<string>, sp: Sprint)
    requires ActiveUnset(active) && sp.id == ""
    ensures InitActiveSprint(active, Some(sp)) == Some("")
    ensures ActiveUnset(InitActiveSprint(active, Some(sp)))
  {
  }

  // ---------------------------------------------------------------------
  // Sprint board
  // ---------------------------------------------------------------------

  function InLane(s: Status): ProjectTask -> bool
  {
    (t: ProjectTask) => t.status == s
  }

  /** The tasks of one lane, in project order. */
  function Lane(tasks: seq<ProjectTask>, s: Status): (r: seq<ProjectTask>)
    ensures forall t :: t in r <==> t in tasks && t.status == s
    ensures SubsequenceOf(r, tasks)
  {
    FilterIsSubsequence(tasks, InLane(s));
    Filter(tasks, InLane(s))
  }

  datatype SprintLanes = SprintLanes(todo: seq<ProjectTask>, inProgress: seq<ProjectTask>, review: seq<ProjectTask>, done: seq<ProjectTask>)

  /** `sprintTasks`: the project's tasks split by status. */
  function SprintTasks(p: ProjectData): (r: SprintLanes)
    ensures r.todo == Lane(p.tasks, Todo) && r.inProgress == Lane(p.tasks, InProgress)
    ensures r.review == Lane(p.tasks, Review) && r.done == Lane(p.tasks, Done)
  {
    SprintLanes(Lane(p.tasks, Todo), Lane(p.tasks, InProgress), Lane(p.tasks, Review), Lane(p.tasks, Done))
  }

  lemma {:induction false} LaneCons(a: ProjectTask, t: seq<ProjectTask>, s: Status)
    ensures a.status == s ==> Lane([a] + t, s) == [a] + Lane(t, s)
    ensures a.status != s ==> Lane([a] + t, s) == Lane(t, s)
  {
    FilterCons(a, t, InLane(s));
  }

  /** The four lanes split the project's tasks: none lost, none shown
      twice. */
  lemma {:induction false} LanesPartition(tasks: seq<ProjectTask>)
    ensures multiset(Lane(tasks, Todo)) + multiset(Lane(tasks, InProgress))
          + multiset(Lane(tasks, Review)) + multiset(Lane(tasks, Done)) == multiset(tasks)
    decreases |tasks|
  {
    if tasks != [] {
      var a, t := tasks[0], tasks[1..];
      assert tasks == [a] + t;
      LanesPartition(t);
      LaneCons(a, t, Todo);
      LaneCons(a, t, InProgress);
      LaneCons(a, t, Review);
      LaneCons(a, t, Done);
      assert multiset(tasks) == multiset{a} + multiset(t);
      match a.status
      case Todo => assert multiset(Lane(tasks, Todo)) == multiset{a} + multiset(Lane(t, Todo));
      case InProgress => assert multiset(Lane(tasks, InProgress)) == multiset{a} + multiset(Lane(t, InProgress));
      case Review => assert multiset(Lane(tasks, Review)) == multiset{a} + multiset(Lane(t, Review));
      case Done => assert multiset(Lane(tasks, Done)) == multiset{a} + multiset(Lane(t, Done));
    }
  }

  lemma {:induction false} SprintTasksPartition(p: ProjectData)
    ensures var r := SprintTasks(p);
            multiset(r.todo) + multiset(r.inProgress) + multiset(r.review) + multiset(r.done) == multiset(p.tasks)
  {
    LanesPartition(p.tasks);
  }

  // ---------------------------------------------------------------------
  // Team statistics
  // ---------------------------------------------------------------------

  function AssignedTo(name: string): ProjectTask -> bool
  {
    (t: ProjectTask) => t.assigneeName == name
  }

  function DoneBy(name: string): ProjectTask -> bool
  {
    (t: ProjectTask) => t.assigneeName == name && t.status == Done
  }

  /** "Tasks Assigned": the tasks whose assignee has the member's name. */
  function AssignedCount(tasks: seq<ProjectTask>, name: string): (n: nat)
    ensures n <= |tasks|
    ensures n == 0 <==> forall i :: 0 <= i < |tasks| ==> tasks[i].assigneeName != name
  {
    var n := Count(tasks, AssignedTo(name));
    assert n == |Filter(tasks, AssignedTo(name))|;
    assert n == 0 <==> forall i :: 0 <= i < |tasks| ==> tasks[i].assigneeName != name by {
      if n != 0 {
        assert Filter(tasks, AssignedTo(name))[0] in tasks;
      } else {
        forall i | 0 <= i < |tasks|
          ensures tasks[i].assigneeName != name
        {
          assert tasks[i] !in Filter(tasks, AssignedTo(name));
        }
      }
    }
    n
  }

  /** The member's tasks that are done; never more than those assigned. */
  function DoneCount(tasks: seq<ProjectTask>, name: string): (n: nat)
    ensures n <= AssignedCount(tasks, name)
  {
    CountMonotone(tasks, DoneBy(name), AssignedTo(name));
    Count(tasks, DoneBy(name))
  }

  function Max(a: int, b: int): int
  {
    if a < b then b else a
  }

  /** `Math.round(done / Math.max(1, mine) * 100)`, the share rounded
      half up to a whole percent (taken on exact rationals). */
  function Rate(done: nat, mine: nat): (r: int)
    requires done <= mine
    ensures 0 <= r <= 100
    ensures mine == 0 ==> r == 0
    ensures done == 0 ==> r == 0
    ensures 0 < done == mine ==> r == 100
    ensures var exact := (done as real / Max(1, mine) as real) * 100.0;
            r as real - 0.5 <= exact < r as real + 0.5
  {
    Board.RatioBounds(done, Max(1, mine));
    ((done as real / Max(1, mine) as real) * 100.0 + 0.5).Floor
  }

  /** "Completion Rate" on a member's card. */
  function CompletionRate(tasks: seq<ProjectTask>, name: string): (r: int)
    ensures 0 <= r <= 100
    ensures AssignedCount(tasks, name) == 0 ==> r == 0
    ensures DoneCount(tasks, name) == AssignedCount(tasks, name) > 0 ==> r == 100
  {
    Rate(DoneCount(tasks, name), AssignedCount(tasks, name))
  }

  /** A member with no tasks shows 0%, not a division by zero. */
  lemma {:induction false} NoTasksNoRate(tasks: seq<ProjectTask>, name: string)
    requires forall i :: 0 <= i < |tasks| ==> tasks[i].assigneeName != name
    ensures AssignedCount(tasks, name) == 0 && CompletionRate(tasks, name) == 0
  {
  }

  /** A member whose every task is done shows 100%. */
  lemma {:induction false} AllDoneFullRate(tasks: seq<ProjectTask>, name: string)
    requires exists i :: 0 <= i < |tasks| && tasks[i].assigneeName == name
    requires forall i :: 0 <= i < |tasks| && tasks[i].assigneeName == name ==> tasks[i].status == Done
    ensures CompletionRate(tasks, name) == 100
  {
    forall i | 0 <= i < |tasks|
      ensures DoneBy(name)(tasks[i]) == AssignedTo(name)(tasks[i])
    {
    }
    FilterCongruent(tasks, DoneBy(name), AssignedTo(name));
  }

  /** The lanes' mine counts add up: a member's tasks are the member's
      tasks of each lane together. */
  lemma {:induction false} AssignedAcrossLanes(tasks: seq<ProjectTask>, name: string)
    ensures AssignedCount(tasks, name) == AssignedCount(Lane(tasks, Todo), name) + AssignedCount(Lane(tasks, InProgress), name)
                                       + AssignedCount(Lane(tasks, Review), name) + AssignedCount(Lane(tasks, Done), name)
    decreases |tasks|
  {
    if tasks != [] {
      var a, t := tasks[0], tasks[1..];
      assert tasks == [a] + t;
      AssignedAcrossLanes(t, name);
      LaneCons(a, t, Todo);
      LaneCons(a, t, InProgress);
      LaneCons(a, t, Review);
      LaneCons(a, t, Done);
      CountCons(a, t, name);
      CountCons(a, Lane(t, Todo), name);
      CountCons(a, Lane(t, InProgress), name);
      CountCons(a, Lane(t, Review), name);
      CountCons(a, Lane(t, Done), name);
    }
  }

  lemma {:induction false} CountCons(a: ProjectTask, t: seq<ProjectTask>, name: string)
    ensures AssignedCount([a] + t, name) == (if a.assigneeName == name then 1 else 0) + AssignedCount(t, name)
  {
    FilterCons(a, t, AssignedTo(name));
  }
}

=== FILE: projectform.dfy ===
/** The add-project dialog: its fields and defaults, the validation of
    names, dates and team, the member checkboxes, and the project record a
    valid form submits. */
module ProjectForm {
  import opened Seqs
  import opened Text
  import opened Calendar
  import Domain

  datatype ProjectMember = ProjectMember(id: string, name: string, role: string, avatar: string, initials: string)

  /** The people the dialog offers as team members. */
  const ProjectTeam: seq<ProjectMember> := [
    ProjectMember("user-1", "John Doe", "Project Manager", "/placeholder.svg?height=32&width=32", "JD"),
    ProjectMember("user-2", "Sarah Johnson", "Senior Designer", "/placeholder.svg?height=32&width=32", "SJ"),
    ProjectMember("user-3", "Mike Brown", "Frontend Developer", "/placeholder.svg?height=32&width=32", "MB"),
    ProjectMember("user-4", "Emily Clark", "Content Strategist", "/placeholder.svg?height=32&width=32", "EC"),
    ProjectMember("user-5", "Alex Wong", "Backend Developer", "/placeholder.svg?height=32&width=32", "AW"),
    ProjectMember("user-6", "Lisa Martinez", "Product Manager", "/placeholder.svg?height=32&width=32", "LM"),
    ProjectMember("user-7", "David Kim", "QA Engineer", "/placeholder.svg?height=32&width=32", "DK"),
    ProjectMember("user-8", "Rachel Green", "Marketing Specialist", "/placeholder.svg?height=32&width=32", "RG")
  ]

  /** The keys of the form's error object, one per checked field. */
  datatype ProjectField = NameField | DescriptionField | StartDateField | EndDateField | TeamField

  /** The dialog's state.  Start and end are clock readings: the initial
      `new Date()` or a day picked (at midnight); `None` once cleared.
      `selected` holds the ids of the ticked members in ticking order. */
  datatype ProjectForm = ProjectForm(
    name: string,
    description: string,
    startDate: Option<Moment>,
    endDate: Option<Moment>,
    status: string,
    selected: seq<string>,
    projectType: string,
    sprintDuration: string,
    errors: map<ProjectField, string>)

  /** `resetForm` (and the initial state): both dates now, planning, the
      first member ticked, scrum, two-week sprints. */
  function DefaultProjectForm(now: Moment): ProjectForm
  {
    ProjectForm("", "", Some(now), Some(now), "planning", [ProjectTeam[0].id], "scrum", "2", map[])
  }

  /** `endDate < startDate` on two readings; a missing start compares false. */
  predicate EndsBeforeStart(f: ProjectForm)
  {
    f.startDate.Some? && f.endDate.Some? && Instant(f.endDate.value) < Instant(f.startDate.value)
  }

  /** `validateForm`: a message per problem.  A missing end date and an end
      before the start share the `endDate` entry. */
  function ProjectErrors(f: ProjectForm): (e: map<ProjectField, string>)
    ensures forall k :: k in e <==> ProjectFieldFails(f, k)
    ensures forall k :: k in e ==> e[k] == ProjectFieldMessage(f, k)
  {
    map k | k in AllProjectFields && ProjectFieldFails(f, k) :: ProjectFieldMessage(f, k)
  }

  /** Which entries the error object has: one per failing check. */
  lemma {:induction false} ProjectErrorKeys(f: ProjectForm)
    ensures var e := ProjectErrors(f);
            && (NameField in e <==> IsBlank(f.name))
            && (DescriptionField in e <==> IsBlank(f.description))
            && (StartDateField in e <==> f.startDate.None?)
            && (EndDateField in e <==> f.endDate.None? || EndsBeforeStart(f))
            && (TeamField in e <==> f.selected == [])
  {
  }

  /** What each entry says; the end date's message tells a missing date
      from one before the start. */
  lemma {:induction false} ProjectErrorMessages(f: ProjectForm)
    ensures var e := ProjectErrors(f);
            && (NameField in e ==> e[NameField] == "Project name is required")
            && (DescriptionField in e ==> e[DescriptionField] == "Project description is required")
            && (StartDateField in e ==> e[StartDateField] == "Start date is required")
            && (f.endDate.None? ==> e[EndDateField] == "End date is required")
            && (EndsBeforeStart(f) ==> e[EndDateField] == "End date must be after start date")
            && (TeamField in e ==> e[TeamField] == "At least one team member is required")
  {
  }

  const AllProjectFields: set<ProjectField> := {NameField, DescriptionField, StartDateField, EndDateField, TeamField}

  /** The check each field's `if` makes. */
  predicate ProjectFieldFails(f: ProjectForm, k: ProjectField)
  {
    match k
    case NameField => IsBlank(f.name)
    case DescriptionField => IsBlank(f.description)
    case StartDateField => f.startDate.None?
    case EndDateField => f.endDate.None? || EndsBeforeStart(f)
    case TeamField => f.selected == []
  }

  /** The message each failing check stores. */
  function ProjectFieldMessage(f: ProjectForm, k: ProjectField): string
  {
    match k
    case NameField => "Project name is required"
    case DescriptionField => "Project description is required"
    case StartDateField => "Start date is required"
    case EndDateField => if f.endDate.None? then "End date is required" else "End date must be after start date"
    case TeamField => "At least one team member is required"
  }

  /** The form passes exactly when named, described, dated in order and
      staffed. */
  predicate ProjectComplete(f: ProjectForm)
  {
    && !IsBlank(f.name) && !IsBlank(f.description)
    && f.startDate.Some? && f.endDate.Some?
    && Instant(f.startDate.value) <= Instant(f.endDate.value)
    && f.selected != []
  }

  lemma {:induction false} ProjectValidIffComplete(f: ProjectForm)
    ensures ProjectErrors(f) == map[] <==> ProjectComplete(f)
  {
    var e := ProjectErrors(f);
    if !ProjectComplete(f) {
      assert NameField in e || DescriptionField in e || StartDateField in e || EndDateField in e || TeamField in e;
    }
  }

  /** A fresh form, with both dates the same reading, lacks only its name
      and description. */
  lemma {:induction false} DefaultProjectFormMissesNameAndDescription(now: Moment)
    ensures ProjectErrors(DefaultProjectForm(now)).Keys == {NameField, DescriptionField}
  {
    var f := DefaultProjectForm(now);
    var e := ProjectErrors(f);
    assert f.selected != [] && f.startDate.Some? && f.endDate.Some?;
    assert !EndsBeforeStart(f);
    assert IsBlank(f.name) && IsBlank(f.description);
    forall k: ProjectField
      ensures k in e <==> k == NameField || k == DescriptionField
    {
    }
  }

  // ---------------------------------------------------------------------
  // Team checkboxes
  // ---------------------------------------------------------------------

  /** `toggleTeamMember`: untick a ticked member (every occurrence), tick an
      unticked one at the end. */
  function ToggleMember(selected: seq<string>, id: string): (r: seq<string>)
    ensures id in selected ==> id !in r && forall x :: x in r <==> x in selected && x != id
    ensures id in selected ==> SubsequenceOf(r, selected)
    ensures id !in selected ==> r == selected + [id]
  {
    if id in selected then
      FilterIsSubsequence(selected, (x: string) => x != id);
      Filter(selected, (x: string) => x != id)
    else selected + [id]
  }

  /** Ticking never duplicates: a list without repeats keeps none. */
  lemma {:induction false} ToggleKeepsNoDuplicates(selected: seq<string>, id: string)
    requires NoDuplicates(selected)
    ensures NoDuplicates(ToggleMember(selected, id))
  {
    if id in selected {
      FilterNoDuplicates(selected, (x: string) => x != id);
    }
  }

  lemma {:induction false} FilterNoDuplicates(s: seq<string>, p: string -> bool)
    requires NoDuplicates(s)
    ensures NoDuplicates(Filter(s, p))
    decreases |s|
  {
    if s != [] {
      FilterNoDuplicates(s[1..], p);
      assert s[0] !in s[1..];
      assert s[0] !in Filter(s[1..], p);
    }
  }

  /** Ticking an unticked member and then unticking it restores the list. */
  lemma {:induction false} TickThenUntick(selected: seq<string>, id: string)
    requires id !in selected
    ensures ToggleMember(ToggleMember(selected, id), id) == selected
  {
    var p := (x: string) => x != id;
    FilterAppend(selected, [id], p);
    FilterAll(selected, p);
    assert Filter([id], p) == [];
  }

  /** Unticking a ticked member and ticking it again keeps the same people
      in their order, with that member moved to the end. */
  lemma {:induction false} UntickThenTick(selected: seq<string>, id: string)
    requires id in selected
    ensures var r := ToggleMember(ToggleMember(selected, id), id);
            && (forall x :: x in r <==> x in selected)
            && r[|r| - 1] == id
            && id !in r[..|r| - 1]
            && SubsequenceOf(r[..|r| - 1], selected)
  {
    var u := ToggleMember(selected, id);
    assert ToggleMember(u, id)[..|u|] == u;
  }

  // ---------------------------------------------------------------------
  // Submitting
  // ---------------------------------------------------------------------

  /** The record handed to `onAddProject`; a ticked id nobody has is
      `None` (`find` gives `undefined`), a sprint length that does not
      parse is `None` (`NaN`). */
  datatype Project = Project(
    id: string,
    name: string,
    description: string,
    startDate: string,
    endDate: string,
    status: string,
    team: seq<Option<ProjectMember>>,
    projectType: string,
    sprintDuration: Option<nat>)

  function FindProjectMember(id: string): (r: Option<ProjectMember>)
    ensures r.Some? ==> r.value in ProjectTeam && r.value.id == id
    ensures r.None? <==> forall i :: 0 <= i < |ProjectTeam| ==> ProjectTeam[i].id != id
  {
    FindFirst(ProjectTeam, (m: ProjectMember) => m.id == id)
  }

  /** `selectedTeamMembers.map((id) => teamMembers.find(...))`. */
  function TeamOf(selected: seq<string>): (team: seq<Option<ProjectMember>>)
    ensures |team| == |selected|
    ensures forall i :: 0 <= i < |selected| ==> team[i] == FindProjectMember(selected[i])
  {
    seq(|selected|, i requires 0 <= i < |selected| => FindProjectMember(selected[i]))
  }

  /** Each ticked member of the dialog's list is found as that member, so a
      submitted team lists exactly the people ticked, in ticking order. */
  lemma {:induction false} TickedMemberFound(selected: seq<string>, k: int, i: int)
    requires 0 <= k < |selected| && 0 <= i < |ProjectTeam| && selected[k] == ProjectTeam[i].id
    ensures TeamOf(selected)[k] == Some(ProjectTeam[i])
  {
    forall j | 0 <= j < i
      ensures ProjectTeam[j].id != ProjectTeam[i].id
    {
      assert ProjectTeam[j].id[5] != ProjectTeam[i].id[5];
    }
    FindFirstAt(ProjectTeam, (m: ProjectMember) => m.id == selected[k], i);
  }

  /** `project-${Date.now()}`. */
  function ProjectId(stamp: nat): string
  {
    StampedId("project-", stamp)
  }

  datatype ProjectSubmission = ProjectSubmission(form: ProjectForm, open: bool, added: Option<Project>)

  /** `handleSubmit`: an incomplete form stays open with its errors; a
      complete one becomes a project, and the form is reset and closed. */
  function SubmitProject(f: ProjectForm, open: bool, now: Moment, stamp: nat): (r: ProjectSubmission)
    ensures r.added.Some? <==> ProjectComplete(f)
    ensures r.added.None? ==> r.form == f.(errors := ProjectErrors(f)) && r.open == open
    ensures r.added.Some? ==> r.form == DefaultProjectForm(now) && !r.open
    ensures r.added.Some? ==>
              var p := r.added.value;
              && p.id == ProjectId(stamp) && p.name == f.name && p.description == f.description
              && p.startDate == IsoKey(f.startDate.value.date) && p.endDate == IsoKey(f.endDate.value.date)
              && p.status == f.status && p.projectType == f.projectType
              && p.team == TeamOf(f.selected) && p.sprintDuration == ParseInt(f.sprintDuration)
  {
    ProjectValidIffComplete(f);
    var errors := ProjectErrors(f);
    if errors != map[] then
      ProjectSubmission(f.(errors := errors), open, None)
    else
      var project := Project(ProjectId(stamp), f.name, f.description,
                             IsoKey(f.startDate.value.date), IsoKey(f.endDate.value.date),
                             f.status, TeamOf(f.selected), f.projectType, ParseInt(f.sprintDuration));
      ProjectSubmission(DefaultProjectForm(now), false, Some(project))
  }

  /** The sprint lengths offered, `"1"` to `"4"` weeks, are stored as the
      numbers they show. */
  lemma {:induction false} SprintChoicesParse(weeks: nat)
    requires 1 <= weeks <= 4
    ensures ParseInt(DecimalString(weeks)) == Some(weeks)
  {
    ParseIntRoundTrip(weeks);
  }

  /** A submitted project has at least one team entry, and its dates read
      back in order. */
  lemma {:induction false} SubmittedProjectOrdered(f: ProjectForm, open: bool, now: Moment, stamp: nat, p: Project)
    requires SubmitProject(f, open, now, stamp).added == Some(p)
    requires f.startDate.Some? && f.endDate.Some?
    requires ValidDate(f.startDate.value.date) && 1 <= f.startDate.value.date.year <= 9999
    requires ValidDate(f.endDate.value.date) && 1 <= f.endDate.value.date.year <= 9999
    ensures p.team != []
    ensures ParseKey(p.startDate) == Some(f.startDate.value.date)
    ensures ParseKey(p.endDate) == Some(f.endDate.value.date)
    ensures DayNumber(f.startDate.value.date) <= DayNumber(f.endDate.value.date)
  {
    KeyReadsBack(p.startDate, f.startDate.value.date);
    KeyReadsBack(p.endDate, f.endDate.value.date);
    OrderedReadings(f.startDate.value, f.endDate.value);
  }

  /** Readings in order lie on days in order. */
  lemma {:induction false} OrderedReadings(a: Moment, b: Moment)
    requires Instant(a) <= Instant(b)
    ensures DayNumber(a.date) <= DayNumber(b.date)
  {
    if DayNumber(a.date) > DayNumber(b.date) {
      LaterDayLaterReading(b, a);
    }
  }

  lemma {:induction false} LaterDayLaterReading(a: Moment, b: Moment)
    requires DayNumber(a.date) < DayNumber(b.date)
    ensures Instant(a) < Instant(b)
  {
    assert Midnight(a.date) + MillisPerDay <= Midnight(b.date);
  }

  /** The dialog's `onOpenChange` handler: closing through it resets the
      form (both dates now, planning, the first member ticked, scrum,
      two-week sprints, no errors); opening keeps it. */
  function OnProjectOpenChange(f: ProjectForm, isOpen: bool, now: Moment): (r: ProjectForm)
    ensures !isOpen ==> r == DefaultProjectForm(now)
    ensures !isOpen ==> && r.errors == map[] && r.name == "" && r.description == ""
                        && r.startDate == Some(now) && r.endDate == Some(now) && r.status == "planning"
                        && r.selected == ["user-1"] && r.projectType == "scrum" && r.sprintDuration == "2"
    ensures isOpen ==> r == f
  {
    if isOpen then f else DefaultProjectForm(now)
  }

  /** Cancel as intended: closing through the dialog's own handler. */
  function CancelProject(d: Domain.Dialog<ProjectForm>, now: Moment): (r: Domain.Dialog<ProjectForm>)
    ensures !r.open && r.form == DefaultProjectForm(now)
  {
    Domain.Dialog(OnProjectOpenChange(d.form, false, now), false)
  }

  /** After a failed submit, Cancel as written keeps the name error and the
      typed-in description, and reopening shows both; the intended Cancel
      reopens on a fresh form. */
  lemma {:induction false} CancelProjectAsWrittenKeepsInput(now: Moment)
    ensures var typed := DefaultProjectForm(now).(description := "Q3 launch");
            var s := SubmitProject(typed, true, now, 0);
            var again := Domain.Open(Domain.CancelAsWritten(Domain.Dialog(s.form, s.open)));
            && s.open && again.form == s.form
            && again.form.description == "Q3 launch" && again.form.errors[NameField] == "Project name is required"
            && Domain.Open(CancelProject(Domain.Dialog(s.form, s.open), now)).form == DefaultProjectForm(now)
  {
    var typed := DefaultProjectForm(now).(description := "Q3 launch");
    assert IsBlank(typed.name);
    assert !IsBlank(typed.description) by {
      assert !IsSpace(typed.description[0]);
    }
    ProjectErrorKeys(typed);
    ProjectErrorMessages(typed);
    ProjectValidIffComplete(typed);
  }
}

=== FILE: seqs.dfy ===
/** Sequence utilities shared by every view of the dashboard: the JavaScript
    array operations the components lean on (`filter`, `find`, `new Set`,
    stable `sort`), each stated once with the property it guarantees. */
module Seqs {

  datatype Option<T> = None | Some(value: T)

  /** The complement of a predicate, as a function value so that the two
      halves of a partition can be named. */
  function Not<T(!new)>(p: T -> bool): T -> bool
  {
    x => !p(x)
  }

  /** `Array.prototype.filter`: the elements satisfying `p`, in input order. */
  function Filter<T(!new)>(s: seq<T>, p: T -> bool): (r: seq<T>)
    ensures |r| <= |s|
    ensures forall x :: x in r <==> x in s && p(x)
    ensures forall i :: 0 <= i < |r| ==> p(r[i])
  {
    if s == [] then []
    else
      assert s == [s[0]] + s[1..];
      if p(s[0]) then [s[0]] + Filter(s[1..], p)
      else Filter(s[1..], p)
  }

  /** Number of elements satisfying `p` (`filter(p).length`). */
  function Count<T(!new)>(s: seq<T>, p: T -> bool): nat
  {
    |Filter(s, p)|
  }

  /** `r` can be obtained from `s` by deleting elements: order is kept. */
  predicate SubsequenceOf<T(==,!new)>(r: seq<T>, s: seq<T>)
    decreases |s|
  {
    if r == [] then true
    else if s == [] then false
    else if r[0] == s[0] then SubsequenceOf(r[1..], s[1..])
    else SubsequenceOf(r, s[1..])
  }

  predicate NoDuplicates<T(==,!new)>(s: seq<T>)
  {
    forall i, j :: 0 <= i < j < |s| ==> s[i] != s[j]
  }

  /** Filtering an appended sequence filters each part. */
  lemma {:induction false} FilterAppend<T(!new)>(a: seq<T>, b: seq<T>, p: T -> bool)
    ensures Filter(a + b, p) == Filter(a, p) + Filter(b, p)
    decreases |a|
  {
    if a == [] {
      assert a + b == b;
    } else {
      assert (a + b)[1..] == a[1..] + b;
      FilterAppend(a[1..], b, p);
    }
  }

  /** Filtering keeps the input order: the result is a subsequence. */
  lemma {:induction false} FilterIsSubsequence<T(!new)>(s: seq<T>, p: T -> bool)
    ensures SubsequenceOf(Filter(s, p), s)
    decreases |s|
  {
    if s != [] {
      FilterIsSubsequence(s[1..], p);
      if !p(s[0]) {
        SkipHead(Filter(s[1..], p), s);
      }
    }
  }

  /** A subsequence of the tail is a subsequence of the whole. */
  lemma {:induction false} SkipHead<T(!new)>(r: seq<T>, s: seq<T>)
    requires s != []
    requires SubsequenceOf(r, s[1..])
    ensures SubsequenceOf(r, s)
    decreases |s|, 1
  {
    if r != [] && r[0] == s[0] {
      DropFirst(r, s[1..]);
    }
  }

  /** Dropping the first element of a subsequence keeps it a subsequence. */
  lemma {:induction false} DropFirst<T(!new)>(r: seq<T>, t: seq<T>)
    requires r != []
    requires SubsequenceOf(r, t)
    ensures SubsequenceOf(r[1..], t)
    decreases |t| + 1, 0
  {
    if r[0] == t[0] {
      SkipHead(r[1..], t);
    } else {
      DropFirst(r, t[1..]);
      SkipHead(r[1..], t);
    }
  }

  /** A predicate and its complement split a sequence into two parts that
      together hold every element exactly as often as the input does. */
  lemma {:induction false} FilterPartition<T(!new)>(s: seq<T>, p: T -> bool)
    ensures multiset(Filter(s, p)) + multiset(Filter(s, Not(p))) == multiset(s)
    ensures Count(s, p) + Count(s, Not(p)) == |s|
    decreases |s|
  {
    if s != [] {
      var t := s[1..];
      FilterPartition(t, p);
      assert s == [s[0]] + t;
      FilterCons(s[0], t, p);
      FilterCons(s[0], t, Not(p));
      assert multiset(s) == multiset{s[0]} + multiset(t);
      if p(s[0]) {
        assert multiset(Filter(s, p)) == multiset{s[0]} + multiset(Filter(t, p));
        assert Filter(s, Not(p)) == Filter(t, Not(p));
      } else {
        assert Filter(s, p) == Filter(t, p);
        assert multiset(Filter(s, Not(p))) == multiset{s[0]} + multiset(Filter(t, Not(p)));
      }
    }
  }

  /** Two predicates that agree on every element of `s` filter it alike. */
  lemma {:induction false} FilterCongruent<T(!new)>(s: seq<T>, p: T -> bool, q: T -> bool)
    requires forall i :: 0 <= i < |s| ==> p(s[i]) == q(s[i])
    ensures Filter(s, p) == Filter(s, q)
    decreases |s|
  {
    if s != [] {
      FilterCongruent(s[1..], p, q);
    }
  }

  /** Two sequences that differ only at positions `p` rejects in both
      filter to the same result. */
  lemma {:induction false} FilterAgrees<T(!new)>(s: seq<T>, t: seq<T>, p: T -> bool)
    requires |s| == |t|
    requires forall i :: 0 <= i < |s| ==> p(s[i]) == p(t[i])
    requires forall i :: 0 <= i < |s| && p(s[i]) ==> s[i] == t[i]
    ensures Filter(s, p) == Filter(t, p)
    decreases |s|
  {
    if s != [] {
      FilterAgrees(s[1..], t[1..], p);
    }
  }

  /** Filtering by `p` and then by `q` is filtering once by a predicate
      that, on the elements of `s`, means both. */
  lemma {:induction false} FilterTwice<T(!new)>(s: seq<T>, p: T -> bool, q: T -> bool, both: T -> bool)
    requires forall i :: 0 <= i < |s| ==> both(s[i]) == (p(s[i]) && q(s[i]))
    ensures Filter(Filter(s, p), q) == Filter(s, both)
    decreases |s|
  {
    if s != [] {
      FilterTwice(s[1..], p, q, both);
      if p(s[0]) {
        assert Filter(s, p) == [s[0]] + Filter(s[1..], p);
        assert Filter(s, p)[1..] == Filter(s[1..], p);
      }
    }
  }

  /** Filtering by a predicate that holds of every element changes nothing. */
  lemma {:induction false} FilterAll<T(!new)>(s: seq<T>, p: T -> bool)
    requires forall i :: 0 <= i < |s| ==> p(s[i])
    ensures Filter(s, p) == s
    decreases |s|
  {
    if s != [] {
      FilterAll(s[1..], p);
    }
  }

  /** Every element satisfies `p` exactly when all of them are counted. */
  lemma {:induction false} CountFullIffAll<T(!new)>(s: seq<T>, p: T -> bool)
    ensures Count(s, p) == |s| <==> forall i :: 0 <= i < |s| ==> p(s[i])
    decreases |s|
  {
    if s != [] {
      CountFullIffAll(s[1..], p);
      if p(s[0]) {
        assert forall i :: 1 <= i < |s| ==> s[i] == s[1..][i - 1];
      }
    }
  }

  /** Counting a stronger predicate never yields more. */
  lemma {:induction false} CountMonotone<T(!new)>(s: seq<T>, p: T -> bool, q: T -> bool)
    requires forall i :: 0 <= i < |s| ==> p(s[i]) ==> q(s[i])
    ensures Count(s, p) <= Count(s, q)
    decreases |s|
  {
    if s != [] {
      CountMonotone(s[1..], p, q);
    }
  }

  /** `Array.prototype.find`: the first element satisfying `p`, if any. */
  function FindFirst<T(!new)>(s: seq<T>, p: T -> bool): (r: Option<T>)
    ensures r.None? <==> forall i :: 0 <= i < |s| ==> !p(s[i])
    ensures r.Some? ==> r == Some(Filter(s, p)[0])
    ensures r.Some? ==> r.value in s && p(r.value)
  {
    if s == [] then None
    else if p(s[0]) then Some(s[0])
    else FindFirst(s[1..], p)
  }

  /** The element found is the first one satisfying `p`. */
  lemma {:induction false} FindFirstAt<T(!new)>(s: seq<T>, p: T -> bool, i: int)
    requires 0 <= i < |s| && p(s[i])
    requires forall j :: 0 <= j < i ==> !p(s[j])
    ensures FindFirst(s, p) == Some(s[i])
    decreases i
  {
    if i > 0 {
      FindFirstAt(s[1..], p, i - 1);
    }
  }

  /** Iteration order of `new Set(s)`: each element at its first occurrence. */
  function Distinct<T(==,!new)>(s: seq<T>): (r: seq<T>)
    ensures NoDuplicates(r)
    ensures forall x :: x in r <==> x in s
    ensures |r| <= |s|
  {
    if s == [] then []
    else
      var r := Distinct(s[..|s| - 1]);
      assert forall x :: x in s <==> x in s[..|s| - 1] || x == s[|s| - 1] by {
        assert s == s[..|s| - 1] + [s[|s| - 1]];
      }
      if s[|s| - 1] in r then r else r + [s[|s| - 1]]
  }

  /** `new Set` of a prefix is a prefix of `new Set` of the whole: later
      elements only ever add to the end. */
  lemma {:induction false} DistinctOfPrefix<T(!new)>(s: seq<T>, n: int)
    requires 0 <= n <= |s|
    ensures Distinct(s[..n]) <= Distinct(s)
    decreases |s|
  {
    if n < |s| {
      var init := s[..|s| - 1];
      assert init[..n] == s[..n];
      DistinctOfPrefix(init, n);
      assert Distinct(init) <= Distinct(s);
    } else {
      assert s[..n] == s;
    }
  }

  /** Insertion order: an element met before position `n` comes before one
      first met at or after it. */
  lemma {:induction false} DistinctFirstOccurrenceOrder<T(!new)>(s: seq<T>, n: int, i: int, j: int)
    requires 0 <= n <= |s| && 0 <= i < |Distinct(s)| && 0 <= j < |Distinct(s)|
    requires Distinct(s)[i] in s[..n] && Distinct(s)[j] !in s[..n]
    ensures i < j
  {
    var r, p := Distinct(s), Distinct(s[..n]);
    DistinctOfPrefix(s, n);
    var k :| 0 <= k < |p| && p[k] == r[i];
    assert r[k] == r[i];
    assert r[j] !in p;
    assert forall m :: 0 <= m < |p| ==> p[m] == r[m];
  }

  /** A sequence that already has no repeats passes through `new Set` as is. */
  lemma {:induction false} DistinctOfDistinct<T(!new)>(s: seq<T>)
    requires NoDuplicates(s)
    ensures Distinct(s) == s
    decreases |s|
  {
    if s != [] {
      var init := s[..|s| - 1];
      assert NoDuplicates(init);
      DistinctOfDistinct(init);
      assert s[|s| - 1] !in init;
      assert init + [s[|s| - 1]] == s;
    }
  }

  // ---------------------------------------------------------------------
  // Stable sort by an integer key
  // ---------------------------------------------------------------------

  predicate SortedBy<T(!new)>(s: seq<T>, key: T -> int)
  {
    forall i, j :: 0 <= i < j < |s| ==> key(s[i]) <= key(s[j])
  }

  /** The key that sorts in the opposite direction. */
  function Negate<T(!new)>(key: T -> int): T -> int
  {
    x => -key(x)
  }

  /** Elements whose key is `k`. */
  function KeyIs<T(!new)>(key: T -> int, k: int): T -> bool
  {
    x => key(x) == k
  }

  /** Inserts `x` before the first element whose key is not smaller. */
  function Insert<T(!new)>(x: T, r: seq<T>, key: T -> int): (res: seq<T>)
    ensures |res| == |r| + 1
  {
    if r == [] then [x]
    else if key(x) <= key(r[0]) then [x] + r
    else [r[0]] + Insert(x, r[1..], key)
  }

  /** Insertion adds exactly `x` to the elements. */
  lemma {:induction false} InsertPermutes<T(!new)>(x: T, r: seq<T>, key: T -> int)
    ensures multiset(Insert(x, r, key)) == multiset(r) + multiset{x}
    decreases |r|
  {
    if r != [] && key(x) > key(r[0]) {
      InsertPermutes(x, r[1..], key);
      assert r == [r[0]] + r[1..];
    }
  }

  /** An element no greater than everything in a sorted sequence can
      lead it. */
  lemma {:induction false} SortedCons<T(!new)>(y: T, t: seq<T>, key: T -> int)
    requires SortedBy(t, key)
    requires forall i :: 0 <= i < |t| ==> key(y) <= key(t[i])
    ensures SortedBy([y] + t, key)
  {
    var s := [y] + t;
    forall i, j | 0 <= i < j < |s|
      ensures key(s[i]) <= key(s[j])
    {
      if i > 0 {
        assert s[i] == t[i - 1] && s[j] == t[j - 1];
      } else {
        assert s[j] == t[j - 1];
      }
    }
  }

  /** Insertion into a sorted sequence keeps it sorted. */
  lemma {:induction false} InsertSorted<T(!new)>(x: T, r: seq<T>, key: T -> int)
    requires SortedBy(r, key)
    ensures SortedBy(Insert(x, r, key), key)
    decreases |r|
  {
    if r == [] {
    } else if key(x) <= key(r[0]) {
      SortedCons(x, r, key);
    } else {
      var rest := r[1..];
      var tail := Insert(x, rest, key);
      assert SortedBy(rest, key);
      InsertSorted(x, rest, key);
      InsertPermutes(x, rest, key);
      forall i | 0 <= i < |tail|
        ensures key(r[0]) <= key(tail[i])
      {
        assert tail[i] in multiset(rest) + multiset{x};
        if tail[i] != x {
          var j :| 0 <= j < |rest| && rest[j] == tail[i];
          assert r[j + 1] == tail[i];
        }
      }
      SortedCons(r[0], tail, key);
    }
  }

  /** A stable sort (`Array.prototype.sort` since ES2019) with the
      comparator `key(a) - key(b)`: a sorted permutation of the input. */
  function SortBy<T(!new)>(s: seq<T>, key: T -> int): (r: seq<T>)
    ensures |r| == |s|
    ensures multiset(r) == multiset(s)
    ensures SortedBy(r, key)
  {
    if s == [] then []
    else
      var rest := SortBy(s[1..], key);
      InsertSorted(s[0], rest, key);
      InsertPermutes(s[0], rest, key);
      assert s == [s[0]] + s[1..];
      Insert(s[0], rest, key)
  }

  /** Filtering a sequence with a known first element. */
  lemma {:induction false} FilterCons<T(!new)>(a: T, t: seq<T>, p: T -> bool)
    ensures Filter([a] + t, p) == (if p(a) then [a] else []) + Filter(t, p)
  {
    assert ([a] + t)[0] == a;
    assert ([a] + t)[1..] == t;
  }

  /** The step of `InsertStable` past an element that sorts before `x`. */
  lemma {:induction false} ConsBefore<T(!new)>(y: T, x: T, tail: seq<T>, rest: seq<T>, key: T -> int, k: int)
    requires key(y) < key(x)
    requires key(x) == k ==> Filter(tail, KeyIs(key, k)) == [x] + Filter(rest, KeyIs(key, k))
    requires key(x) != k ==> Filter(tail, KeyIs(key, k)) == Filter(rest, KeyIs(key, k))
    ensures key(x) == k ==> Filter([y] + tail, KeyIs(key, k)) == [x] + Filter([y] + rest, KeyIs(key, k))
    ensures key(x) != k ==> Filter([y] + tail, KeyIs(key, k)) == Filter([y] + rest, KeyIs(key, k))
  {
    FilterCons(y, tail, KeyIs(key, k));
    FilterCons(y, rest, KeyIs(key, k));
  }

  /** Inserting `x` adds it to the key-`key(x)` elements, ahead of the
      equal-keyed elements already present, and leaves other keys alone. */
  lemma {:induction false} InsertStable<T(!new)>(x: T, r: seq<T>, key: T -> int, k: int)
    ensures key(x) == k ==> Filter(Insert(x, r, key), KeyIs(key, k)) == [x] + Filter(r, KeyIs(key, k))
    ensures key(x) != k ==> Filter(Insert(x, r, key), KeyIs(key, k)) == Filter(r, KeyIs(key, k))
    decreases |r|
  {
    if r == [] {
      FilterCons(x, [], KeyIs(key, k));
    } else if key(x) <= key(r[0]) {
      FilterCons(x, r, KeyIs(key, k));
    } else {
      var tail := Insert(x, r[1..], key);
      InsertStable(x, r[1..], key, k);
      ConsBefore(r[0], x, tail, r[1..], key, k);
      assert [r[0]] + r[1..] == r;
    }
  }

  /** Stability: among elements with equal keys the input order survives. */
  lemma {:induction false} SortByStable<T(!new)>(s: seq<T>, key: T -> int, k: int)
    ensures Filter(SortBy(s, key), KeyIs(key, k)) == Filter(s, KeyIs(key, k))
    decreases |s|
  {
    if s != [] {
      SortByStable(s[1..], key, k);
      InsertStable(s[0], SortBy(s[1..], key), key, k);
    }
  }

  /** A comparator that finds every pair equal leaves the order untouched. */
  lemma {:induction false} SortByConstantKey<T(!new)>(s: seq<T>, key: T -> int, k: int)
    requires forall i :: 0 <= i < |s| ==> key(s[i]) == k
    ensures SortBy(s, key) == s
  {
    SortByStable(s, key, k);
    FilterAll(s, KeyIs(key, k));
    var r := SortBy(s, key);
    assert forall i :: 0 <= i < |r| ==> key(r[i]) == k by {
      forall i | 0 <= i < |r|
        ensures key(r[i]) == k
      {
        assert r[i] in multiset(s);
      }
    }
    FilterAll(r, KeyIs(key, k));
  }
}

=== FILE: taskcard.dfy ===
/** A task card on the board: the approaching-deadline highlight and the
    priority badge. */
module TaskCard {
  import opened Seqs
  import opened Calendar
  import opened Domain
  import opened Deadlines

  /** The card border and date turn red: the deadline is approaching and
      the task is not done. */
  predicate Highlighted(t: Task, now: Moment)
  {
    DeadlineApproaching(t.dueDate, now) && t.status != Done
  }

  /** In whole days: a task not done whose due day is today or one of the
      next two days.  A done task is never highlighted. */
  lemma {:induction false} HighlightedByDays(t: Task, now: Moment)
    ensures Highlighted(t, now)
        <==> t.status != Done && ParseKey(t.dueDate).Some?
             && 0 <= DayNumber(ParseKey(t.dueDate).value) - DayNumber(now.date) <= 2
  {
    ApproachingIffWithinTwoDays(t.dueDate, now);
  }

  /** Badge variant for a priority label; labels other than the three
      known ones get the outline badge. */
  function PriorityVariant(priority: string): (v: string)
    ensures priority == "high" <==> v == "destructive"
    ensures priority == "medium" <==> v == "warning"
    ensures priority == "low" <==> v == "secondary"
    ensures priority != "high" && priority != "medium" && priority != "low" <==> v == "outline"
  {
    if priority == "high" then "destructive"
    else if priority == "medium" then "warning"
    else if priority == "low" then "secondary"
    else "outline"
  }

  /** Every priority a task can hold gets its own badge, never the
      outline fallback. */
  lemma {:induction false} VariantOfPriority(p: Priority, q: Priority)
    ensures PriorityVariant(PriorityLabel(p)) != "outline"
    ensures PriorityVariant(PriorityLabel(p)) == PriorityVariant(PriorityLabel(q)) <==> p == q
  {
  }
}

=== FILE: taskdetail.dfy ===
/** The task detail dialog: the edit fields loaded from the selected
    task, saving them back without validation, the two-click delete,
    the status buttons, and closing. */
module TaskDetail {
  import opened Seqs
  import opened Calendar
  import opened Domain
  import TaskForm
  import Board

  /** The dialog's own state.  `dueDate` is `None` for an Invalid Date
      (a stored due date that does not read). */
  datatype DetailState = DetailState(
    editing: bool,
    title: string,
    description: string,
    status: Status,
    priority: Priority,
    dueDate: Option<Date>,
    assigneeId: string,
    hasMeeting: bool,
    meetingTime: string,
    meetingLink: string,
    confirmDelete: bool)

  /** What a click asks of the board: nothing, `onUpdate(task)`,
      `onDelete(id)`, or nothing because formatting the date threw. */
  datatype Effect = NoEffect | Update(task: Task) | Delete(id: string) | Throws

  datatype Step = Step(state: DetailState, effect: Effect)

  /** `s || fallback` on a string. */
  function OrElse(s: string, fallback: string): (r: string)
    ensures s != "" ==> r == s
    ensures s == "" ==> r == fallback
  {
    if s != "" then s else fallback
  }

  /** The effect hook run when a task is selected: every field from the
      task, with fallbacks for the missing ones, out of edit mode and with
      the delete confirmation disarmed. */
  function Load(t: Task, today: Date): (s: DetailState)
    ensures !s.editing && !s.confirmDelete
    ensures s.title == t.title && s.description == t.description
    ensures s.status == t.status && s.priority == t.priority
    ensures t.dueDate == "" ==> s.dueDate == Some(today)
    ensures t.dueDate != "" ==> s.dueDate == ParseKey(t.dueDate)
    ensures s.assigneeId == (if t.assignee.Some? then OrElse(t.assignee.value.id, "user-1") else "user-1")
    ensures s.hasMeeting <==> t.meeting.Some?
    ensures s.meetingTime == (if t.meeting.Some? then OrElse(t.meeting.value.time, "09:00") else "09:00")
    ensures s.meetingLink == (if t.meeting.Some? then t.meeting.value.link else "")
  {
    DetailState(
      false, t.title, t.description, t.status, t.priority,
      if t.dueDate != "" then ParseKey(t.dueDate) else Some(today),
      if t.assignee.Some? then OrElse(t.assignee.value.id, "user-1") else "user-1",
      t.meeting.Some?,
      if t.meeting.Some? then OrElse(t.meeting.value.time, "09:00") else "09:00",
      if t.meeting.Some? then t.meeting.value.link else "",
      false)
  }

  /** `handleSave`: the task with the edited fields, the assignee looked up
      and the date formatted, handed to `onUpdate`; edit mode ends.
      Nothing happens without a task; an unreadable date throws. */
  function Save(task: Option<Task>, s: DetailState): (r: Step)
    ensures task.None? ==> r == Step(s, NoEffect)
    ensures task.Some? && s.dueDate.None? ==> r == Step(s, Throws)
    ensures task.Some? && s.dueDate.Some? ==>
              && r.state == s.(editing := false) && r.effect.Update?
              && var u := r.effect.task;
                 && u.id == task.value.id
                 && u.title == s.title && u.description == s.description
                 && u.status == s.status && u.priority == s.priority
                 && u.dueDate == IsoKey(s.dueDate.value)
                 && u.assignee == TaskForm.FindMember(TaskForm.TeamMembers, s.assigneeId)
                 && (u.meeting.Some? <==> s.hasMeeting)
                 && (u.meeting.Some? ==> u.meeting.value == MeetingLink("Meeting for " + s.title, s.meetingTime, s.meetingLink))
  {
    if task.None? then Step(s, NoEffect)
    else if s.dueDate.None? then Step(s, Throws)
    else
      var meeting := if s.hasMeeting then Some(MeetingLink("Meeting for " + s.title, s.meetingTime, s.meetingLink)) else None;
      var updated := task.value.(title := s.title, description := s.description, status := s.status,
                                 priority := s.priority, dueDate := IsoKey(s.dueDate.value),
                                 assignee := TaskForm.FindMember(TaskForm.TeamMembers, s.assigneeId),
                                 meeting := meeting);
      Step(s.(editing := false), Update(updated))
  }

  /** A task the dialog can show and save back unchanged: a readable,
      canonical due date, an assignee from the roster, and a meeting (if
      any) with a time and the title the dialog gives it. */
  predicate RoundTrips(t: Task)
  {
    && ParseKey(t.dueDate).Some? && ParseKey(t.dueDate).value.year >= 1
    && t.assignee.Some? && t.assignee.value in TaskForm.TeamMembers
    && (t.meeting.Some? ==> t.meeting.value.time != "" && t.meeting.value.title == "Meeting for " + t.title)
  }

  /** Opening such a task and saving without edits hands back the task. */
  lemma {:induction false} LoadThenSaveKeepsTask(t: Task, today: Date)
    requires RoundTrips(t)
    ensures Save(Some(t), Load(t, today)).effect == Update(t)
  {
    var s := Load(t, today);
    IsoKeyOfParse(t.dueDate);
    assert IsoKey(s.dueDate.value) == t.dueDate;
    AssigneeKept(t.assignee.value);
    assert s.assigneeId == t.assignee.value.id;
    var u := Save(Some(t), s).effect.task;
    assert u.meeting == t.meeting;
    assert u == t;
  }

  /** A roster member's id is looked up as that member. */
  lemma {:induction false} AssigneeKept(m: Member)
    requires m in TaskForm.TeamMembers
    ensures m.id != "" && TaskForm.FindMember(TaskForm.TeamMembers, m.id) == Some(m)
  {
    var i :| 0 <= i < |TaskForm.TeamMembers| && TaskForm.TeamMembers[i] == m;
    TaskForm.TeamIdsDistinct();
    TaskForm.FindMemberOfRoster(TaskForm.TeamMembers, i);
    assert |TaskForm.TeamMembers[i].id| == 6;
  }

  /** Saving an unassigned task without edits assigns it to the first
      member: the fallback id is looked up like a chosen one. */
  lemma {:induction false} SaveAssignsUnassigned(t: Task, today: Date)
    requires t.assignee.None? && ParseKey(t.dueDate).Some?
    ensures Save(Some(t), Load(t, today)).effect.task.assignee == Some(TaskForm.TeamMembers[0])
  {
    TaskForm.TeamIdsDistinct();
    TaskForm.FindMemberOfRoster(TaskForm.TeamMembers, 0);
  }

  /** `handleDelete`: the first click arms the confirmation, a click while
      armed deletes the task. */
  function DeleteClick(task: Option<Task>, s: DetailState): (r: Step)
    ensures s.confirmDelete && task.Some? ==> r == Step(s, Delete(task.value.id))
    ensures !(s.confirmDelete && task.Some?) ==> r == Step(s.(confirmDelete := true), NoEffect)
  {
    if s.confirmDelete && task.Some? then Step(s, Delete(task.value.id)) else Step(s.(confirmDelete := true), NoEffect)
  }

  /** A freshly opened task is deleted by the second click and not the
      first. */
  lemma {:induction false} DeleteNeedsTwoClicks(t: Task, today: Date)
    ensures DeleteClick(Some(t), Load(t, today)).effect == NoEffect
    ensures DeleteClick(Some(t), DeleteClick(Some(t), Load(t, today)).state).effect == Delete(t.id)
  {
  }

  /** `handleStatusChange`: outside edit mode the task is updated at once
      with the new status; in edit mode only the field changes. */
  function StatusChange(task: Task, s: DetailState, status: Status): (r: Step)
    ensures !s.editing ==> r == Step(s, Update(task.(status := status)))
    ensures s.editing ==> r == Step(s.(status := status), NoEffect)
  {
    if !s.editing then Step(s, Update(task.(status := status))) else Step(s.(status := status), NoEffect)
  }

  /** Closing leaves edit mode and disarms the delete confirmation. */
  function OnDetailOpenChange(s: DetailState, isOpen: bool): (r: DetailState)
    ensures isOpen ==> r == s
    ensures !isOpen ==> !r.editing && !r.confirmDelete && r == s.(editing := false, confirmDelete := false)
  {
    if isOpen then s else s.(editing := false, confirmDelete := false)
  }

  /** After closing through the dialog's handler and reopening, one click
      never deletes. */
  lemma {:induction false} CloseDisarmsDelete(task: Option<Task>, s: DetailState)
    ensures DeleteClick(task, OnDetailOpenChange(OnDetailOpenChange(s, false), true)).effect == NoEffect
  {
  }

  /** The footer's Close as intended: through the dialog's handler, so the
      dialog leaves edit mode and disarms the delete confirmation. */
  function CloseDetail(d: Dialog<DetailState>): (r: Dialog<DetailState>)
    ensures !r.open && !r.form.editing && !r.form.confirmDelete
    ensures r.form.title == d.form.title && r.form.status == d.form.status
  {
    Dialog(OnDetailOpenChange(d.form, false), false)
  }

  /** The footer's Close as written calls the board's setter directly
      (`Domain.CancelAsWritten`).  Reopening the same task object does not
      run the loading effect again, so after one click on Delete, Close and
      reopening, the next click deletes at once; the intended Close asks
      again. */
  lemma {:induction false} CloseAsWrittenKeepsArmed(t: Task, today: Date)
    ensures var armed := DeleteClick(Some(t), Load(t, today)).state;
            && armed.confirmDelete
            && Open(CancelAsWritten(Dialog(armed, true))).form.confirmDelete
            && DeleteClick(Some(t), Open(CancelAsWritten(Dialog(armed, true))).form).effect == Delete(t.id)
            && DeleteClick(Some(t), Open(CloseDetail(Dialog(armed, true))).form).effect == NoEffect
  {
  }

  /** A status button outside edit mode changes the board exactly as
      dragging the card to that column does. */
  lemma {:induction false} StatusChangeIsDrag(tasks: seq<Task>, task: Task, s: DetailState, from: Board.DragLocation, to: Board.DragLocation)
    requires !s.editing && from != to
    requires forall i :: 0 <= i < |tasks| && tasks[i].id == task.id ==> tasks[i] == task
    ensures Board.UpdateTask(tasks, StatusChange(task, s, to.droppableId).effect.task)
         == Board.OnDragEnd(tasks, Board.DropResult(from, Some(to), task.id)).tasks
  {
  }
}

=== FILE: taskform.dfy ===
/** The add-task dialog: its fields and their defaults, the validation
    that fills the error map, and the task draft a valid form submits. */
module TaskForm {
  import opened Seqs
  import opened Text
  import opened Calendar
  import opened Domain

  /** The assignees the dialog offers. */
  const TeamMembers: seq<Member> := [
    Member("user-1", "John Doe", "/placeholder.svg?height=32&width=32", "JD"),
    Member("user-2", "Sarah Johnson", "/placeholder.svg?height=32&width=32", "SJ"),
    Member("user-3", "Mike Brown", "/placeholder.svg?height=32&width=32", "MB"),
    Member("user-4", "Emily Clark", "/placeholder.svg?height=32&width=32", "EC"),
    Member("user-5", "Alex Wong", "/placeholder.svg?height=32&width=32", "AW")
  ]

  function MemberWithId(id: string): Member -> bool
  {
    (m: Member) => m.id == id
  }

  /** `teamMembers.find((member) => member.id === id)`. */
  function FindMember(roster: seq<Member>, id: string): (r: Option<Member>)
    ensures r.Some? ==> r.value in roster && r.value.id == id
    ensures r.None? <==> forall i :: 0 <= i < |roster| ==> roster[i].id != id
  {
    FindFirst(roster, MemberWithId(id))
  }

  predicate DistinctIds(roster: seq<Member>)
  {
    forall j, k :: 0 <= j < k < |roster| ==> roster[j].id != roster[k].id
  }

  /** No two members offered share an id. */
  lemma {:induction false} TeamIdsDistinct()
    ensures DistinctIds(TeamMembers)
  {
    forall j, k | 0 <= j < k < |TeamMembers|
      ensures TeamMembers[j].id != TeamMembers[k].id
    {
      assert TeamMembers[j].id[5] != TeamMembers[k].id[5];
    }
  }

  /** In a roster without shared ids, every member is found by its id. */
  lemma {:induction false} FindMemberOfRoster(roster: seq<Member>, i: int)
    requires DistinctIds(roster) && 0 <= i < |roster|
    ensures FindMember(roster, roster[i].id) == Some(roster[i])
  {
    FindFirstAt(roster, MemberWithId(roster[i].id), i);
  }

  /** The dialog's state; `dueDate` is `None` when the date picker was
      cleared.  `errors` maps a field name to its message. */
  datatype TaskForm = TaskForm(
    title: string,
    description: string,
    status: Status,
    priority: Priority,
    dueDate: Option<Date>,
    assigneeId: string,
    hasMeeting: bool,
    meetingTime: string,
    meetingLink: string,
    errors: map<string, string>)

  /** `resetForm` (and the initial state): due today, assigned to the
      first member, no meeting, no errors. */
  function DefaultForm(today: Date): TaskForm
  {
    TaskForm("", "", Todo, Medium, Some(today), "user-1", false, "09:00", "", map[])
  }

  /** `validateForm`: one message per missing field; the meeting fields
      count only while the meeting switch is on. */
  function ValidationErrors(f: TaskForm): (e: map<string, string>)
    ensures "title" in e <==> IsBlank(f.title)
    ensures "description" in e <==> IsBlank(f.description)
    ensures "dueDate" in e <==> f.dueDate.None?
    ensures "meetingTime" in e <==> f.hasMeeting && f.meetingTime == ""
    ensures "meetingLink" in e <==> f.hasMeeting && IsBlank(f.meetingLink)
    ensures e.Keys <= {"title", "description", "dueDate", "meetingTime", "meetingLink"}
    ensures "title" in e ==> e["title"] == "Title is required"
    ensures "description" in e ==> e["description"] == "Description is required"
    ensures "dueDate" in e ==> e["dueDate"] == "Due date is required"
    ensures "meetingTime" in e ==> e["meetingTime"] == "Meeting time is required"
    ensures "meetingLink" in e ==> e["meetingLink"] == "Meeting link is required"
  {
    var e0: map<string, string> := map[];
    var e1 := if IsBlank(f.title) then e0["title" := "Title is required"] else e0;
    var e2 := if IsBlank(f.description) then e1["description" := "Description is required"] else e1;
    var e3 := if f.dueDate.None? then e2["dueDate" := "Due date is required"] else e2;
    var e4 := if f.hasMeeting && f.meetingTime == "" then e3["meetingTime" := "Meeting time is required"] else e3;
    if f.hasMeeting && IsBlank(f.meetingLink) then e4["meetingLink" := "Meeting link is required"] else e4
  }

  /** The form passes exactly when every required field is filled. */
  predicate Complete(f: TaskForm)
  {
    && !IsBlank(f.title) && !IsBlank(f.description) && f.dueDate.Some?
    && (f.hasMeeting ==> f.meetingTime != "" && !IsBlank(f.meetingLink))
  }

  lemma {:induction false} ValidIffComplete(f: TaskForm)
    ensures ValidationErrors(f) == map[] <==> Complete(f)
  {
    var e := ValidationErrors(f);
    if !Complete(f) {
      assert "title" in e || "description" in e || "dueDate" in e || "meetingTime" in e || "meetingLink" in e;
    }
  }

  /** With the meeting switch off, the meeting fields cannot block a
      submission. */
  lemma {:induction false} MeetingFieldsIgnoredWithoutMeeting(f: TaskForm, time: string, link: string)
    requires !f.hasMeeting
    ensures ValidationErrors(f.(meetingTime := time, meetingLink := link)) == ValidationErrors(f)
  {
  }

  /** A fresh form is missing exactly its title and description. */
  lemma {:induction false} DefaultFormMissesTitleAndDescription(today: Date)
    ensures ValidationErrors(DefaultForm(today)).Keys == {"title", "description"}
  {
    var e := ValidationErrors(DefaultForm(today));
    assert "title" in e && "description" in e;
  }

  /** The dialog after a submit: its form, whether it stays open, and the
      draft handed to `onAddTask` if the form was valid. */
  datatype Submission = Submission(form: TaskForm, open: bool, added: Option<TaskDraft>)

  /** The meeting a task with the switch on carries. */
  function MeetingFor(f: TaskForm): (m: Option<MeetingLink>)
    ensures m.Some? <==> f.hasMeeting
    ensures m.Some? ==>
              m.value.title == "Meeting for " + f.title && m.value.time == f.meetingTime && m.value.link == f.meetingLink
  {
    if f.hasMeeting then Some(MeetingLink("Meeting for " + f.title, f.meetingTime, f.meetingLink)) else None
  }

  /** `handleSubmit`: an incomplete form stays open showing its errors; a
      complete one is handed over as a draft, reset and closed. */
  function Submit(f: TaskForm, open: bool, today: Date): (r: Submission)
    ensures r.added.Some? <==> Complete(f)
    ensures r.added.None? ==> r.form == f.(errors := ValidationErrors(f)) && r.open == open
    ensures r.added.Some? ==> r.form == DefaultForm(today) && !r.open
    ensures r.added.Some? ==>
              var d := r.added.value;
              && d.title == f.title && d.description == f.description
              && d.status == f.status && d.priority == f.priority
              && d.dueDate == IsoKey(f.dueDate.value)
              && d.assignee == FindMember(TeamMembers, f.assigneeId)
              && d.meeting == MeetingFor(f)
  {
    ValidIffComplete(f);
    var errors := ValidationErrors(f);
    if errors != map[] then
      Submission(f.(errors := errors), open, None)
    else
      var draft := TaskDraft(f.title, f.description, f.status, f.priority,
                             IsoKey(f.dueDate.value), FindMember(TeamMembers, f.assigneeId), MeetingFor(f));
      Submission(DefaultForm(today), false, Some(draft))
  }

  /** A submitted draft has a title and description, a meeting with a time
      and a link, and a due date that reads back as the day picked. */
  lemma {:induction false} SubmittedDraftIsComplete(f: TaskForm, open: bool, today: Date, d: TaskDraft)
    requires Submit(f, open, today).added == Some(d)
    requires f.dueDate.Some? && ValidDate(f.dueDate.value) && 1 <= f.dueDate.value.year <= 9999
    ensures !IsBlank(d.title) && !IsBlank(d.description)
    ensures ParseKey(d.dueDate) == f.dueDate
    ensures d.meeting.Some? ==> d.meeting.value.time != "" && !IsBlank(d.meeting.value.link)
  {
    KeyReadsBack(d.dueDate, f.dueDate.value);
  }

  /** Choosing an offered member assigns the task to that member. */
  lemma {:induction false} SubmittedAssignee(f: TaskForm, open: bool, today: Date, i: int)
    requires Submit(f, open, today).added.Some?
    requires 0 <= i < |TeamMembers| && f.assigneeId == TeamMembers[i].id
    ensures Submit(f, open, today).added.value.assignee == Some(TeamMembers[i])
  {
    TeamIdsDistinct();
    FindMemberOfRoster(TeamMembers, i);
  }

  /** The dialog's `onOpenChange` handler: closing through it resets the
      form (to-do, medium, first member, due today, meeting at 09:00, no
      errors); opening keeps it. */
  function OnOpenChange(f: TaskForm, isOpen: bool, today: Date): (r: TaskForm)
    ensures !isOpen ==> r == DefaultForm(today)
    ensures !isOpen ==> && r.errors == map[] && r.title == "" && r.description == ""
                        && r.status == Todo && r.priority == Medium && r.dueDate == Some(today)
                        && r.assigneeId == "user-1" && !r.hasMeeting && r.meetingTime == "09:00"
    ensures isOpen ==> r == f
  {
    if isOpen then f else DefaultForm(today)
  }

  /** Whatever was typed before, closing leaves the same fresh form. */
  lemma {:induction false} CloseForgetsInput(f: TaskForm, g: TaskForm, today: Date)
    ensures OnOpenChange(f, false, today) == OnOpenChange(g, false, today)
    ensures Submit(OnOpenChange(f, false, today), true, today).added.None?
  {
    DefaultFormMissesTitleAndDescription(today);
    ValidIffComplete(DefaultForm(today));
  }

  /** Cancel as intended: closing through the dialog's own handler, so the
      next opening shows a fresh form. */
  function Cancel(d: Dialog<TaskForm>, today: Date): (r: Dialog<TaskForm>)
    ensures !r.open && r.form == DefaultForm(today)
  {
    Dialog(OnOpenChange(d.form, false, today), false)
  }

  /** After a failed submit, Cancel as written keeps the "Title is required"
      message, and reopening shows it again; the intended Cancel reopens on
      a form without errors. */
  lemma {:induction false} CancelAsWrittenKeepsErrors(today: Date)
    ensures var s := Submit(DefaultForm(today), true, today);
            && s.open && "title" in s.form.errors
            && Open(CancelAsWritten(Dialog(s.form, s.open))).form == s.form
            && Open(CancelAsWritten(Dialog(s.form, s.open))).form.errors["title"] == "Title is required"
            && Open(Cancel(Dialog(s.form, s.open), today)).form.errors == map[]
  {
    DefaultFormMissesTitleAndDescription(today);
    ValidIffComplete(DefaultForm(today));
  }
}

=== FILE: tasklist.dfy ===
/** The "My Tasks" page: the all / completed / pending / overdue tabs,
    the date and priority sort, and the done checkbox. */
module TaskList {
  import opened Seqs
  import opened Calendar
  import opened Domain
  import opened Deadlines

  /** Overdue as the list shows it: due before now and not done. */
  predicate IsOverdue(t: Task, now: Moment)
  {
    IsPastDue(t.dueDate, now) && t.status != Done
  }

  /** The tabs, by their values `all`, `completed`, `pending`, `overdue`;
      `OtherTab` is any other value. */
  datatype TaskTab = AllTab | Completed | Pending | Overdue | OtherTab

  /** Whether a task is listed under `tab`; an unknown tab lists everything. */
  function InTab(tab: TaskTab, now: Moment): Task -> bool
  {
    (t: Task) =>
      match tab
      case AllTab => true
      case Completed => t.status == Done
      case Pending => t.status != Done
      case Overdue => IsOverdue(t, now)
      case OtherTab => true
  }

  function TabTasks(tasks: seq<Task>, tab: TaskTab, now: Moment): (r: seq<Task>)
    ensures forall t :: t in r <==> t in tasks && InTab(tab, now)(t)
    ensures SubsequenceOf(r, tasks)
  {
    FilterIsSubsequence(tasks, InTab(tab, now));
    Filter(tasks, InTab(tab, now))
  }

  /** The completed and pending tabs split the list between them. */
  lemma {:induction false} CompletedPendingPartition(tasks: seq<Task>, now: Moment)
    ensures multiset(TabTasks(tasks, Completed, now)) + multiset(TabTasks(tasks, Pending, now)) == multiset(tasks)
    ensures |TabTasks(tasks, Completed, now)| + |TabTasks(tasks, Pending, now)| == |tasks|
  {
    var done := InTab(Completed, now);
    FilterPartition(tasks, done);
    FilterCongruent(tasks, Not(done), InTab(Pending, now));
  }

  /** The overdue tab is the pending tab narrowed to tasks due before now. */
  lemma {:induction false} OverdueNarrowsPending(tasks: seq<Task>, now: Moment)
    ensures TabTasks(tasks, Overdue, now)
         == Filter(TabTasks(tasks, Pending, now), (t: Task) => IsPastDue(t.dueDate, now))
  {
    FilterTwice(tasks, InTab(Pending, now), (t: Task) => IsPastDue(t.dueDate, now), InTab(Overdue, now));
  }

  // ---------------------------------------------------------------------
  // Sorting
  // ---------------------------------------------------------------------

  /** The sort selection, split at its dash: `dueDate-asc`, `dueDate-desc`,
      `priority-desc` or `priority-asc` from the menu. */
  datatype SortOrder = SortOrder(field: string, direction: string)

  /** `priorityOrder`: low 1, medium 2, high 3. */
  function PriorityRank(p: Priority): (n: int)
    ensures 1 <= n <= 3
  {
    match p
    case Low => 1
    case Medium => 2
    case High => 3
  }

  /** The day a task is due; only consulted for readable dates. */
  function DueDay(t: Task): int
  {
    if ParseKey(t.dueDate).Some? then DayNumber(ParseKey(t.dueDate).value) else 0
  }

  predicate DatesReadable(tasks: seq<Task>)
  {
    forall i :: 0 <= i < |tasks| ==> ParseKey(tasks[i].dueDate).Some?
  }

  /** The comparator `(a, b) => key(a) - key(b)` as a key; an unknown field
      compares everything equal. */
  function SortKey(order: SortOrder): Task -> int
  {
    (t: Task) =>
      if order.field == "dueDate" then (if order.direction == "asc" then DueDay(t) else -DueDay(t))
      else if order.field == "priority" then
        (if order.direction == "asc" then PriorityRank(t.priority) else -PriorityRank(t.priority))
      else 0
  }

  /** The sorted list: a stable sort by the selected comparator.  It is
      always a permutation; an Invalid Date makes the date comparator
      answer NaN and leaves the order to the engine, so the date order is
      promised only when every date reads. */
  function SortTasks(tasks: seq<Task>, order: SortOrder): (r: seq<Task>)
    ensures multiset(r) == multiset(tasks)
    ensures order.field == "dueDate" && order.direction == "asc" && DatesReadable(tasks) ==>
              forall i, j :: 0 <= i < j < |r| ==> DueDay(r[i]) <= DueDay(r[j])
    ensures order.field == "dueDate" && order.direction != "asc" && DatesReadable(tasks) ==>
              forall i, j :: 0 <= i < j < |r| ==> DueDay(r[i]) >= DueDay(r[j])
    ensures order.field == "priority" && order.direction == "asc" ==>
              forall i, j :: 0 <= i < j < |r| ==> PriorityRank(r[i].priority) <= PriorityRank(r[j].priority)
    ensures order.field == "priority" && order.direction != "asc" ==>
              forall i, j :: 0 <= i < j < |r| ==> PriorityRank(r[i].priority) >= PriorityRank(r[j].priority)
  {
    SortBy(tasks, SortKey(order))
  }

  /** Tasks that compare equal keep their list order. */
  lemma {:induction false} SortTasksStable(tasks: seq<Task>, order: SortOrder, k: int)
    requires order.field == "dueDate" ==> DatesReadable(tasks)
    ensures Filter(SortTasks(tasks, order), KeyIs(SortKey(order), k)) == Filter(tasks, KeyIs(SortKey(order), k))
  {
    SortByStable(tasks, SortKey(order), k);
  }

  /** A field the comparator does not know leaves the list as it is. */
  lemma {:induction false} UnknownFieldKeepsOrder(tasks: seq<Task>, order: SortOrder)
    requires order.field != "dueDate" && order.field != "priority"
    ensures SortTasks(tasks, order) == tasks
  {
    SortByConstantKey(tasks, SortKey(order), 0);
  }

  /** What the page shows: the tab's tasks in the selected order. */
  function VisibleTasks(tasks: seq<Task>, tab: TaskTab, order: SortOrder, now: Moment): (r: seq<Task>)
    ensures multiset(r) == multiset(TabTasks(tasks, tab, now))
    ensures forall t :: t in r <==> t in tasks && InTab(tab, now)(t)
    ensures order.field == "dueDate" && order.direction == "asc" && DatesReadable(tasks) ==>
              forall i, j :: 0 <= i < j < |r| ==> DueDay(r[i]) <= DueDay(r[j])
    ensures order.field == "dueDate" && order.direction != "asc" && DatesReadable(tasks) ==>
              forall i, j :: 0 <= i < j < |r| ==> DueDay(r[i]) >= DueDay(r[j])
    ensures order.field == "priority" && order.direction == "asc" ==>
              forall i, j :: 0 <= i < j < |r| ==> PriorityRank(r[i].priority) <= PriorityRank(r[j].priority)
    ensures order.field == "priority" && order.direction != "asc" ==>
              forall i, j :: 0 <= i < j < |r| ==> PriorityRank(r[i].priority) >= PriorityRank(r[j].priority)
  {
    var shown := TabTasks(tasks, tab, now);
    assert DatesReadable(tasks) ==> DatesReadable(shown) by {
      forall i | 0 <= i < |shown|
        ensures shown[i] in tasks
      {
        assert shown[i] in shown;
      }
    }
    var r := SortTasks(shown, order);
    assert forall t :: t in r <==> t in shown by {
      forall t
        ensures t in r <==> t in shown
      {
        assert t in r <==> t in multiset(r);
        assert t in shown <==> t in multiset(shown);
      }
    }
    r
  }

  // ---------------------------------------------------------------------
  // The done checkbox
  // ---------------------------------------------------------------------

  /** The checkbox: a done task is reopened as to-do, any other is done. */
  function Toggled(s: Status): (r: Status)
    ensures r == Done <==> s != Done
    ensures r != Done ==> r == Todo
  {
    if s == Done then Todo else Done
  }

  /** `toggleTaskStatus`: toggle every task with the id, keep the rest. */
  function ToggleTask(tasks: seq<Task>, id: string): (r: seq<Task>)
    ensures |r| == |tasks|
    ensures forall i :: 0 <= i < |tasks| && tasks[i].id == id ==> r[i] == tasks[i].(status := Toggled(tasks[i].status))
    ensures forall i :: 0 <= i < |tasks| && tasks[i].id != id ==> r[i] == tasks[i]
  {
    seq(|tasks|, i requires 0 <= i < |tasks| =>
      if tasks[i].id == id then tasks[i].(status := Toggled(tasks[i].status)) else tasks[i])
  }

  /** Toggling twice gives done back to done tasks and makes every other
      target to-do, so in-progress and review are not restored. */
  lemma {:induction false} ToggleTwice(tasks: seq<Task>, id: string)
    ensures var r := ToggleTask(ToggleTask(tasks, id), id);
            forall i :: 0 <= i < |tasks| ==>
              r[i] == if tasks[i].id == id
                      then tasks[i].(status := if tasks[i].status == Done then Done else Todo)
                      else tasks[i]
  {
  }

  /** For targets that are to-do or done, toggling twice restores the list. */
  lemma {:induction false} ToggleTwiceRestores(tasks: seq<Task>, id: string)
    requires forall i :: 0 <= i < |tasks| && tasks[i].id == id ==> tasks[i].status == Todo || tasks[i].status == Done
    ensures ToggleTask(ToggleTask(tasks, id), id) == tasks
  {
    ToggleTwice(tasks, id);
  }
}

=== FILE: team.dfy ===
/** The team view: the search and department filter over the member
    directory, the department choices, and the project tab's team. */
module Team {
  import opened Seqs
  import opened Text

  datatype MemberStatus = Active | OnVacation

  datatype TeamMember = TeamMember(
    id: string,
    name: string,
    role: string,
    department: string,
    projects: seq<string>,
    status: MemberStatus)

  /** The query occurs, ignoring case, in the name, the role or the
      department. */
  function MatchesSearch(query: string): TeamMember -> bool
  {
    (m: TeamMember) =>
      IncludesIgnoreCase(m.name, query) || IncludesIgnoreCase(m.role, query) || IncludesIgnoreCase(m.department, query)
  }

  /** The choice "all", or a department equal to the choice ignoring case. */
  function MatchesDepartment(choice: string): TeamMember -> bool
  {
    (m: TeamMember) => choice == "all" || ToLower(m.department) == ToLower(choice)
  }

  function Matches(query: string, choice: string): TeamMember -> bool
  {
    (m: TeamMember) => MatchesSearch(query)(m) && MatchesDepartment(choice)(m)
  }

  /** `filteredTeamMembers`: the members passing both tests, in directory
      order. */
  function FilteredMembers(members: seq<TeamMember>, query: string, choice: string): (r: seq<TeamMember>)
    ensures forall m :: m in r <==> m in members && MatchesSearch(query)(m) && MatchesDepartment(choice)(m)
    ensures SubsequenceOf(r, members)
  {
    FilterIsSubsequence(members, Matches(query, choice));
    Filter(members, Matches(query, choice))
  }

  /** An empty search with "all" lists the whole directory. */
  lemma {:induction false} NoFilterListsEveryone(members: seq<TeamMember>)
    ensures FilteredMembers(members, "", "all") == members
  {
    forall i | 0 <= i < |members|
      ensures Matches("", "all")(members[i])
    {
      assert ToLower("") == "";
      ContainsEmpty(ToLower(members[i].name));
      assert IncludesIgnoreCase(members[i].name, "");
      assert MatchesSearch("")(members[i]);
      assert MatchesDepartment("all")(members[i]);
    }
    FilterAll(members, Matches("", "all"));
  }

  /** Filtering by department and then searching is filtering by both. */
  lemma {:induction false} SearchWithinDepartment(members: seq<TeamMember>, query: string, choice: string)
    ensures Filter(Filter(members, MatchesDepartment(choice)), MatchesSearch(query)) == FilteredMembers(members, query, choice)
  {
    FilterTwice(members, MatchesDepartment(choice), MatchesSearch(query), Matches(query, choice));
  }

  function LowerDepartment(m: TeamMember): string
  {
    ToLower(m.department)
  }

  function LowerDepartments(members: seq<TeamMember>): (r: seq<string>)
    ensures |r| == |members|
    ensures forall i :: 0 <= i < |r| ==> r[i] == ToLower(members[i].department)
  {
    seq(|members|, i requires 0 <= i < |members| => LowerDepartment(members[i]))
  }

  /** `departments`: "all", then each lowercased department once, in order
      of first appearance. */
  function Departments(members: seq<TeamMember>): (r: seq<string>)
    ensures |r| >= 1 && r[0] == "all"
    ensures NoDuplicates(r[1..])
    ensures forall d :: d in r[1..] <==> exists i :: 0 <= i < |members| && ToLower(members[i].department) == d
  {
    var lowered := LowerDepartments(members);
    var r := ["all"] + Distinct(lowered);
    assert r[1..] == Distinct(lowered);
    assert forall d :: d in lowered <==> exists i :: 0 <= i < |members| && ToLower(members[i].department) == d by {
      forall d | d in lowered
        ensures exists i :: 0 <= i < |members| && ToLower(members[i].department) == d
      {
        var i :| 0 <= i < |lowered| && lowered[i] == d;
      }
      forall d | exists i :: 0 <= i < |members| && ToLower(members[i].department) == d
        ensures d in lowered
      {
        var i :| 0 <= i < |members| && ToLower(members[i].department) == d;
        assert lowered[i] == d;
      }
    }
    r
  }

  /** The choices follow the directory: a department met at member `a`
      comes before one first met at a later member `b`. */
  lemma {:induction false} DepartmentsInFirstOccurrenceOrder(members: seq<TeamMember>, a: int, b: int, i: int, j: int)
    requires 0 <= a < b < |members|
    requires forall c :: 0 <= c < b ==> ToLower(members[c].department) != ToLower(members[b].department)
    requires 1 <= i < |Departments(members)| && 1 <= j < |Departments(members)|
    requires Departments(members)[i] == ToLower(members[a].department)
    requires Departments(members)[j] == ToLower(members[b].department)
    ensures i < j
  {
    var lowered := LowerDepartments(members);
    var r := Departments(members);
    assert r[1..] == Distinct(lowered);
    assert r[i] == Distinct(lowered)[i - 1] && r[j] == Distinct(lowered)[j - 1];
    assert lowered[..b][a] == r[i];
    assert r[j] !in lowered[..b];
    DistinctFirstOccurrenceOrder(lowered, b, i - 1, j - 1);
  }

  /** Every department choice offered, with an empty search, lists at
      least one member, and only members of that department. */
  lemma {:induction false} DepartmentChoiceSelects(members: seq<TeamMember>, d: string)
    requires d in Departments(members)[1..]
    ensures FilteredMembers(members, "", d) != []
    ensures forall m :: m in FilteredMembers(members, "", d) ==> d == "all" || ToLower(m.department) == d
  {
    var i :| 0 <= i < |members| && ToLower(members[i].department) == d;
    ToLowerIdempotent(members[i].department);
    assert ToLower("") == "";
    ContainsEmpty(ToLower(members[i].name));
    assert members[i] in FilteredMembers(members, "", d);
    forall m | m in FilteredMembers(members, "", d)
      ensures d == "all" || ToLower(m.department) == d
    {
      ToLowerIdempotent(m.department);
    }
  }

  /** The department choice is matched ignoring case on both sides. */
  lemma {:induction false} DepartmentIgnoresCase(m: TeamMember, choice: string)
    requires choice != "all" && ToLower(choice) != "all"
    ensures MatchesDepartment(choice)(m) <==> MatchesDepartment(ToLower(choice))(m)
  {
    ToLowerIdempotent(choice);
  }

  /** `currentProjectTeam`: the members working on the given project. */
  function ProjectTeam(members: seq<TeamMember>, project: string): (r: seq<TeamMember>)
    ensures forall m :: m in r <==> m in members && project in m.projects
    ensures SubsequenceOf(r, members)
  {
    FilterIsSubsequence(members, (m: TeamMember) => project in m.projects);
    Filter(members, (m: TeamMember) => project in m.projects)
  }

  /** The project tab shows "Marketing Campaign"'s team. */
  const CurrentProject: string := "Marketing Campaign"

  /** The member card's badge: "Active" for an active member, otherwise
      "On Vacation". */
  function StatusBadge(s: MemberStatus): (badge: string)
    ensures s == Active <==> badge == "Active"
    ensures s == OnVacation ==> badge == "On Vacation"
  {
    if s == Active then "Active" else "On Vacation"
  }
}

=== FILE: text.dfy ===
/** The string operations the components use: `trim`, `toLowerCase`,
    `includes`, `String(n)`, `padStart` and `Number.parseInt`.  Characters are compared as
    code points; whitespace and case folding are the ASCII subset of what
    JavaScript does. */
module Text {
  import opened Seqs

  /** ASCII whitespace: space, tab, line feed, vertical tab, form feed,
      carriage return. */
  predicate IsSpace(c: char)
  {
    c == ' ' || ('\t' <= c <= '\r')
  }

  function TrimStart(s: string): (r: string)
    ensures |r| <= |s| && r == s[|s| - |r|..]
    ensures r != [] ==> !IsSpace(r[0])
    ensures forall i :: 0 <= i < |s| - |r| ==> IsSpace(s[i])
  {
    if s != [] && IsSpace(s[0]) then TrimStart(s[1..]) else s
  }

  function TrimEnd(s: string): (r: string)
    ensures |r| <= |s| && r == s[..|r|]
    ensures r != [] ==> !IsSpace(r[|r| - 1])
    ensures forall i :: |r| <= i < |s| ==> IsSpace(s[i])
  {
    if s != [] && IsSpace(s[|s| - 1]) then TrimEnd(s[..|s| - 1]) else s
  }

  /** `String.prototype.trim`. */
  function Trim(s: string): string
  {
    TrimEnd(TrimStart(s))
  }

  /** `!s.trim()`: the field holds nothing but whitespace. */
  predicate IsBlank(s: string)
  {
    forall i :: 0 <= i < |s| ==> IsSpace(s[i])
  }

  /** Trimming leaves nothing exactly when every character is whitespace,
      so `IsBlank` is the test `!s.trim()` makes. */
  lemma {:induction false} BlankIffAllSpace(s: string)
    ensures Trim(s) == "" <==> IsBlank(s)
  {
  }

  function LowerChar(c: char): (r: char)
    ensures 'A' <= c <= 'Z' ==> 'a' <= r <= 'z'
    ensures !('A' <= c <= 'Z') ==> r == c
  {
    if 'A' <= c <= 'Z' then (c as int + 32) as char else c
  }

  /** `String.prototype.toLowerCase`, on ASCII letters. */
  function ToLower(s: string): (r: string)
    ensures |r| == |s|
    ensures forall i :: 0 <= i < |s| ==> r[i] == LowerChar(s[i])
  {
    if s == [] then [] else [LowerChar(s[0])] + ToLower(s[1..])
  }

  /** Lower-casing twice is lower-casing once. */
  lemma {:induction false} ToLowerIdempotent(s: string)
    ensures ToLower(ToLower(s)) == ToLower(s)
  {
    var r := ToLower(s);
    assert forall i :: 0 <= i < |r| ==> LowerChar(r[i]) == r[i];
  }

  /** `q` occurs in `s` starting at position `i`. */
  predicate OccursAt(s: string, q: string, i: int)
  {
    0 <= i <= |s| - |q| && s[i..i + |q|] == q
  }

  /** `s.includes(q)`: `q` occurs in `s` at some position. */
  predicate Contains(s: string, q: string)
  {
    exists i | 0 <= i <= |s| - |q| :: OccursAt(s, q, i)
  }

  /** Every string contains the empty string. */
  lemma {:induction false} ContainsEmpty(s: string)
    ensures Contains(s, "")
  {
    assert OccursAt(s, "", 0);
  }

  /** `s.toLowerCase().includes(q.toLowerCase())`. */
  predicate IncludesIgnoreCase(s: string, q: string)
  {
    Contains(ToLower(s), ToLower(q))
  }

  /** Case-insensitive inclusion ignores the case of the query. */
  lemma {:induction false} IncludesIgnoreCaseOfLower(s: string, q: string)
    ensures IncludesIgnoreCase(s, ToLower(q)) == IncludesIgnoreCase(s, q)
  {
    ToLowerIdempotent(q);
  }

  // ---------------------------------------------------------------------
  // Decimal digits
  // ---------------------------------------------------------------------

  predicate IsDigit(c: char)
  {
    '0' <= c <= '9'
  }

  function Digit(d: int): (c: char)
    requires 0 <= d < 10
    ensures IsDigit(c)
  {
    (48 + d) as char
  }

  function DigitValue(c: char): (d: int)
    requires IsDigit(c)
    ensures 0 <= d < 10
    ensures Digit(d) == c
  {
    c as int - 48
  }

  lemma {:induction false} DigitInjective(a: int, b: int)
    requires 0 <= a < 10 && 0 <= b < 10 && Digit(a) == Digit(b)
    ensures a == b
  {
    assert DigitValue(Digit(a)) == a;
  }

  /** `String(n)` for a non-negative integer: no leading zeros. */
  function DecimalString(n: nat): (s: string)
    ensures 1 <= |s|
    ensures forall i :: 0 <= i < |s| ==> IsDigit(s[i])
    ensures n < 10 <==> |s| == 1
    decreases n
  {
    if n < 10 then [Digit(n)] else DecimalString(n / 10) + [Digit(n % 10)]
  }

  predicate AllDigits(s: string)
  {
    forall i :: 0 <= i < |s| ==> IsDigit(s[i])
  }

  /** The number a string of decimal digits denotes. */
  function DecimalValue(s: string): (n: nat)
    requires AllDigits(s)
  {
    if s == [] then 0 else DecimalValue(s[..|s| - 1]) * 10 + DigitValue(s[|s| - 1])
  }

  /** Reading back the decimal text of a number gives the number. */
  lemma {:induction false} DecimalRoundTrip(n: nat)
    ensures DecimalValue(DecimalString(n)) == n
    decreases n
  {
    var s := DecimalString(n);
    if n < 10 {
      assert s[..0] == [];
    } else {
      DecimalRoundTrip(n / 10);
      assert s[..|s| - 1] == DecimalString(n / 10);
    }
  }

  /** Different numbers have different decimal texts. */
  lemma {:induction false} DecimalStringInjective(a: nat, b: nat)
    ensures DecimalString(a) == DecimalString(b) <==> a == b
  {
    DecimalRoundTrip(a);
    DecimalRoundTrip(b);
  }

  /** A template literal `${prefix}${n}` as the components use for ids: the
      prefix, then the number's decimal digits. */
  function StampedId(prefix: string, stamp: nat): (id: string)
    ensures |id| > |prefix| && id[..|prefix|] == prefix
    ensures id[|prefix|..] == DecimalString(stamp)
  {
    prefix + DecimalString(stamp)
  }

  /** Different clock readings give different ids under one prefix. */
  lemma {:induction false} StampedIdInjective(prefix: string, a: nat, b: nat)
    ensures StampedId(prefix, a) == StampedId(prefix, b) <==> a == b
  {
    if StampedId(prefix, a) == StampedId(prefix, b) {
      DecimalStringInjective(a, b);
    }
  }

  /** `String(n)` for any integer: a minus sign before negative numbers. */
  function IntToString(n: int): string
  {
    if n < 0 then "-" + DecimalString(-n) else DecimalString(n)
  }

  /** `s.padStart(w, "0")`: zeros in front until the string is `w` long;
      a string already that long is left alone. */
  function PadZero(s: string, w: nat): (r: string)
    ensures |r| == if |s| < w then w else |s|
    ensures r[|r| - |s|..] == s
    ensures forall i :: 0 <= i < |r| - |s| ==> r[i] == '0'
  {
    if |s| < w then seq(w - |s|, _ => '0') + s else s
  }

  lemma {:induction false} DecimalTwoDigits(n: nat)
    requires 10 <= n < 100
    ensures DecimalString(n) == [Digit(n / 10), Digit(n % 10)]
  {
  }

  lemma {:induction false} DecimalThreeDigits(n: nat)
    requires 100 <= n < 1000
    ensures DecimalString(n) == [Digit(n / 100), Digit(n / 10 % 10), Digit(n % 10)]
  {
    DecimalTwoDigits(n / 10);
    assert n / 10 / 10 == n / 100;
  }

  lemma {:induction false} DecimalFourDigits(n: nat)
    requires 1000 <= n < 10000
    ensures DecimalString(n) == [Digit(n / 1000), Digit(n / 100 % 10), Digit(n / 10 % 10), Digit(n % 10)]
  {
    DecimalThreeDigits(n / 10);
    assert n / 10 / 100 == n / 1000;
    assert n / 10 / 10 % 10 == n / 100 % 10;
  }

  /** Two-digit zero padding of a number below 100 spells its tens and its
      units. */
  lemma {:induction false} PadTwoDigits(n: nat)
    requires n < 100
    ensures PadZero(DecimalString(n), 2) == [Digit(n / 10), Digit(n % 10)]
  {
    if n >= 10 {
      DecimalTwoDigits(n);
    } else {
      assert seq(1, _ => '0') == ['0'];
    }
  }

  /** Four-digit zero padding of a number below 10000 spells its four
      decimal digits. */
  lemma {:induction false} PadFourDigits(n: nat)
    requires n < 10000
    ensures PadZero(DecimalString(n), 4)
         == [Digit(n / 1000), Digit(n / 100 % 10), Digit(n / 10 % 10), Digit(n % 10)]
  {
    if n >= 1000 {
      DecimalFourDigits(n);
    } else if n >= 100 {
      DecimalThreeDigits(n);
      assert seq(1, _ => '0') == ['0'];
    } else if n >= 10 {
      DecimalTwoDigits(n);
      assert seq(2, _ => '0') == ['0', '0'];
    } else {
      assert seq(3, _ => '0') == ['0', '0', '0'];
    }
  }

  /** The longest run of digits the string starts with. */
  function LeadingDigits(s: string): (r: string)
    ensures AllDigits(r) && |r| <= |s| && r == s[..|r|]
    ensures |r| < |s| ==> !IsDigit(s[|r|])
  {
    if s != [] && IsDigit(s[0]) then [s[0]] + LeadingDigits(s[1..]) else []
  }

  /** `Number.parseInt(s)` for text that starts with a digit: the value of
      the leading digits; anything else reads as nothing (`NaN`). */
  function ParseInt(s: string): (r: Option<nat>)
    ensures r.Some? <==> s != [] && IsDigit(s[0])
    ensures r.Some? ==> r.value == DecimalValue(LeadingDigits(s))
  {
    if s != [] && IsDigit(s[0]) then Some(DecimalValue(LeadingDigits(s))) else None
  }

  lemma {:induction false} LeadingDigitsOfDigits(s: string)
    requires AllDigits(s)
    ensures LeadingDigits(s) == s
    decreases |s|
  {
    if s != [] {
      LeadingDigitsOfDigits(s[1..]);
    }
  }

  /** Parsing the decimal text of a number gives the number back. */
  lemma {:induction false} ParseIntRoundTrip(n: nat)
    ensures ParseInt(DecimalString(n)) == Some(n)
  {
    LeadingDigitsOfDigits(DecimalString(n));
    DecimalRoundTrip(n);
  }
}
